=== FILE: README.md ===
# sgqlc type registry and codec, modelled in Dafny

This project models the core of the `sgqlc` GraphQL client library, in
`sgqlc/types/__init__.py`. It covers:

- **The schema registry.** An ordered name table plus a table per kind, and
  a per-schema wrapper cache. Adding a type, removing one, snapshotting a
  schema from a base, and lookups.
- **The wrapper factory.** `non_null(T)` makes `T!` and `list_of(T)` makes
  `[T]`, both cached by name in `T`'s own schema.
- **The declarations.** What a `class X(Scalar)`, `class X(Enum)`,
  `class X(Union)` or container class statement leaves behind. For
  containers this is the builder in `ContainerTypeMeta.__init__`:
  - kind promotion;
  - collecting the interfaces;
  - merging the bases' field tables;
  - normalising own members into fields, visited in `dir()` order.

  As written, `dir(cls)` raises `TypeError` for every container class with
  a base (see Findings). The model states both what the source does and the
  corrected construction, which the codec and the renderer work on.
- **Wire names.** `_to_graphql_name`, and attaching fields and arguments to
  their container.
- **The instance codec.**
  - Decoding JSON with a type, optionally driven by a selection list with
    aliases.
  - Attribute assignment that writes back into the backing JSON object.
  - Iteration and length.
  - The JSON snapshot `__to_json_value__`.
- **The text renderer.** The GraphQL type-system text (section 3,
  "Type System", of the GraphQL specification) of every kind of type, field,
  argument, argument list and schema. Also the input literals of scalars,
  enums, lists, input objects, arguments and variables.

The model uses value semantics throughout:

- A schema is a value. Every operation that changes one returns the new
  schema, so two schemas never share state. That makes "later changes to
  either schema do not affect the other" hold by construction.
- A Python class's identity is a caller-chosen `uid` on each declared type.
  A schema's identity is its `id`.
- The default schema, `global_schema`, is `Registry.Default()` with id 0,
  holding the five built-in scalars.
- An exception raised after part of the state has already changed is
  modelled with `Outcome(state, raised)`. Examples are the second `del` in
  `Schema.__isub__` and the write-back in `__setattr__`. Every other error
  is an `Err` of `Result`.
- Python objects shared between two places are copies here. A `Field`
  object bound to two names, and a nested JSON object shared by an instance
  and its parent's store, are two values in the model.

Modules, one per file:

| file | module | models |
|---|---|---|
| prelude.dfy | Prelude | `Option`, `Result`, `Outcome` |
| first_seen.dfy | FirstSeen | keeping each item's first occurrence, the order `update` and guarded appends produce |
| ordered_map.dfy | OrderedMaps | `OrderedDict` as a sequence of pairs: get, put (first position kept), update, delete |
| text.dfy | Text | `sep.join`, `str.split(c)`, `str.split()`, `str.title()` on ASCII letters, `s * n`, string order |
| sorting.dfy | Sorting | `sorted()` on names |
| json.dfy | JsonValues | JSON values, with Python's `in` and iteration on them |
| types.dfy | Types | kinds, type descriptors, fields, arguments, exceptions, `__ensure__`, the built-in scalars |
| registry.dfy | Registry | `Schema` |
| wrappers.dfy | Wrappers | `non_null`, `list_of` |
| naming.dfy | Naming | `_to_graphql_name`, `_set_container` |
| builder.dfy | Builder | `ContainerTypeMeta.__init__` and its helpers |
| declare.dfy | Declarations | class statements and their registration, field lookup on a class |
| field_loop.dfy | FieldLoop | the generic shape of the attribute loops, with its laws |
| codec.dfy | Codec | calling a type on JSON |
| snapshot.dfy | Snapshot | `__to_json_value__`, `__setattr__`, `__getitem__`, `__iter__`, `__len__`, `__contains__` |
| render.dfy | Render | `__to_graphql__` and `__to_graphql_input__` |
| roundtrip.dfy | RoundTrip | decode followed by snapshot, against a reference definition |
| scenario.dfy | Scenario | a worked schema: `Node`, `Person`, and a promoted interface `Both` |

Where the library's own documentation and its code disagree, the model follows
the code:

- **Re-adding a type.** `schema += t` only refuses a name bound to a
  *different* type. Re-adding the same type changes nothing.
- **Removal.** `schema -= t` raises `KeyError` for an absent name. For a
  type filed under another kind, it raises after the name has already left
  the name table.
- **Nested decodes.** A nested field decode gets no selection list
  (line 609). The selection entry's own sub-selection is not passed down.
- **A failing field.** It aborts the whole construction with `ValueError`
  (lines 612-614). It does not leave a partial object.
- **Unresolvable own members.** They are skipped silently, not rejected
  (lines 503-506).
- **Interface-kind bases.** They are appended without a duplicate check.
  Only the bases' own interfaces are de-duplicated (lines 484-488).
- **Literals.** Only `Input` classes have an object literal, and it is always
  one line, `{a: 1, b: 2}`.
- **Enums.**
  - Enum rendering opens no brace (line 396).
  - Enum choices are not checked for uniqueness.

## Model

| member | source | states |
|---|---|---|
| Registry.Default | sgqlc/types/__init__.py:1005-1036 | the default schema is consistent and binds `Int`, `Float`, `String`, `Boolean`, `ID` to the built-in scalars |
| Registry.New | sgqlc/types/__init__.py:148-164 | a schema built from a base answers every lookup and every kind table as the base does, keeps consistency, and starts with an empty wrapper cache |
| Registry.Contains | sgqlc/types/__init__.py:166-167 | `name in schema` holds exactly when looking the name up succeeds |
| Registry.Lookup | sgqlc/types/__init__.py:169-170 | `schema[name]` succeeds exactly for a registered name and raises `KeyError` naming it otherwise |
| Registry.Registered | sgqlc/types/__init__.py:182-183 | iteration yields every registered type once, in registration order |
| Registry.ParseKindText | sgqlc/types/__init__.py:172-175 | every kind's `__kind__` text reads back as that kind |
| Registry.Attr | sgqlc/types/__init__.py:172-180 | `schema.<key>` gives the kind table of that name when one exists, else the type of that name, else `AttributeError` |
| Registry.Add | sgqlc/types/__init__.py:185-202 | `schema += t` raises `ValueError` exactly when the name is bound to another type; otherwise the name and the kind table map the name to t, and nothing else changes |
| Registry.AddUnder | sgqlc/types/__init__.py:196-201 | the same registration with t filed under a given kind table, the one the class had when it registered |
| Registry.Remove | sgqlc/types/__init__.py:204-214 | `schema -= t` raises `KeyError` with nothing changed for an absent name; it succeeds exactly when both tables hold the name; it deletes the name from the name table and, on success, from the kind table; no other entry changes |
| Registry.AddConsistent | sgqlc/types/__init__.py:185-202 | registration keeps every type filed under its own name in the name table and in its own kind's table |
| Registry.AddPresent | sgqlc/types/__init__.py:196-201 | re-adding a type already registered under its name changes nothing |
| Registry.AddIdempotent | sgqlc/types/__init__.py:185-202 | adding the same type twice leaves the schema the first add left |
| Registry.RemoveConsistent | sgqlc/types/__init__.py:204-214 | removing a registered type succeeds, deletes its name and keeps the schema consistent |
| Registry.AddThenRemove | sgqlc/types/__init__.py:185-214 | adding a fresh type and removing it gives back the name table and every kind table |
| Registry.MisfiledNotRemovable | sgqlc/types/__init__.py:211-213 | a fresh type filed under another kind's table cannot be removed: `KeyError` after its name already left the name table |
| Types.Builtin | sgqlc/types/__init__.py:1030-1036 | each Python built-in maps to a scalar of the default schema |
| Types.Ensure | sgqlc/types/__init__.py:262-268 | a type is taken as it is, a built-in is mapped to its scalar, and anything else raises `TypeError` |
| Types.MakeField | sgqlc/types/__init__.py:944-945 | a new field holds the resolved type, the given wire name and arguments, no Python name yet, and fails exactly when the type does not resolve |
| Types.MakeArg | sgqlc/types/__init__.py:793-794 | a new argument holds the resolved type, wire name and default, and fails when the type does not resolve (the default's `assert` is not modelled, see Left out) |
| Types.MetaOf | sgqlc/types/__init__.py:410-421 | a class built by `EnumMeta` (`Enum`, its subclasses and their wrappers) has kind `enum`; every declared container is built by `ContainerTypeMeta` (564) |
| Types.NoChoicesEnum | sgqlc/types/__init__.py:371-376 | a class whose inherited `__choices__` is empty (the root `Enum`, a choiceless enum, a wrapper of one) is built by `EnumMeta` |
| Wrappers.Fresh | sgqlc/types/__init__.py:297-301 | a new wrapper is named `T!` or `[T]` and keeps its base's kind and schema |
| Wrappers.Wrap | sgqlc/types/__init__.py:282-302 | corrected (see Findings): resolves the type (or `TypeError`); returns the cached wrapper of that name when there is one; otherwise raises `ValueError` naming the wrapper for an enum without choices (`EnumMeta.__init__`, 375-376) and else caches a fresh one; never touches the name or kind tables |
| Wrappers.NonNull | sgqlc/types/__init__.py:279-303 | corrected (see Findings): `non_null(T)` fails exactly when T does not resolve or `T!` is uncached and T is an enum without choices (`ValueError` naming `T!`); a first successful call makes the wrapper `T!` of T |
| Wrappers.ListOf | sgqlc/types/__init__.py:306-341 | corrected (see Findings): `list_of(T)` fails exactly when T does not resolve or `[T]` is uncached and T is an enum without choices (`ValueError` naming `[T]`); a first successful call makes the wrapper `[T]` of T |
| Wrappers.WrapAsWritten | sgqlc/types/__init__.py:279-341 | as written, an uncached wrapper fails exactly when its base's metaclass raises: `TypeError` for a class `ContainerTypeMeta` builds, `ValueError` for an enum without choices; every request but the container one comes out as in the corrected `Wrap` |
| Wrappers.ContainerWrapRaises | sgqlc/types/__init__.py:297-302 | as written, wrapping a container raises, where the corrected wrapper is created and cached |
| Wrappers.WrapCached | sgqlc/types/__init__.py:284-286 | a request fails only for an uncached enum without choices; asking for the same wrapper twice gives the same wrapper and leaves the schema as the first call left it |
| Wrappers.CacheKeyedByName | sgqlc/types/__init__.py:283-286 | the cache is keyed by name: a second type with the same name gets the first type's cached wrapper |
| Wrappers.EnumWrapRaises | sgqlc/types/__init__.py:297-302 | wrapping an enum without choices raises `ValueError` naming the wrapper and caches nothing, as written and corrected alike |
| Naming.ToGraphqlName | sgqlc/types/__init__.py:726-731 | the wire name has no `_`, is shorter by exactly the number of underscores, and equals the name when it has none |
| Naming.GraphqlNameIsScan | sgqlc/types/__init__.py:726-731 | split-and-title agrees on every name with a character-by-character reference reading of the rule |
| Naming.GraphqlNameIdempotent | sgqlc/types/__init__.py:726-731 | deriving a wire name from a wire name changes nothing |
| Naming.AttachArg | sgqlc/types/__init__.py:713-718 | attaching sets the Python name; a non-empty wire name is kept, an empty one is derived from the Python name |
| Naming.AttachArgs | sgqlc/types/__init__.py:854-856 | every argument is attached under its own key, in order |
| Naming.AttachField | sgqlc/types/__init__.py:947-950 | a field is attached as an item; its arguments keep their keys, and each is found under its key attached under that key |
| Naming.FirstAttachmentWins | sgqlc/types/__init__.py:713-718 | attaching twice renames the field but keeps the wire name the first attachment fixed, unless that came out empty |
| Sorting.SortNames | sgqlc/types/__init__.py:526-532 | `sorted()` returns a sorted permutation of the names |
| Text.Words | sgqlc/types/__init__.py:378-379 | `str.split()` gives the non-empty whitespace-free runs |
| Text.WordsLayout | sgqlc/types/__init__.py:378-379 | every string is its words woven between whitespace gaps, the inner gaps non-empty: the words are the string's maximal whitespace-free runs, in order |
| Text.WordsWeave | sgqlc/types/__init__.py:378-379 | conversely, any non-empty whitespace-free words woven between whitespace gaps (inner gaps non-empty) split back into exactly those words |
| Text.WordsJoin | sgqlc/types/__init__.py:378-379 | words joined by single spaces split back into the same words |
| Builder.FixKind | sgqlc/types/__init__.py:468-479 | only an interface changes kind, and it becomes a type exactly when some base is a type |
| Builder.AddMissing | sgqlc/types/__init__.py:486-488 | appends exactly the new items, keeps the accumulator in front, and keeps it duplicate-free |
| Builder.Collect | sgqlc/types/__init__.py:481-490 | the collected list starts with the accumulator, holds every admitted base and every interface of every base, and nothing else |
| Builder.AddMissingKeep | sgqlc/types/__init__.py:486-488 | the guarded appends are a first-occurrence walk over the new items |
| Builder.CollectOrder | sgqlc/types/__init__.py:481-490 | the order is that of one flat walk over the bases in order: each admitted base where it stands, then its interfaces, each at its first occurrence |
| Builder.InterfacesAsWritten | sgqlc/types/__init__.py:481-490 | as written, every interface-kind base is listed, the abstract `Interface` class included |
| Builder.Interfaces | sgqlc/types/__init__.py:481-490 | corrected (see Findings): every declared interface base and every interface of a base is listed; `Interface` is listed only if a base lists it |
| Builder.Reach | sgqlc/types/__init__.py:492-494 | `__inherit_fields` gets through the bases before the first one not built by `ContainerTypeMeta`, where reading `b.__fields` raises; it gets through all of them exactly when each has a field table |
| Builder.InheritedPart | sgqlc/types/__init__.py:492-494 | the table left by `__inherit_fields` is the merge of the bases it got through, the full merge when every base has a table |
| Builder.Inherit | sgqlc/types/__init__.py:492-494 | merging keeps the accumulator's names in front, holds a name exactly when some base has it, and gives it the last such base's field |
| Builder.InheritFields | sgqlc/types/__init__.py:492-494 | the inherited table has exactly the names of the bases' tables, each with the field of the last base that has it |
| Builder.InheritOrder | sgqlc/types/__init__.py:492-494 | the merged names are the accumulator's, then the bases' names base after base, each at its first occurrence |
| Builder.InheritFieldsOrder | sgqlc/types/__init__.py:492-494 | the inherited names are the bases' names in base order, each once at its first occurrence |
| Builder.OwnField | sgqlc/types/__init__.py:497-511 | a public member that is a field or resolves to a type gives a field under its own name; underscore names and unresolvable members give none |
| Builder.OwnFields | sgqlc/types/__init__.py:496-512 | each visited name holds its own field if it has one; inherited names keep their place; new names are appended in visiting order |
| Builder.WrapperBuilt | sgqlc/types/__init__.py:297-301 | corrected (see Findings): a wrapper of a container is the class `ContainerTypeMeta` builds from the wrapper's namespace (only underscore names) and the wrapped type as sole base: the same kind, interfaces (the wrapped type itself when it is an interface, then its interfaces) and field table, the base's table having one entry per name as an `OrderedDict` does |
| Types.TableMeta | sgqlc/types/__init__.py:462 | only a class `ContainerTypeMeta` builds, a wrapper of a container among them, has a field table with entries |
| Builder.Construct | sgqlc/types/__init__.py:460-473 | corrected (see Findings): the container class keeps the declaration's name, schema and identity |
| Builder.StoppedFields | sgqlc/types/__init__.py:492-494 | a class with a base lacking a field table stops at the first such base: it holds exactly the names of the container bases before it, and none of its own members |
| Builder.BuildContainer | sgqlc/types/__init__.py:460-473 | corrected (see Findings): a class with bases gets the fixed kind and the collected interfaces; one without bases is a root with no fields |
| Builder.BuildFields | sgqlc/types/__init__.py:472-512 | corrected (see Findings): when every base has a field table, the built table has one entry per name, the inherited names first, and under each name the own field or else the last base's |
| Builder.BuildOrder | sgqlc/types/__init__.py:472-512 | corrected (see Findings): when every base has a field table, the built names are the inherited ones in first-occurrence order, then the own names not inherited, ascending |
| Builder.OwnOrderAfter | sgqlc/types/__init__.py:496-512 | after the inherited names come own names only, none inherited, ascending when visited in sorted order |
| Builder.InterruptedFields | sgqlc/types/__init__.py:472-497 | as written, when every base has a field table, the class left behind has the built class's kind and its inherited table, a prefix of the built one, and lacks every field only its own members contribute |
| Builder.PublicNameWire | sgqlc/types/__init__.py:498-510 | a name that passes the underscore filter gets a non-empty wire name |
| Builder.OwnFieldAttached | sgqlc/types/__init__.py:510-511 | an own field is stored under its Python name with a wire name |
| Builder.BuildAttached | sgqlc/types/__init__.py:492-512 | when every base has a field table and the bases' fields are attached, every field of the built class sits under its own Python name with a wire name |
| Declarations.Register | sgqlc/types/__init__.py:240-247 | registration raises `ValueError` exactly when auto-registration is on and the name is bound to another type; a clash or switched-off registration leaves the schema alone |
| Declarations.RegisterConsistent | sgqlc/types/__init__.py:246-247 | registering a class under its own kind keeps the schema consistent |
| Declarations.DeclareScalar | sgqlc/types/__init__.py:354-360 | a scalar class registers under its name in the scalar table, or raises on a clash |
| Declarations.ChoiceSeq | sgqlc/types/__init__.py:378-381 | string choices are split on whitespace, a sequence is kept as it is, and missing choices give none |
| Declarations.EnumType | sgqlc/types/__init__.py:378-381 | the enum class holds the normalised choices |
| Declarations.DeclareEnum | sgqlc/types/__init__.py:373-381 | registration comes first; empty choices then raise `ValueError` with the class already registered |
| Declarations.EnumChoicesFromText | sgqlc/types/__init__.py:378-379 | choices written as space-separated words come out as those words |
| Declarations.UnionType | sgqlc/types/__init__.py:432-439 | the union class holds its member types as written |
| Declarations.DeclareUnion | sgqlc/types/__init__.py:240-247 | a union class registers under its name in the union table, or raises on a clash |
| Declarations.DeclareContainer | sgqlc/types/__init__.py:460-494 | corrected (see Findings): a container with bases registers under its fixed kind, or raises `ValueError` on a clash; an enum base raises `TypeError` (metaclass conflict) before anything is registered; a base without a field table raises `AttributeError` naming it after registration; one without bases registers nothing |
| Declarations.DeclareContainerConsistent | sgqlc/types/__init__.py:460-473 | declaring a container keeps the schema consistent |
| Declarations.DeclareContainerAsWritten | sgqlc/types/__init__.py:460-532 | as written, a container statement with bases always raises: `TypeError` before registration for an enum base, `ValueError` on a clash, otherwise `AttributeError` at the first base without a field table or else `TypeError` from `dir(cls)`, with the class already registered under the kind it started with; one without bases registers nothing |
| Declarations.DeclaredRemovable | sgqlc/types/__init__.py:204-214 | a fresh container statement completes exactly when every base has a field table; unless a base is an enum, the class is filed under its final kind and can be removed, giving back the name table |
| Declarations.PromotedNotRemovable | sgqlc/types/__init__.py:468-469 | as written, with no enum base (which would stop the class before registration), the statement raises leaving an interface promoted to a type in the interface table, and `schema -= t` then raises `KeyError` after deleting the name |
| Declarations.FieldOf | sgqlc/types/__init__.py:514-518 | `cls[key]` is the field of that name, or `KeyError` naming class and key |
| Declarations.HasField | sgqlc/types/__init__.py:537-538 | `key in cls` holds exactly when `cls[key]` succeeds |
| JsonValues.Contains | sgqlc/types/__init__.py:606 | `key in value` is key membership for an object and fails with `TypeError` for null, booleans and numbers |
| JsonValues.Iterate | sgqlc/types/__init__.py:319 | iteration yields a list's items, one item per object key or character, and fails for null, booleans and numbers |
| Codec.Decode | sgqlc/types/__init__.py:595-626 | a container (a declared one, or the roots `Type`, `Interface`, `Input`) decodes into an instance of that class with the selection it was given, backed by the same JSON, or `{}` for null |
| Codec.DecodeAbstract | sgqlc/types/__init__.py:356-360 | the root `Scalar` gives the JSON back unchanged; the root `Enum` has no choices, so it accepts only null and raises `ValueError` otherwise (424-429); the root `Union` cannot be called on JSON |
| Codec.DecodeItems | sgqlc/types/__init__.py:319 | decoding items keeps their number |
| Codec.StepAt | sgqlc/types/__init__.py:604-614 | an absent wire name is skipped; a present one stores under the alias or field name, or fails with `ValueError` naming the class |
| Codec.Steps | sgqlc/types/__init__.py:616-623 | one planned assignment per selection entry, or per field of the class without a selection |
| Codec.FieldsOk | sgqlc/types/__init__.py:604-623 | the loop succeeds exactly when every present assignment decodes, and otherwise raises the `ValueError` of one that does not |
| Codec.FieldsNames | sgqlc/types/__init__.py:610-611 | the attributes and the field cache gain exactly the names of the present assignments, with the same keys |
| Codec.FieldsValues | sgqlc/types/__init__.py:610-611 | each name holds the decoded value and field of the last present assignment of that name |
| Codec.DecodeObject | sgqlc/types/__init__.py:595-626 | an object decodes exactly when every present assignment does; the instance then materializes exactly those names with their last values |
| Codec.DecodeNotObject | sgqlc/types/__init__.py:606 | a boolean or number fails with `TypeError`; a list or string containing the first wire name fails too |
| Codec.ItemsLaw | sgqlc/types/__init__.py:319 | a list decodes exactly when every item does, and then holds the decoded items in order |
| Codec.DecodeList | sgqlc/types/__init__.py:316-319 | the list wrapper maps null to null and decodes a list item by item, with the same selection |
| Codec.DecodeNonNull | sgqlc/types/__init__.py:289-292 | the non-null wrapper refuses null with `ValueError` and otherwise decodes as its base without the selection |
| Codec.DecodeEnum | sgqlc/types/__init__.py:424-429 | an enum accepts null and exactly its choices, unchanged, and raises `ValueError` for anything else |
| Codec.DecodeScalar | sgqlc/types/__init__.py:359-360 | a scalar maps null to null and otherwise gives its converter's result, failing exactly when the converter fails |
| Codec.DecodeNullContainer | sgqlc/types/__init__.py:599-602 | a container decodes null as an empty instance backed by `{}`; a union, the root `Union` included, cannot be called on JSON |
| Snapshot.JsonOf | sgqlc/types/__init__.py:329-332 | scalars and enums, their roots included, give the value back (366-368); containers and lists give null for null; a union, the root `Union` included, has no conversion |
| Snapshot.ToJson | sgqlc/types/__init__.py:366-368 | a plain JSON value converts as its type's rule for JSON says; a scalar or enum, their roots included, gives back any value that is JSON, a Python list among them |
| Snapshot.GetAttr | sgqlc/types/__init__.py:639-643 | among field names (the instance's `attrs`), reading one succeeds exactly for a materialized one, and fails naming class and attribute otherwise |
| Snapshot.HasAttr | sgqlc/types/__init__.py:651-652 | among field names (the instance's `attrs`), `name in inst` holds exactly when reading the attribute succeeds |
| Snapshot.Names | sgqlc/types/__init__.py:648-649 | iteration yields exactly the names in the field cache, once each |
| Snapshot.Length | sgqlc/types/__init__.py:654-658 | `len` counts what iteration yields |
| Snapshot.SetAttr | sgqlc/types/__init__.py:628-637 | assignment always sets the attribute and touches no other; a name outside the field cache leaves the store alone; a cached one writes its JSON form under the wire name |
| Snapshot.SetAttrInSync | sgqlc/types/__init__.py:628-637 | an assignment that raises nothing keeps the store in step with every materialized attribute |
| Snapshot.SnapshotOk | sgqlc/types/__init__.py:555-561 | the snapshot succeeds exactly when every declared field with an attribute converts |
| Snapshot.SnapshotKeys | sgqlc/types/__init__.py:556-560 | the snapshot's keys are exactly the wire names of the declared fields the instance has; aliases leave no trace |
| Snapshot.SnapshotValues | sgqlc/types/__init__.py:556-560 | under each wire name is the converted attribute of the last declared field with that wire name |
| Snapshot.SnapshotLaw | sgqlc/types/__init__.py:552-561 | the snapshot of an instance succeeds exactly when its declared attributes convert, and is then the object of their conversions by wire name |
| Snapshot.ToJsonContainer | sgqlc/types/__init__.py:672-673 | an instance converts through its class's snapshot loop |
| Snapshot.ToJsonNonNull | sgqlc/types/__init__.py:297-301 | the non-null wrapper converts exactly as its base does |
| RoundTrip.NullSnapshot | sgqlc/types/__init__.py:599-602 | a container decoded from null snapshots as `{}`, not as null |
| RoundTrip.ListRoundTrip | sgqlc/types/__init__.py:316-332 | given each item's round trip, a list decodes and snapshots as the reference list |
| RoundTrip.ObjectDeclared | sgqlc/types/__init__.py:616-623 | without a selection, the instance has exactly the fields whose wire names the input has |
| RoundTrip.ObjectConverted | sgqlc/types/__init__.py:608-611 | each such field converts back to the reference value of its raw value |
| RoundTrip.ObjectRoundTrip | sgqlc/types/__init__.py:552-626 | given each field's round trip, an object decodes and snapshots as the reference object |
| RoundTrip.RoundTripLaw | sgqlc/types/__init__.py:552-626 | decoding without a selection and then snapshotting gives the reference JSON, which drops exactly the undeclared keys |
| FirstSeen.DedupLaw | sgqlc/types/__init__.py:492-494 | the first-occurrence reference keeps exactly the input's elements, each once, ordered by where each first occurs |
| OrderedMaps.UpdateOrder | sgqlc/types/__init__.py:494 | `update` keeps the old keys in place and appends the new ones at their first occurrence |
| OrderedMaps.UpdateFresh | sgqlc/types/__init__.py:494 | `update` with keys that are new and distinct appends the entries in their order, so copying a table into an empty `OrderedDict` gives the same table |
| Render.Show | sgqlc/types/__init__.py:804 | `'%s'` writes text as it is and `None` as `None` |
| Render.Variable | sgqlc/types/__init__.py:764-769 | a variable is its name behind one `$` |
| Render.EnumInput | sgqlc/types/__init__.py:403-404 | an enum literal is the string itself or `None`; other values have none |
| Render.ScalarEnumLiteral | sgqlc/types/__init__.py:363-364 | a scalar literal is the JSON text of the value; an enum literal is the bare value |
| Render.ObjectInput | sgqlc/types/__init__.py:990-993 | an input literal of a value without `.items()` fails |
| Render.ArgText | sgqlc/types/__init__.py:798-804 | an argument is `wire: Type`, followed by ` = ` and its default's literal when it has one |
| Render.ArgInput | sgqlc/types/__init__.py:806-808 | an argument value is `wire: literal`, failing exactly when the literal does |
| Render.ArgEntry | sgqlc/types/__init__.py:887-889 | a value key that names no argument raises `KeyError` |
| Render.LayoutLaw | sgqlc/types/__init__.py:858-877 | up to three entries are `(a, b, c)` on one line; more are `(`, one prefixed entry per line, then `)` |
| Render.ArgsLayout | sgqlc/types/__init__.py:858-877 | no arguments give `""`; the list fails exactly when an argument does; otherwise the layout rule at indent+1 |
| Render.ArgsInputLayout | sgqlc/types/__init__.py:879-901 | no values give `""`; an unknown key or a failing literal fails; otherwise the layout rule at indent+2 |
| Render.FieldText | sgqlc/types/__init__.py:952-954 | a field is `wire(args): Type`, exactly `wire: Type` without arguments, failing exactly when its arguments do |
| Render.Core | sgqlc/types/__init__.py:297-301 | a wrapper renders through its base's class, with the same kind; a wrapper of a container takes the interfaces and field table of its own class |
| Render.FieldLines | sgqlc/types/__init__.py:547-548 | one line per field in table order, failing exactly when a field does |
| Render.EnumLines | sgqlc/types/__init__.py:395-401 | an enum is its `enum Name` line, one line per choice one level deeper, then `}` |
| Render.EnumOpensNoBrace | sgqlc/types/__init__.py:395-396 | the enum's first line has no opening brace |
| Render.ContainerOk | sgqlc/types/__init__.py:540-550 | a container's text, a wrapper of one included, fails exactly when a field of its own class's table fails |
| Render.ContainerLines | sgqlc/types/__init__.py:540-550 | a container is the header with ` implements I1, I2` when it has interfaces and ` {`, one line per field, then `}`; a wrapper of a container uses the interfaces and field table of its own class |
| Render.ContainerJoined | sgqlc/types/__init__.py:540-550 | a container's text, a wrapper of one included, is its header, prefixed fields and closing brace joined by newlines |
| Render.UnionLine | sgqlc/types/__init__.py:452-454 | a union is `union Name = ` followed by its member names separated by a vertical bar, on one line |
| Render.ListLiteral | sgqlc/types/__init__.py:321-327 | a list literal keeps null as `None` and is otherwise `[` item literals joined by `, ` `]` |
| Render.PiecesLaw | sgqlc/types/__init__.py:324-326 | the item literals are all computed, in order, and fail exactly when one does |
| Render.NonNullLiteral | sgqlc/types/__init__.py:294-295 | the non-null wrapper writes literals exactly as its base |
| Render.Entry | sgqlc/types/__init__.py:993-996 | an input object key naming no field raises `KeyError` |
| Render.ObjectEntriesLaw | sgqlc/types/__init__.py:992-996 | the entries fail exactly when one does, at the first that does, and are otherwise `wire: literal` in the value's key order |
| Render.ObjectLiteral | sgqlc/types/__init__.py:990-998 | an input literal is `{` entries joined by `, ` `}`, failing exactly when an entry fails |
| Render.SchemaJoined | sgqlc/types/__init__.py:219-224 | the schema's text fails exactly when a type's does, and is otherwise its lines joined by newlines |
| Render.SchemaLines | sgqlc/types/__init__.py:219-224 | the schema is `schema {`, one line per registered type in order, then `}` |
| Scenario.PersonBuilt | sgqlc/types/__init__.py:460-512 | corrected (see Findings): `Node` is an interface with field `id`; `Person(Type, Node)` is a type implementing Node with `id` then `name` |
| Scenario.PersonText | sgqlc/types/__init__.py:540-550 | corrected (see Findings): Person renders as `type Person implements Node {`, `  id: ID`, `  name: String`, `}` |
| Scenario.PersonRoundTrip | sgqlc/types/__init__.py:595-626 | decoding `{"id": "42", "name": "Ada"}` sets `id` and `name`, and the snapshot gives the same JSON back |
| Scenario.NodeInterruptedAsWritten | sgqlc/types/__init__.py:460-497 | as written, `Node` is left listing the abstract `Interface` class and without its `id` field |
| Scenario.NodeDeclaredAsWritten | sgqlc/types/__init__.py:460-532 | as written, `class Node(Interface)` raises `TypeError` with that class already registered |
| Scenario.NodeDeclared | sgqlc/types/__init__.py:460-512 | corrected, the statement completes and registers `Node` with its `id` field |
| Scenario.NodeTextAsWritten | sgqlc/types/__init__.py:540-550 | as written, the registered `Node` renders `interface Node implements Interface {` and `}` |
| Scenario.NodeText | sgqlc/types/__init__.py:540-550 | corrected, `Node` renders `interface Node {`, `  id: ID`, `}` |
| Scenario.NonNullNodeText | sgqlc/types/__init__.py:540-550 | corrected, `non_null(Node)` is a class whose only base is Node, so it renders `interface Node! implements Node {`, `  id: ID`, `}` |
| Scenario.BothNotRemovable | sgqlc/types/__init__.py:204-214 | as written, `class Both(Interface, Type)` raises with `Both` registered, and `schema -= Both` then raises with `Both` gone from the name table but still in the interface table |
| Scenario.BothRemovable | sgqlc/types/__init__.py:204-214 | filed under its final kind, `Both` is removed cleanly |

## Left out

- **Metaclass plumbing.** The `__getattr__` / `__dir__` / `ODict` attribute
  plumbing is replaced by explicit lookup functions.
  `ContainerTypeMeta.__getattr__` is `Declarations.FieldOf` under another
  exception name.
- **`dir()` order.** As written, `dir(cls)` raises (see Findings). The
  corrected construction visits the class body's own members, sorted. A
  `__dir__` repaired to call `type.__dir__(cls)` correctly would also list
  inherited field names, and `delattr` (line 512) would raise
  `AttributeError` on them, since they are not in the class's own
  namespace; the correction visits own members only.
- **`global_schema`.** The process-wide singleton is passed explicitly as a
  schema value.
- **Converters and `json.dumps`.** Scalar converters are a parameter. Their
  exceptions are modelled as `Err`. So is `json.dumps`, which gives a
  scalar's literal text.
- **Numbers.** JSON numbers are integers. Floats, the `Float` converter and
  `json.dumps` formatting are out of scope.
- **Convenience wrappers.** `__str__`, `__repr__` and `__bytes__` only
  repackage the renderers, so they are not modelled.
- Types.MakeArg: does not model `assert typ(default)` (lines 795-796). It
  raises `AssertionError` for a default whose conversion fails or whose
  converted value is falsy (`Arg(Int, default=0)`), and only while
  `assert` is enabled; the model carries no Python truthiness, so it
  promises no failure for a default.
- Snapshot.GetAttr: covers field names only. Python's `getattr` at lines
  639-643 also finds the instance's bookkeeping attributes `__json_data__`
  and `__fields_cache__` (set at lines 598, 601 and 626), and class
  attributes (methods, non-field class-body members); the model finds
  neither, so `inst['__json_data__']` succeeds in the source where the
  model reports `KeyError`.
- Snapshot.HasAttr: for the same reason, `name in inst` at lines 651-652 is
  also true for those bookkeeping and class attribute names, where the
  model says false.
- **Explicit metaclass.** A declaration whose bases are all scalars or
  unions models a class statement naming `metaclass=ContainerTypeMeta`
  explicitly; without it, such a statement would build a plain class and
  is not a container declaration.
- **Lazy type names.** The string-name branch of `BaseItem.type` is
  unreachable, because `__init__` always resolves the type through
  `__ensure__`.
- **`ArgDict` construction.** The constructor's argument-shape parsing is
  left out. An argument list is given as an ordered name-to-argument
  sequence.
- **Python identity.** A schema's `id` and a type's `uid` stand for it. The
  same uid in two different descriptors is not excluded.
- **Shared objects.** One `Field` object bound to two names in a class body
  is one object in Python: the second attachment renames it, so both keys
  hold a field named by the second. Here each key gets its own attached
  field. A nested JSON object read into an instance is shared between the
  child's store and the parent's; here they are copies, so a write to the
  child is not seen through the parent's JSON.
- **Cyclic types.** Datatype values are finite, so a type that refers to
  itself (a field of its own type) cannot be expressed.
- Render.EnumInput: gives a failure (`NotText`) for a non-string, non-null
  value. The source returns the value itself. Where it is formatted with
  `'%s'` (lines 806-808 and 995) Python's `str()` of it succeeds; only the
  `join`s at lines 326 and 803 fail on a non-string. The model does not
  carry Python's `str()` of JSON values, so it fails at the enum.
- Render.ArgInput: for the same reason, an enum argument whose value is not
  a string fails here, where the source prints the value with `str()`.
- Render.ObjectLiteral: for the same reason, an entry holding an enum value
  that is not a string fails here, where the source prints it with `str()`.
- Render.ObjectEntriesLaw: states the entries only when every one renders,
  so it inherits the enum restriction above.
- Naming.ToGraphqlName: title-casing is modelled on ASCII letters. Python's
  `str.title()` also changes other letters and can change the length
  (`'ß'` becomes `'Ss'`), so for such names the model's result and its
  length clause differ from the source.
- Naming.GraphqlNameIsScan: the same ASCII restriction as
  `Naming.ToGraphqlName`.
- Wrappers.NonNull: models the corrected wrapper. As written, `non_null` of
  an uncached container raises `TypeError` (see Findings and
  `Wrappers.WrapAsWritten`); the enum case raises in both.
- Wrappers.ListOf: models the corrected wrapper. As written, `list_of` of an
  uncached container raises `TypeError` (see Findings and
  `Wrappers.WrapAsWritten`); the enum case raises in both.
- Snapshot.ToJson: an instance stored under a scalar or enum field gives
  `NotJson`. The source's `__to_json_value__` returns the instance itself,
  which only `json.dumps` would then reject.
- Snapshot.SetAttr: the instance stored under a scalar field is kept as a
  value, and the parent's JSON is a copy (see Shared objects above).
- Render.ObjectInput: its contract states only the non-mapping case. The
  full behaviour is in `Render.ObjectLiteral`.
- Builder.BuildAttached: requires the class body to bind no empty name. In
  Python the empty string is not an identifier there. Its promise that each
  field carries its own key does not hold in the source for one `Field`
  object bound to two names (see Shared objects above).
- Codec.Decode: its own contract covers containers only. Each other kind is
  stated by `Codec.DecodeScalar`, `Codec.DecodeEnum`, `Codec.DecodeList`,
  `Codec.DecodeNonNull`, `Codec.DecodeNullContainer` and
  `Codec.DecodeAbstract`.
- Snapshot.JsonOf: its own contract covers the plain cases and unions. The
  non-null container and list cases are stated by `Snapshot.SnapshotLaw`
  and `RoundTrip.ListRoundTrip`.

## Findings

| source | as written | input that shows it | evidently intended | confidence | as-written member | corrected member |
|---|---|---|---|---|---|---|
| sgqlc/types/__init__.py:527 | `__dir__` calls `super(ContainerTypeMeta, cls).__dir__(cls)`; the bound `type.__dir__` takes no argument, so `dir(cls)` at line 497 raises `TypeError`. This happens after `BaseMeta.__init__` registered the class (246-247), and before any own member becomes a field | `class Node(Interface): id = ID` raises `TypeError`; the schema then holds `Node`, listing `Interface` and without the `id` field | the statement completes and registers `Node` with its `id` field | not executed | Scenario.NodeDeclaredAsWritten | Scenario.NodeDeclared |
| sgqlc/types/__init__.py:297-302 | `type(name, (t,), ...)` runs the metaclass of `t`; for a container that is `ContainerTypeMeta.__init__`, which raises as in the row above before the wrapper is cached (the same at 334-341 for lists). For an enum without choices `EnumMeta.__init__` raises `ValueError`; that is kept in both versions | `non_null(Interface)` raises `TypeError` | the wrapper `Interface!` is created and cached | not executed | Wrappers.ContainerWrapRaises | Wrappers.Wrap |
| sgqlc/types/__init__.py:481-490 | `__populate_interfaces` appends every base whose `__kind__` is `interface`, including the abstract `Interface` class itself | `class Node(Interface)`: the class left registered by the row above renders `interface Node implements Interface {` | only declared interfaces are listed: `interface Node {` | not executed | Scenario.NodeTextAsWritten | Scenario.NodeText |
| sgqlc/types/__init__.py:246-247 | the class registers under the kind it starts with, before `__fix_type_kind` (468-469) promotes an interface to `type`; `schema -= t` (211-213) then looks in the `type` table | `class Both(Interface, Type)` raises as in the first row, leaving `Both` registered under `interface` but of kind `type`; `schema -= schema['Both']` then raises `KeyError` after `Both` has left the name table | the class is filed under its final kind, so removal succeeds | not executed | Declarations.PromotedNotRemovable | Declarations.DeclaredRemovable |

=== FILE: builder.dfy ===
/** Declaring types: the steps `ContainerTypeMeta.__init__` runs when a
    container class statement executes (kind promotion, interface
    collection, field inheritance, own-field normalisation), registration in
    the class's schema, and the declaration of scalars, enums and unions. */
module Builder {
  import opened Prelude
  import opened OrderedMaps
  import opened Types
  import opened Registry
  import opened Naming
  import opened Sorting
  import opened FirstSeen
  import Text

  /** A container class statement. `kind` is the `__kind__` the class starts
      with (set in its body or inherited from its bases); `members` are the
      names its body binds, in definition order; `autoRegister` is false
      when the body sets `__auto_register = False`. */
  datatype ContainerDecl = ContainerDecl(uid: nat, name: string, kind: Kind, bases: seq<GType>,
                                         members: OMap<Member>, autoRegister: bool)

  /** Some base has kind `type`. */
  predicate AnyTypeBase(bases: seq<GType>)
  {
    exists i :: 0 <= i < |bases| && KindOf(bases[i]) == TypeKind
  }

  /** `__fix_type_kind`, applied to interfaces only: an interface with a base
      of kind `type` becomes a `type`. */
  function FixKind(kind: Kind, bases: seq<GType>): (r: Kind)
    ensures kind != InterfaceKind ==> r == kind
    ensures kind == InterfaceKind ==> (r == TypeKind <==> AnyTypeBase(bases))
    ensures kind == InterfaceKind && !AnyTypeBase(bases) ==> r == InterfaceKind
  {
    if kind != InterfaceKind then kind
    else if |bases| == 0 then
      InterfaceKind
    else if KindOf(bases[0]) == TypeKind then
      TypeKind
    else
      var r := FixKind(kind, bases[1..]);
      assert AnyTypeBase(bases) <==> AnyTypeBase(bases[1..]) by {
        if AnyTypeBase(bases) {
          var i :| 0 <= i < |bases| && KindOf(bases[i]) == TypeKind;
          assert bases[1..][i - 1] == bases[i];
        }
        if AnyTypeBase(bases[1..]) {
          var i :| 0 <= i < |bases[1..]| && KindOf(bases[1..][i]) == TypeKind;
          assert bases[i + 1] == bases[1..][i];
        }
      }
      r
  }

  /** `b.__interfaces__`: a declared container's own list; for a wrapper,
      the list `__populate_interfaces` gives a class whose only base is the
      wrapped type (the type itself when it is an interface other than the
      abstract root, then its interfaces); empty for anything else. */
  function InterfacesOf(t: GType): (r: seq<GType>)
    ensures t.ContainerT? ==> r == t.interfaces
    decreases t
  {
    if t.NonNullT? || t.ListOfT? then
      AddMissing(if Admits(t.base, true) then [t.base] else [], InterfacesOf(t.base))
    else if t.ContainerT? then t.interfaces
    else []
  }

  /** Appends each of `xs` that `acc` does not hold yet. */
  function AddMissing(acc: seq<GType>, xs: seq<GType>): (r: seq<GType>)
    ensures |acc| <= |r| && r[..|acc|] == acc
    ensures forall x :: x in r <==> x in acc || x in xs
    ensures NoDup(acc) ==> NoDup(r)
    decreases |xs|
  {
    if |xs| == 0 then acc
    else
      var acc' := if xs[0] in acc then acc else acc + [xs[0]];
      assert forall x :: x in xs <==> x == xs[0] || x in xs[1..] by {
        assert xs == [xs[0]] + xs[1..];
      }
      var r := AddMissing(acc', xs[1..]);
      assert r[..|acc|] == r[..|acc'|][..|acc|];
      r
  }

  predicate NoDup(xs: seq<GType>)
  {
    forall i, j :: 0 <= i < j < |xs| ==> xs[i] != xs[j]
  }

  /** Whether a base is listed directly as an implemented interface.
      `skipRoots` leaves out the abstract `Interface` class itself. */
  predicate Admits(b: GType, skipRoots: bool)
  {
    KindOf(b) == InterfaceKind && !(skipRoots && b.RootT?)
  }

  /** `__populate_interfaces` from an accumulator: for each base in order,
      the base itself when it is admitted (no duplicate check), then each of
      its own interfaces not yet present. */
  function Collect(bases: seq<GType>, acc: seq<GType>, skipRoots: bool): (r: seq<GType>)
    ensures |acc| <= |r| && r[..|acc|] == acc
    ensures forall i :: 0 <= i < |bases| && Admits(bases[i], skipRoots) ==> bases[i] in r
    ensures forall i, x :: 0 <= i < |bases| && x in InterfacesOf(bases[i]) ==> x in r
    ensures forall x :: x in r ==> x in acc || FromBases(x, bases, skipRoots)
    decreases |bases|
  {
    if |bases| == 0 then acc
    else
      var b := bases[0];
      var acc1 := if Admits(b, skipRoots) then acc + [b] else acc;
      var acc2 := AddMissing(acc1, InterfacesOf(b));
      var r := Collect(bases[1..], acc2, skipRoots);
      CollectPrefix(bases, acc, acc1, acc2, r, skipRoots);
      CollectHas(bases, acc, acc1, acc2, r, skipRoots);
      CollectFrom(bases, acc, acc1, acc2, r, skipRoots);
      r
  }

  /** x is an admitted base or one of a base's own interfaces. */
  predicate FromBases(x: GType, bases: seq<GType>, skipRoots: bool)
  {
    exists i :: 0 <= i < |bases| && ((x == bases[i] && Admits(x, skipRoots)) || x in InterfacesOf(bases[i]))
  }

  /** One more base keeps the accumulator in front. */
  lemma CollectPrefix(bases: seq<GType>, acc: seq<GType>, acc1: seq<GType>, acc2: seq<GType>,
                      r: seq<GType>, skipRoots: bool)
    requires |bases| > 0
    requires acc1 == if Admits(bases[0], skipRoots) then acc + [bases[0]] else acc
    requires acc2 == AddMissing(acc1, InterfacesOf(bases[0]))
    requires |acc2| <= |r| && r[..|acc2|] == acc2
    ensures |acc| <= |r| && r[..|acc|] == acc
  {
    assert r[..|acc|] == r[..|acc2|][..|acc1|][..|acc|];
  }

  /** One more base: it is listed when admitted, and so is each of its own
      interfaces. */
  lemma CollectHas(bases: seq<GType>, acc: seq<GType>, acc1: seq<GType>, acc2: seq<GType>,
                   r: seq<GType>, skipRoots: bool)
    requires |bases| > 0
    requires acc1 == if Admits(bases[0], skipRoots) then acc + [bases[0]] else acc
    requires acc2 == AddMissing(acc1, InterfacesOf(bases[0]))
    requires |acc2| <= |r| && r[..|acc2|] == acc2
    requires forall i :: 0 <= i < |bases[1..]| && Admits(bases[1..][i], skipRoots) ==> bases[1..][i] in r
    requires forall i, x :: 0 <= i < |bases[1..]| && x in InterfacesOf(bases[1..][i]) ==> x in r
    ensures forall i :: 0 <= i < |bases| && Admits(bases[i], skipRoots) ==> bases[i] in r
    ensures forall i, x :: 0 <= i < |bases| && x in InterfacesOf(bases[i]) ==> x in r
  {
    forall x | x in acc2 ensures x in r {
      var k :| 0 <= k < |acc2| && acc2[k] == x;
      assert r[k] == x;
    }
    forall i | 0 <= i < |bases| && Admits(bases[i], skipRoots) ensures bases[i] in r {
      if i > 0 {
        assert bases[1..][i - 1] == bases[i];
      } else {
        assert bases[0] in acc1;
      }
    }
    forall i, x | 0 <= i < |bases| && x in InterfacesOf(bases[i]) ensures x in r {
      if i > 0 {
        assert bases[1..][i - 1] == bases[i];
      }
    }
  }

  /** One more base: whatever is listed beyond the accumulator comes from
      the bases. */
  lemma CollectFrom(bases: seq<GType>, acc: seq<GType>, acc1: seq<GType>, acc2: seq<GType>,
                    r: seq<GType>, skipRoots: bool)
    requires |bases| > 0
    requires acc1 == if Admits(bases[0], skipRoots) then acc + [bases[0]] else acc
    requires acc2 == AddMissing(acc1, InterfacesOf(bases[0]))
    requires forall x :: x in r ==> x in acc2 || FromBases(x, bases[1..], skipRoots)
    ensures forall x :: x in r ==> x in acc || FromBases(x, bases, skipRoots)
  {
    forall x | x in r && x !in acc ensures FromBases(x, bases, skipRoots) {
      if x in acc2 {
        assert (x == bases[0] && Admits(x, skipRoots)) || x in InterfacesOf(bases[0]);
      } else {
        var i :| 0 <= i < |bases[1..]| &&
                 ((x == bases[1..][i] && Admits(x, skipRoots)) || x in InterfacesOf(bases[1..][i]));
        assert bases[1..][i] == bases[i + 1];
      }
    }
  }

  /** `__populate_interfaces` as the source writes it: the abstract
      `Interface` class, being of kind `interface`, is listed too. */
  function InterfacesAsWritten(bases: seq<GType>): (r: seq<GType>)
    ensures forall i :: 0 <= i < |bases| && KindOf(bases[i]) == InterfaceKind ==> bases[i] in r
  {
    Collect(bases, [], false)
  }

  /** `__populate_interfaces` without the abstract `Interface` class. */
  function Interfaces(bases: seq<GType>): (r: seq<GType>)
    ensures forall i :: 0 <= i < |bases| && KindOf(bases[i]) == InterfaceKind && !bases[i].RootT?
                        ==> bases[i] in r
    ensures forall i, x :: 0 <= i < |bases| && x in InterfacesOf(bases[i]) ==> x in r
    ensures (forall i, x :: 0 <= i < |bases| && x in InterfacesOf(bases[i]) ==> !x.RootT?)
            ==> forall x :: x in r ==> !x.RootT?
  {
    var r := Collect(bases, [], true);
    assert forall x :: x in r ==> FromBases(x, bases, true);
    r
  }

  /** What one base contributes to `__populate_interfaces`: itself when it
      is admitted, appended without a check (flagged); then its own
      interfaces, each appended only when absent. */
  function Contribution(b: GType, skipRoots: bool): seq<(GType, bool)>
  {
    (if Admits(b, skipRoots) then [(b, true)] else []) + Plain(InterfacesOf(b))
  }

  /** The bases' contributions, base after base. */
  function Contributions(bases: seq<GType>, skipRoots: bool): seq<(GType, bool)>
    decreases |bases|
  {
    if |bases| == 0 then [] else Contribution(bases[0], skipRoots) + Contributions(bases[1..], skipRoots)
  }

  /** The guarded appends of `AddMissing` are a walk over unflagged items. */
  lemma {:induction false} AddMissingKeep(acc: seq<GType>, xs: seq<GType>)
    ensures AddMissing(acc, xs) == Keep(acc, Plain(xs))
    decreases |xs|
  {
    if |xs| > 0 {
      PlainTail(xs);
      AddMissingKeep(if xs[0] in acc then acc else acc + [xs[0]], xs[1..]);
    } else {
      assert Plain(xs) == [];
    }
  }

  /** The interfaces come out in the order of one flat walk over the bases'
      contributions: each admitted base where it stands, each inherited
      interface at its first occurrence. */
  lemma {:induction false} CollectOrder(bases: seq<GType>, acc: seq<GType>, skipRoots: bool)
    ensures Collect(bases, acc, skipRoots) == Keep(acc, Contributions(bases, skipRoots))
    decreases |bases|
  {
    if |bases| > 0 {
      var b := bases[0];
      var acc1 := if Admits(b, skipRoots) then acc + [b] else acc;
      var ifs := Plain(InterfacesOf(b));
      KeepConcat(acc, Contribution(b, skipRoots), Contributions(bases[1..], skipRoots));
      if Admits(b, skipRoots) {
        assert Contribution(b, skipRoots) == [(b, true)] + ifs;
        assert ([(b, true)] + ifs)[1..] == ifs;
      } else {
        assert Contribution(b, skipRoots) == ifs;
      }
      assert Keep(acc, Contribution(b, skipRoots)) == Keep(acc1, ifs);
      AddMissingKeep(acc1, InterfacesOf(b));
      CollectOrder(bases[1..], AddMissing(acc1, InterfacesOf(b)), skipRoots);
    } else {
      assert Contributions(bases, skipRoots) == [];
    }
  }

  /** The last base whose field table has `n`. */
  function LastWith(bases: seq<GType>, n: string): (r: Option<nat>)
    ensures r.Some? ==> r.value < |bases| && HasKey(TableOf(bases[r.value]), n)
    ensures r.Some? ==> forall j :: r.value < j < |bases| ==> !HasKey(TableOf(bases[j]), n)
    ensures r.None? ==> forall j :: 0 <= j < |bases| ==> !HasKey(TableOf(bases[j]), n)
  {
    if |bases| == 0 then None
    else if HasKey(TableOf(bases[|bases| - 1]), n) then Some(|bases| - 1)
    else LastWith(bases[..|bases| - 1], n)
  }

  /** Field tables of declared containers have one entry per name. */
  predicate TablesUnique(bases: seq<GType>)
  {
    forall i :: 0 <= i < |bases| ==> UniqueKeys(TableOf(bases[i]))
  }

  /** Every base was built by `ContainerTypeMeta`, so each has a field
      table to inherit. */
  predicate ContainerBases(bases: seq<GType>)
  {
    forall i :: 0 <= i < |bases| ==> MetaOf(bases[i]) == ContainerMeta
  }

  /** Some base was built by `EnumMeta`: no class can derive from it and
      from a container at once. */
  predicate AnyEnumBase(bases: seq<GType>)
  {
    exists i :: 0 <= i < |bases| && MetaOf(bases[i]) == EnumMeta
  }

  /** How many bases `__inherit_fields` gets through: all of them, or those
      before the first base without a field table, where reading
      `b.__fields` raises `AttributeError`. */
  function Reach(bases: seq<GType>): (n: nat)
    ensures n <= |bases|
    ensures forall i :: 0 <= i < n ==> MetaOf(bases[i]) == ContainerMeta
    ensures n < |bases| ==> MetaOf(bases[n]) != ContainerMeta
    ensures n == |bases| <==> ContainerBases(bases)
    decreases |bases|
  {
    if |bases| == 0 then 0
    else if MetaOf(bases[0]) != ContainerMeta then 0
    else
      var n := Reach(bases[1..]);
      assert forall i :: 1 <= i < 1 + n ==> bases[i] == bases[1..][i - 1];
      1 + n
  }

  /** `__inherit_fields` from an accumulator: the bases' field tables merged
      in order with `OrderedDict.update`. */
  function Inherit(acc: OMap<Field>, bases: seq<GType>): (r: OMap<Field>)
    ensures |acc| <= |r| && Keys(r)[..|acc|] == Keys(acc)
    ensures forall n :: HasKey(r, n) <==> HasKey(acc, n) || LastWith(bases, n).Some?
    ensures TablesUnique(bases) ==> forall n ::
              Get(r, n) == match LastWith(bases, n)
                           case Some(i) => Get(TableOf(bases[i]), n)
                           case None => Get(acc, n)
    ensures UniqueKeys(acc) ==> UniqueKeys(r)
    decreases |bases|
  {
    if |bases| == 0 then acc
    else
      var init := bases[..|bases| - 1];
      var last := TableOf(bases[|bases| - 1]);
      var m := Inherit(acc, init);
      var r := Update(m, last);
      InheritKeys(acc, m, last, r);
      InheritHas(acc, bases, m, r);
      InheritGet(acc, bases, m, r);
      r
  }

  /** Merging one more table keeps the accumulator's names in front and
      keeps names unique. */
  lemma InheritKeys(acc: OMap<Field>, m: OMap<Field>, last: OMap<Field>, r: OMap<Field>)
    requires |acc| <= |m| && Keys(m)[..|acc|] == Keys(acc)
    requires UniqueKeys(acc) ==> UniqueKeys(m)
    requires r == Update(m, last)
    ensures |acc| <= |r| && Keys(r)[..|acc|] == Keys(acc)
    ensures UniqueKeys(acc) ==> UniqueKeys(r)
  {
    assert Keys(r)[..|acc|] == Keys(m)[..|acc|];
  }

  /** A name is present after one more merge when it was before or the
      last base has it. */
  lemma InheritHas(acc: OMap<Field>, bases: seq<GType>, m: OMap<Field>, r: OMap<Field>)
    requires |bases| > 0
    requires forall n :: HasKey(m, n) <==> HasKey(acc, n) || LastWith(bases[..|bases| - 1], n).Some?
    requires r == Update(m, TableOf(bases[|bases| - 1]))
    ensures forall n :: HasKey(r, n) <==> HasKey(acc, n) || LastWith(bases, n).Some?
  {
  }

  /** After one more merge a name holds the field of the last base that has
      it. */
  lemma InheritGet(acc: OMap<Field>, bases: seq<GType>, m: OMap<Field>, r: OMap<Field>)
    requires |bases| > 0
    requires TablesUnique(bases[..|bases| - 1]) ==> forall n ::
               Get(m, n) == match LastWith(bases[..|bases| - 1], n)
                            case Some(i) => Get(TableOf(bases[..|bases| - 1][i]), n)
                            case None => Get(acc, n)
    requires r == Update(m, TableOf(bases[|bases| - 1]))
    ensures TablesUnique(bases) ==> forall n ::
              Get(r, n) == match LastWith(bases, n)
                           case Some(i) => Get(TableOf(bases[i]), n)
                           case None => Get(acc, n)
  {
    if TablesUnique(bases) {
      InheritGetUnique(acc, bases, m, r);
    }
  }

  lemma InheritGetUnique(acc: OMap<Field>, bases: seq<GType>, m: OMap<Field>, r: OMap<Field>)
    requires |bases| > 0 && TablesUnique(bases)
    requires TablesUnique(bases[..|bases| - 1]) ==> forall n ::
               Get(m, n) == match LastWith(bases[..|bases| - 1], n)
                            case Some(i) => Get(TableOf(bases[..|bases| - 1][i]), n)
                            case None => Get(acc, n)
    requires r == Update(m, TableOf(bases[|bases| - 1]))
    ensures forall n :: Get(r, n) == match LastWith(bases, n)
                                     case Some(i) => Get(TableOf(bases[i]), n)
                                     case None => Get(acc, n)
  {
    var init := bases[..|bases| - 1];
    var last := TableOf(bases[|bases| - 1]);
    assert TablesUnique(init) by {
      forall i | 0 <= i < |init| ensures UniqueKeys(TableOf(init[i])) {
        assert init[i] == bases[i];
      }
    }
    forall n ensures Get(r, n) == match LastWith(bases, n)
                                  case Some(i) => Get(TableOf(bases[i]), n)
                                  case None => Get(acc, n)
    {
      if !HasKey(last, n) {
        assert LastWith(bases, n) == LastWith(init, n);
        match LastWith(init, n)
        case Some(i) => assert init[i] == bases[i];
        case None =>
      }
    }
  }

  /** `__inherit_fields`. */
  function InheritFields(bases: seq<GType>): (r: OMap<Field>)
    ensures forall n :: HasKey(r, n) <==> LastWith(bases, n).Some?
    ensures TablesUnique(bases) ==> UniqueKeys(r)
    ensures TablesUnique(bases) ==> forall n :: LastWith(bases, n).Some? ==>
              Get(r, n) == Get(TableOf(bases[LastWith(bases, n).value]), n)
  {
    Inherit([], bases)
  }

  /** The field table `__inherit_fields` leaves behind: the merged tables of
      the bases it gets through before a base without one stops it. */
  function InheritedPart(bases: seq<GType>): (r: OMap<Field>)
    ensures ContainerBases(bases) ==> r == InheritFields(bases)
    ensures forall n :: HasKey(r, n) <==> LastWith(bases[..Reach(bases)], n).Some?
  {
    assert bases[..|bases|] == bases;
    InheritFields(bases[..Reach(bases)])
  }

  /** The names of the bases' field tables, base after base. */
  function AllKeys(bases: seq<GType>): seq<string>
    decreases |bases|
  {
    if |bases| == 0 then [] else AllKeys(bases[..|bases| - 1]) + Keys(TableOf(bases[|bases| - 1]))
  }

  /** Merging the bases' tables appends their names to the accumulator's,
      each at its first occurrence. */
  lemma {:induction false} InheritOrder(acc: OMap<Field>, bases: seq<GType>)
    ensures Keys(Inherit(acc, bases)) == Keep(Keys(acc), Plain(AllKeys(bases)))
    decreases |bases|
  {
    if |bases| == 0 {
      assert Plain(AllKeys(bases)) == [];
    } else {
      var init := bases[..|bases| - 1];
      var last := TableOf(bases[|bases| - 1]);
      InheritOrder(acc, init);
      UpdateOrder(Inherit(acc, init), last);
      PlainConcat(AllKeys(init), Keys(last));
      KeepConcat(Keys(acc), Plain(AllKeys(init)), Plain(Keys(last)));
    }
  }

  /** The inherited names are the bases' names in base order, each once at
      its first occurrence. */
  lemma InheritFieldsOrder(bases: seq<GType>)
    ensures Keys(InheritFields(bases)) == Dedup(AllKeys(bases))
  {
    InheritOrder([], bases);
    assert Keys<Field>([]) == [];
  }

  /** The field an own member named `n` contributes, if any: names starting
      with `_` are skipped, a `Field` is taken as it is, a type or built-in is
      wrapped in a default `Field`, and anything else is skipped silently.
      The field is attached to the container under `n`. */
  function OwnField(members: OMap<Member>, n: string): (r: Option<Field>)
    ensures r.Some? ==> !(|n| > 0 && n[0] == '_') && Get(members, n).Some?
    ensures r.Some? ==> r.value.name == n
    ensures Get(members, n).Some? && Get(members, n).value.FieldMember? && !(|n| > 0 && n[0] == '_')
            ==> r == Some(AttachField(Get(members, n).value.f, n))
    ensures Get(members, n).Some? && Ensure(Get(members, n).value).Ok? && !(|n| > 0 && n[0] == '_')
            ==> r.Some? && r.value.typ == Ensure(Get(members, n).value).value && r.value.args == []
                && r.value.graphqlName == ToGraphqlName(n)
    ensures Get(members, n).Some? && Get(members, n).value.OtherMember? ==> r.None?
  {
    if |n| > 0 && n[0] == '_' then None
    else
      match Get(members, n)
      case None => None
      case Some(m) =>
        if m.FieldMember? then Some(AttachField(m.f, n))
        else
          match Ensure(m)
          case Err(_) => None
          case Ok(t) => Some(AttachField(Field("", "", t, []), n))
  }

  /** `__create_own_fields` from an accumulator, visiting the names `ns`:
      each contributed field is stored under its name, replacing an
      inherited one in place or appending a new one. */
  function OwnFields(acc: OMap<Field>, members: OMap<Member>, ns: seq<string>): (r: OMap<Field>)
    ensures forall n :: Get(r, n) == if n in ns && OwnField(members, n).Some? then OwnField(members, n)
                                     else Get(acc, n)
    ensures |acc| <= |r| && Keys(r)[..|acc|] == Keys(acc)
    ensures forall i :: |acc| <= i < |r| ==> r[i].0 in ns
    ensures UniqueKeys(acc) ==> UniqueKeys(r)
    ensures UniqueKeys(acc) && Sorted(ns) ==>
              forall i, j :: |acc| <= i < j < |r| ==> Text.Less(r[i].0, r[j].0)
    decreases |ns|
  {
    if |ns| == 0 then acc
    else
      var acc' := match OwnField(members, ns[0])
                  case Some(f) => Put(acc, ns[0], f)
                  case None => acc;
      var r := OwnFields(acc', members, ns[1..]);
      OwnGet(acc, members, ns, acc', r);
      OwnKeys(acc, members, ns, acc', r);
      OwnNames(acc, members, ns, acc', r);
      OwnOrder(acc, members, ns, acc', r);
      r
  }

  /** After one more own name, each name holds its own field if it
      contributes one, and its inherited entry otherwise. */
  lemma OwnGet(acc: OMap<Field>, members: OMap<Member>, ns: seq<string>, acc': OMap<Field>, r: OMap<Field>)
    requires |ns| > 0
    requires acc' == match OwnField(members, ns[0])
                     case Some(f) => Put(acc, ns[0], f)
                     case None => acc
    requires forall n :: Get(r, n) == if n in ns[1..] && OwnField(members, n).Some? then OwnField(members, n)
                                      else Get(acc', n)
    ensures forall n :: Get(r, n) == if n in ns && OwnField(members, n).Some? then OwnField(members, n)
                                     else Get(acc, n)
  {
    assert forall n :: n in ns <==> n == ns[0] || n in ns[1..] by {
      assert ns == [ns[0]] + ns[1..];
    }
  }

  /** Storing one more own field keeps the accumulator's names in front and
      keeps names unique. */
  lemma OwnKeys(acc: OMap<Field>, members: OMap<Member>, ns: seq<string>, acc': OMap<Field>, r: OMap<Field>)
    requires |ns| > 0
    requires acc' == match OwnField(members, ns[0])
                     case Some(f) => Put(acc, ns[0], f)
                     case None => acc
    requires |acc'| <= |r| && Keys(r)[..|acc'|] == Keys(acc')
    requires UniqueKeys(acc') ==> UniqueKeys(r)
    ensures |acc| <= |acc'| <= |acc| + 1
    ensures |acc| <= |r| && Keys(r)[..|acc|] == Keys(acc)
    ensures UniqueKeys(acc) ==> UniqueKeys(r)
  {
    assert Keys(acc')[..|acc|] == Keys(acc);
    assert Keys(r)[..|acc|] == Keys(r)[..|acc'|][..|acc|];
  }

  /** The names after the accumulator's are own names. */
  lemma OwnNames(acc: OMap<Field>, members: OMap<Member>, ns: seq<string>, acc': OMap<Field>, r: OMap<Field>)
    requires |ns| > 0
    requires acc' == match OwnField(members, ns[0])
                     case Some(f) => Put(acc, ns[0], f)
                     case None => acc
    requires |acc| <= |acc'| <= |acc| + 1
    requires |acc'| <= |r| && Keys(r)[..|acc'|] == Keys(acc')
    requires forall i :: |acc'| <= i < |r| ==> r[i].0 in ns[1..]
    ensures forall i :: |acc| <= i < |r| ==> r[i].0 in ns
  {
    var x := ns[0];
    forall i | |acc| <= i < |r| ensures r[i].0 in ns {
      if i < |acc'| {
        assert i == |acc| && acc' == acc + [(x, OwnField(members, x).value)];
        assert r[i].0 == Keys(r)[i] == Keys(acc')[i];
      } else {
        assert r[i].0 in ns[1..];
      }
    }
  }

  /** With the names visited in order, the appended names come out in
      order. */
  lemma OwnOrder(acc: OMap<Field>, members: OMap<Member>, ns: seq<string>, acc': OMap<Field>, r: OMap<Field>)
    requires |ns| > 0
    requires acc' == match OwnField(members, ns[0])
                     case Some(f) => Put(acc, ns[0], f)
                     case None => acc
    requires |acc| <= |acc'| <= |acc| + 1
    requires |acc'| <= |r| && Keys(r)[..|acc'|] == Keys(acc')
    requires forall i :: |acc'| <= i < |r| ==> r[i].0 in ns[1..]
    requires UniqueKeys(acc') ==> UniqueKeys(r)
    requires UniqueKeys(acc') && Sorted(ns[1..]) ==>
               forall i, j :: |acc'| <= i < j < |r| ==> Text.Less(r[i].0, r[j].0)
    ensures UniqueKeys(acc) && Sorted(ns) ==>
              forall i, j :: |acc| <= i < j < |r| ==> Text.Less(r[i].0, r[j].0)
  {
    if UniqueKeys(acc) && Sorted(ns) {
      OwnSorted(acc, members, ns, acc', r);
    }
  }

  lemma OwnSorted(acc: OMap<Field>, members: OMap<Member>, ns: seq<string>, acc': OMap<Field>, r: OMap<Field>)
    requires |ns| > 0 && UniqueKeys(acc) && Sorted(ns)
    requires acc' == match OwnField(members, ns[0])
                     case Some(f) => Put(acc, ns[0], f)
                     case None => acc
    requires |acc| <= |acc'| <= |acc| + 1
    requires |acc'| <= |r| && Keys(r)[..|acc'|] == Keys(acc')
    requires forall i :: |acc'| <= i < |r| ==> r[i].0 in ns[1..]
    requires UniqueKeys(acc') ==> UniqueKeys(r)
    requires UniqueKeys(acc') && Sorted(ns[1..]) ==>
               forall i, j :: |acc'| <= i < j < |r| ==> Text.Less(r[i].0, r[j].0)
    ensures forall i, j :: |acc| <= i < j < |r| ==> Text.Less(r[i].0, r[j].0)
  {
    var x := ns[0];
    assert Sorted(ns[1..]);
    assert UniqueKeys(acc');
    forall i, j | |acc| <= i < j < |r| ensures Text.Less(r[i].0, r[j].0) {
      if i < |acc'| {
        assert i == |acc| && acc' == acc + [(x, OwnField(members, x).value)];
        assert r[i].0 == Keys(r)[i] == Keys(acc')[i] == x;
        var k :| 0 <= k < |ns[1..]| && ns[1..][k] == r[j].0;
        assert !Text.Less(r[j].0, x) by {
          assert ns[k + 1] == r[j].0;
        }
        Text.LessTotal(x, r[j].0);
      }
    }
  }

  /** Every field sits under its own Python name and has a wire name. */
  ghost predicate Attached(fs: OMap<Field>)
  {
    forall n :: Get(fs, n).Some? ==> Get(fs, n).value.name == n && Get(fs, n).value.graphqlName != ""
  }

  /** What `ContainerTypeMeta.__init__` leaves on the class once
      `__create_own_fields` visits the class's own members (corrected, see
      `Interrupted` for the source as written), with the corrected interface
      collection (`skipRoots`) or the one the source writes. A class without
      bases gets no fields and no interfaces; a class with a base that has
      no field table stops inside `__inherit_fields`, with the tables merged
      so far and none of its own members. */
  function Construct(home: nat, d: ContainerDecl, skipRoots: bool): (t: GType)
    ensures t.ContainerT? && Name(t) == d.name && HomeOf(t) == home && t.uid == d.uid
  {
    if |d.bases| == 0 then ContainerT(d.uid, home, d.name, d.kind, [], [])
    else
      var fields := if ContainerBases(d.bases)
                    then OwnFields(InheritFields(d.bases), d.members, SortNames(Keys(d.members)))
                    else InheritedPart(d.bases);
      ContainerT(d.uid, home, d.name, FixKind(d.kind, d.bases), Collect(d.bases, [], skipRoots), fields)
  }

  /** A class whose bases all have field tables gets its own members'
      fields after the inherited ones. */
  lemma ConstructFull(home: nat, d: ContainerDecl, skipRoots: bool)
    requires |d.bases| > 0 && ContainerBases(d.bases)
    ensures Construct(home, d, skipRoots)
            == ContainerT(d.uid, home, d.name, FixKind(d.kind, d.bases), Collect(d.bases, [], skipRoots),
                          OwnFields(InheritFields(d.bases), d.members, SortNames(Keys(d.members))))
  {
  }

  /** What the source's `ContainerTypeMeta.__init__` leaves on a class with
      bases. `__create_own_fields` starts with `dir(cls)`, which calls
      `ContainerTypeMeta.__dir__`; that hands the class to the bound
      `type.__dir__` once more and raises `TypeError`. By then the kind is
      fixed, the interfaces are collected as written and the fields are
      inherited (up to a base without a field table, which stops the class
      earlier), but no own member has become a field. */
  function Interrupted(home: nat, d: ContainerDecl): (t: GType)
    ensures t.ContainerT? && Name(t) == d.name && HomeOf(t) == home && t.uid == d.uid
  {
    ContainerT(d.uid, home, d.name, FixKind(d.kind, d.bases), InterfacesAsWritten(d.bases), InheritedPart(d.bases))
  }

  /** The container class a declaration builds. */
  function BuildContainer(home: nat, d: ContainerDecl): (t: GType)
    ensures t.ContainerT? && Name(t) == d.name && HomeOf(t) == home && t.uid == d.uid
    ensures |d.bases| > 0 ==> KindOf(t) == FixKind(d.kind, d.bases)
    ensures |d.bases| > 0 ==> t.interfaces == Interfaces(d.bases)
    ensures |d.bases| == 0 ==> KindOf(t) == d.kind && t.interfaces == [] && t.fields == []
  {
    Construct(home, d, true)
  }

  /** A wrapper of a container is the class the corrected
      `ContainerTypeMeta` builds from the wrapper's namespace, whose names
      all start with `_`, and the wrapped type as its only base: the same
      kind, interfaces and field table. */
  lemma WrapperBuilt(b: GType, w: GType, uid: nat, members: OMap<Member>)
    requires w == NonNullT(b) || w == ListOfT(b)
    requires MetaOf(b) == ContainerMeta && UniqueKeys(TableOf(b))
    requires forall k :: k in Keys(members) ==> |k| > 0 && k[0] == '_'
    ensures var c := BuildContainer(HomeOf(b), ContainerDecl(uid, Name(w), KindOf(b), [b], members, false));
            && KindOf(c) == KindOf(w) && c.interfaces == InterfacesOf(w) && c.fields == TableOf(w)
  {
    var ifs := AddMissing(if Admits(b, true) then [b] else [], InterfacesOf(b));
    WrapperClass(b, Name(w), uid, members);
    assert InterfacesOf(w) == ifs;
    assert TableOf(w) == TableOf(b);
  }

  /** The class built for a wrapper, component by component. */
  lemma WrapperClass(b: GType, name: string, uid: nat, members: OMap<Member>)
    requires MetaOf(b) == ContainerMeta && UniqueKeys(TableOf(b))
    requires forall k :: k in Keys(members) ==> |k| > 0 && k[0] == '_'
    ensures BuildContainer(HomeOf(b), ContainerDecl(uid, name, KindOf(b), [b], members, false))
            == ContainerT(uid, HomeOf(b), name, KindOf(b),
                          AddMissing(if Admits(b, true) then [b] else [], InterfacesOf(b)), TableOf(b))
  {
    var d := ContainerDecl(uid, name, KindOf(b), [b], members, false);
    assert ContainerBases(d.bases);
    ConstructFull(HomeOf(b), d, true);
    WrapperFields(b, members);
    SingleKind(b);
    SingleCollect(b);
  }

  /** Inheriting from the one base and then visiting only underscore names
      leaves the base's table as it is. */
  lemma WrapperFields(b: GType, members: OMap<Member>)
    requires UniqueKeys(TableOf(b))
    requires forall k :: k in Keys(members) ==> |k| > 0 && k[0] == '_'
    ensures OwnFields(InheritFields([b]), members, SortNames(Keys(members))) == TableOf(b)
  {
    SingleInheritUnique(b);
    UnderscoreMembers(InheritFields([b]), members);
  }

  /** A single base with one entry per name passes on its table as it is. */
  lemma SingleInheritUnique(b: GType)
    requires UniqueKeys(TableOf(b))
    ensures InheritFields([b]) == TableOf(b)
  {
    var tb := TableOf(b);
    SingleInherit(b);
    assert [] + tb == tb;
    UpdateFresh([], tb);
  }

  /** A class body binding only underscore names adds no field. */
  lemma UnderscoreMembers(acc: OMap<Field>, members: OMap<Member>)
    requires forall k :: k in Keys(members) ==> |k| > 0 && k[0] == '_'
    ensures OwnFields(acc, members, SortNames(Keys(members))) == acc
  {
    var ns := SortNames(Keys(members));
    forall i | 0 <= i < |ns| ensures |ns[i]| > 0 && ns[i][0] == '_' {
      assert ns[i] in multiset(ns);
    }
    NoOwnFields(acc, members, ns);
  }

  /** A single base keeps the kind it passes on. */
  lemma SingleKind(b: GType)
    ensures FixKind(KindOf(b), [b]) == KindOf(b)
  {
    assert KindOf(b) == InterfaceKind ==> !AnyTypeBase([b]);
  }

  /** A single base contributes itself when admitted, then its interfaces. */
  lemma SingleCollect(b: GType)
    ensures Collect([b], [], true) == AddMissing(if Admits(b, true) then [b] else [], InterfacesOf(b))
  {
    var acc1: seq<GType> := if Admits(b, true) then [] + [b] else [];
    assert acc1 == if Admits(b, true) then [b] else [];
    var acc2 := AddMissing(acc1, InterfacesOf(b));
    assert [b][1..] == [];
    assert Collect([b], [], true) == Collect([b][1..], acc2, true);
    assert Collect([], acc2, true) == acc2;
  }

  /** A single base passes on its table. */
  lemma SingleInherit(b: GType)
    ensures InheritFields([b]) == Update([], TableOf(b))
  {
    assert [b][..0] == [];
    assert Inherit([], []) == [];
    assert InheritFields([b]) == Inherit([], [b]) == Update(Inherit([], []), TableOf(b));
  }

  /** Visiting only underscore names adds no field. */
  lemma {:induction false} NoOwnFields(acc: OMap<Field>, members: OMap<Member>, ns: seq<string>)
    requires forall i :: 0 <= i < |ns| ==> |ns[i]| > 0 && ns[i][0] == '_'
    ensures OwnFields(acc, members, ns) == acc
    decreases |ns|
  {
    if |ns| > 0 {
      NoOwnFields(acc, members, ns[1..]);
    }
  }

  /** The field table of a built container: an own member that contributes
      a field wins; otherwise the field of the last base that has the name;
      inherited names keep their first position and come first. */
  lemma BuildFields(home: nat, d: ContainerDecl)
    requires |d.bases| > 0 && ContainerBases(d.bases) && TablesUnique(d.bases)
    ensures UniqueKeys(BuildContainer(home, d).fields)
    ensures forall n :: Get(BuildContainer(home, d).fields, n) == Contributed(d, n)
    ensures Keys(BuildContainer(home, d).fields)[..|InheritFields(d.bases)|] == Keys(InheritFields(d.bases))
  {
    var t := BuildContainer(home, d);
    var inherited := InheritFields(d.bases);
    var ns := SortNames(Keys(d.members));
    assert t.fields == OwnFields(inherited, d.members, ns);
    forall n ensures Get(t.fields, n) == Contributed(d, n) {
      assert n in ns <==> n in Keys(d.members) by {
        assert n in ns <==> n in multiset(ns);
      }
      if LastWith(d.bases, n).None? {
        assert !HasKey(inherited, n);
      }
    }
  }

  /** The order of a built container's fields: first the inherited names,
      each at its first occurrence among the bases' tables taken in base
      order; then the own names that were not inherited, ascending. */
  lemma BuildOrder(home: nat, d: ContainerDecl)
    requires |d.bases| > 0 && ContainerBases(d.bases) && TablesUnique(d.bases)
    ensures var ks := Keys(BuildContainer(home, d).fields);
            var inherited := Dedup(AllKeys(d.bases));
            && |inherited| <= |ks| && ks[..|inherited|] == inherited
            && (forall i :: |inherited| <= i < |ks| ==> ks[i] in Keys(d.members) && ks[i] !in inherited)
            && (forall i, j :: |inherited| <= i < j < |ks| ==> Text.Less(ks[i], ks[j]))
  {
    BuildFields(home, d);
    InheritFieldsOrder(d.bases);
    var inh := InheritFields(d.bases);
    OwnOrderAfter(inh, d.members, SortNames(Keys(d.members)));
  }

  /** After the inherited names, the own fields are own names not already
      present, ascending. */
  lemma OwnOrderAfter(inh: OMap<Field>, members: OMap<Member>, ns: seq<string>)
    requires UniqueKeys(inh) && Sorted(ns) && multiset(ns) == multiset(Keys(members))
    ensures var ks := Keys(OwnFields(inh, members, ns));
            && |inh| <= |ks| && ks[..|inh|] == Keys(inh)
            && (forall i :: |inh| <= i < |ks| ==> ks[i] in Keys(members) && ks[i] !in Keys(inh))
            && (forall i, j :: |inh| <= i < j < |ks| ==> Text.Less(ks[i], ks[j]))
  {
    var fs := OwnFields(inh, members, ns);
    var ks := Keys(fs);
    forall i | |inh| <= i < |ks|
      ensures ks[i] in Keys(members)
    {
      assert fs[i].0 in ns && fs[i].0 in multiset(ns);
    }
  }

  /** The interrupted class has the kind and the inherited field table of
      the built one, but none of the fields its own members alone
      contribute: its table is the inherited prefix of the built one. */
  lemma InterruptedFields(home: nat, d: ContainerDecl)
    requires |d.bases| > 0 && ContainerBases(d.bases) && TablesUnique(d.bases)
    ensures var partial := Interrupted(home, d).fields;
            var built := BuildContainer(home, d).fields;
            && KindOf(Interrupted(home, d)) == KindOf(BuildContainer(home, d))
            && |partial| <= |built| && Keys(built)[..|partial|] == Keys(partial)
            && (forall n :: HasKey(partial, n) <==> LastWith(d.bases, n).Some?)
            && (forall n :: n in Keys(d.members) && OwnField(d.members, n).Some? && LastWith(d.bases, n).None?
                  ==> Get(partial, n).None? && Get(built, n) == OwnField(d.members, n))
  {
    BuildFields(home, d);
  }

  /** A class with a base that has no field table, corrected or as written,
      keeps only the fields of the container bases before that base: none
      of its own members becomes a field. */
  lemma StoppedFields(home: nat, d: ContainerDecl)
    requires |d.bases| > 0 && !ContainerBases(d.bases)
    ensures var r := Reach(d.bases);
            && r < |d.bases| && MetaOf(d.bases[r]) != ContainerMeta
            && BuildContainer(home, d).fields == Interrupted(home, d).fields == InheritFields(d.bases[..r])
            && forall n :: HasKey(BuildContainer(home, d).fields, n) <==>
                             exists i :: 0 <= i < r && HasKey(TableOf(d.bases[i]), n)
  {
    var r := Reach(d.bases);
    var pre := d.bases[..r];
    forall n ensures HasKey(InheritFields(pre), n) <==> exists i :: 0 <= i < r && HasKey(TableOf(d.bases[i]), n) {
      match LastWith(pre, n)
      case Some(k) => assert pre[k] == d.bases[k];
      case None =>
        forall i | 0 <= i < r ensures !HasKey(TableOf(d.bases[i]), n) {
          assert pre[i] == d.bases[i];
        }
    }
  }

  /** The field a declaration ends up with under name n. */
  function Contributed(d: ContainerDecl, n: string): Option<Field>
  {
    if n in Keys(d.members) && OwnField(d.members, n).Some? then OwnField(d.members, n)
    else match LastWith(d.bases, n)
         case Some(i) => Get(TableOf(d.bases[i]), n)
         case None => None
  }

  /** Names that do not start with `_` get non-empty wire names. */
  lemma PublicNameWire(n: string)
    requires |n| > 0 && n[0] != '_'
    ensures ToGraphqlName(n) != ""
  {
    CountBound(n[1..]);
  }

  lemma {:induction false} CountBound(s: string)
    ensures Text.Count(s, '_') <= |s|
  {
    if |s| > 0 {
      CountBound(s[1..]);
    }
  }

  /** An own field is keyed by its Python name and has a wire name. */
  lemma OwnFieldAttached(members: OMap<Member>, n: string)
    requires n != "" && OwnField(members, n).Some?
    ensures OwnField(members, n).value.name == n && OwnField(members, n).value.graphqlName != ""
  {
    PublicNameWire(n);
  }

  /** A container built from bases whose field tables are well formed has a
      well-formed field table: every field keyed by its own name with a wire
      name. Python attribute names are never empty. */
  lemma BuildAttached(home: nat, d: ContainerDecl)
    requires |d.bases| > 0 && ContainerBases(d.bases) && TablesUnique(d.bases)
    requires forall i :: 0 <= i < |d.bases| ==> Attached(TableOf(d.bases[i]))
    requires "" !in Keys(d.members)
    ensures Attached(BuildContainer(home, d).fields)
  {
    var fs := BuildContainer(home, d).fields;
    BuildFields(home, d);
    forall n | Get(fs, n).Some?
      ensures Get(fs, n).value.name == n && Get(fs, n).value.graphqlName != ""
    {
      assert Get(fs, n) == Contributed(d, n);
      if n in Keys(d.members) && OwnField(d.members, n).Some? {
        OwnFieldAttached(d.members, n);
      } else {
        var i := LastWith(d.bases, n).value;
        assert Get(fs, n) == Get(TableOf(d.bases[i]), n);
        assert Attached(TableOf(d.bases[i]));
      }
    }
  }
}

=== FILE: codec.dfy ===
/** Decoding JSON into values: what calling a type on JSON data yields
    (`Scalar.__new__`, `Enum.__new__`, the wrappers' `__new__`,
    `ContainerType.__init__`). A container instance keeps the attributes
    it materialized, the fields behind them and the JSON object it was built
    from, which later assignments write back into. */
module Codec {
  import opened Prelude
  import opened OrderedMaps
  import opened JsonValues
  import opened Types
  import opened FieldLoop

  /** The scalar converters (`int`, `str`, `bool`, a user function), by the
      name a scalar class carries; `Err` holds what the converter raised. */
  type Converter = (string, Json) -> Result<Json, string>

  /** One entry of a selection list: the field queried and its alias
      (empty when there is none). */
  datatype Selection = Selection(field: Field, alias: string)

  /** What decoding yields: a JSON value (scalars, enums, `None`), a Python
      list (from a list wrapper) or a container instance. */
  datatype Value = VJson(j: Json) | VList(items: seq<Value>) | VObj(inst: Instance)

  /** A container instance: its class, the selection list it was built with,
      its attributes, the fields behind them (`__fields_cache__`) and the
      backing JSON store (`__json_data__`). */
  datatype Instance = Instance(typ: GType, selection: Option<seq<Selection>>, attrs: OMap<Value>,
                               cache: OMap<Field>, store: Json)

  /** How many assignments a container decode plans: one per selection, or
      one per field of the class. */
  function PlanSize(t: GType, sel: Option<seq<Selection>>): nat
  {
    match sel
    case Some(ss) => |ss|
    case None => |FieldsOf(t)|
  }

  /** The i-th planned assignment: the attribute name (the alias, else the
      field's Python name) and the field. */
  function Planned(t: GType, sel: Option<seq<Selection>>, i: nat): (p: (string, Field))
    requires i < PlanSize(t, sel)
  {
    match sel
    case Some(ss) => (if ss[i].alias != "" then ss[i].alias else ss[i].field.name, ss[i].field)
    case None => (FieldsOf(t)[i].1.name, FieldsOf(t)[i].1)
  }

  /** The wire name of the i-th planned assignment. */
  function WireOf(t: GType, sel: Option<seq<Selection>>, i: nat): string
    requires i < PlanSize(t, sel)
  {
    Planned(t, sel, i).1.graphqlName
  }

  /** A container class that decodes into an instance: a declared
      container or one of the roots `Type`, `Interface`, `Input`. */
  predicate IsContainer(t: GType)
  {
    t.ContainerT? || (t.RootT? && ContainerKind(t.kind))
  }

  /** A class whose `__to_json_value__` returns the value unchanged:
      scalars and enums, their roots included. */
  predicate PassThrough(t: GType)
  {
    t.ScalarT? || t.EnumT? || t == RootT(ScalarKind) || t == RootT(EnumKind)
  }

  /** A fresh instance with nothing materialized, backed by `{}`. */
  function EmptyInstance(t: GType, sel: Option<seq<Selection>>): Instance
  {
    Instance(t, sel, [], [], JObj([]))
  }

  /** `t(j, sel)`. Scalars map null to null and convert anything else
      (the root `Scalar` with the identity); enums accept null and their
      own choices (the root `Enum` has none); unions cannot be called;
      containers map null to an empty instance and otherwise materialize the
      planned fields present in j; the non-null wrapper refuses null and
      drops the selection; the list wrapper decodes element by element with
      the same selection. */
  function Decode(conv: Converter, t: GType, j: Json, sel: Option<seq<Selection>>): (r: Result<Value, Error>)
    ensures r.Ok? && IsContainer(t) ==> r.value.VObj? && r.value.inst.typ == t && r.value.inst.selection == sel
    ensures r.Ok? && IsContainer(t) ==> r.value.inst.store == (if j == JNull then JObj([]) else j)
    decreases if sel.Some? then 1 else 0, t, 2, 0
  {
    match t
    case ScalarT(_, _, name, c) =>
      if j == JNull then Ok(VJson(JNull))
      else
        (match conv(c, j)
         case Ok(x) => Ok(VJson(x))
         case Err(m) => Err(ConverterFailed(name, m)))
    case EnumT(_, _, name, choices) =>
      if j == JNull then Ok(VJson(JNull))
      else if j.JStr? && j.s in choices then Ok(VJson(j))
      else Err(BadEnumValue(name, j))
    case UnionT(_, _, name, _) => Err(NotConstructible(name))
    case RootT(ScalarKind) => Ok(VJson(j))
    case RootT(EnumKind) =>
      if j == JNull then Ok(VJson(JNull)) else Err(BadEnumValue(Name(t), j))
    case RootT(UnionKind) => Err(NotConstructible(Name(t)))
    case NonNullT(b) =>
      if j == JNull then Err(NullValue(Name(t))) else Decode(conv, b, j, None)
    case ListOfT(b) =>
      if j == JNull then Ok(VJson(JNull))
      else
        (match Iterate(j)
         case None => Err(NotIterable(j))
         case Some(items) =>
           var vs :- DecodeItems(conv, b, items, sel);
           Ok(VList(vs)))
    case _ =>
      if j == JNull then Ok(VObj(EmptyInstance(t, sel)))
      else
        var acc :- DecodeFields(conv, t, j, sel, 0, [], []);
        Ok(VObj(Instance(t, sel, acc.0, acc.1, j)))
  }

  /** `[t(v, sel) for v in items]`, stopping at the first failure. */
  function DecodeItems(conv: Converter, b: GType, items: seq<Json>, sel: Option<seq<Selection>>)
    : (r: Result<seq<Value>, Error>)
    ensures r.Ok? ==> |r.value| == |items|
    decreases if sel.Some? then 1 else 0, b, 3, |items|
  {
    if |items| == 0 then Ok([])
    else
      var v :- Decode(conv, b, items[0], sel);
      var rest :- DecodeItems(conv, b, items[1..], sel);
      Ok([v] + rest)
  }

  /** `set_field` for the planned assignments from the i-th on, with the
      attributes and the field cache built so far. `key in j` is evaluated
      first, outside the handler, so its `TypeError` escapes as it is; a
      failure to read or decode the value becomes the handler's error. The
      nested decode gets no selection. */
  function DecodeFields(conv: Converter, t: GType, j: Json, sel: Option<seq<Selection>>, i: nat,
                        attrs: OMap<Value>, cache: OMap<Field>)
    : (r: Result<(OMap<Value>, OMap<Field>), Error>)
    requires i <= PlanSize(t, sel)
    decreases if sel.Some? then 1 else 0, t, 1, PlanSize(t, sel) - i
  {
    if i == PlanSize(t, sel) then Ok((attrs, cache))
    else
      var (name, f) := Planned(t, sel, i);
      match Contains(j, f.graphqlName)
      case None => Err(NotIterable(j))
      case Some(present) =>
        if !present then DecodeFields(conv, t, j, sel, i + 1, attrs, cache)
        else if !j.JObj? then Err(UnboundValue(name))
        else
          var raw := Get(j.members, f.graphqlName).value;
          assert sel.None? ==> t.fields[i] in t.fields;
          match Decode(conv, f.typ, raw, None)
          case Err(e) => Err(FieldFailed(Name(t), name, raw, e))
          case Ok(v) => DecodeFields(conv, t, j, sel, i + 1, Put(attrs, name, v), Put(cache, name, f))
  }

  /** The wire name of the k-th planned assignment is a key of m. */
  predicate Present(t: GType, sel: Option<seq<Selection>>, m: OMap<Json>, k: nat)
    requires k < PlanSize(t, sel)
  {
    HasKey(m, WireOf(t, sel, k))
  }

  /** The JSON value the k-th planned assignment reads from m. */
  function Raw(t: GType, sel: Option<seq<Selection>>, m: OMap<Json>, k: nat): Json
    requires k < PlanSize(t, sel) && Present(t, sel, m, k)
  {
    Get(m, WireOf(t, sel, k)).value
  }

  /** The k-th planned assignment, when its key is present, decodes. */
  predicate PlanOk(conv: Converter, t: GType, sel: Option<seq<Selection>>, m: OMap<Json>, k: nat)
    requires k < PlanSize(t, sel)
  {
    Present(t, sel, m, k) ==> Decode(conv, Planned(t, sel, k).1.typ, Raw(t, sel, m, k), None).Ok?
  }

  /** The k-th planned assignment is present and no later present one has
      the same attribute name: its value is the one that stays. */
  ghost predicate LastFor(t: GType, sel: Option<seq<Selection>>, m: OMap<Json>, k: nat)
    requires k < PlanSize(t, sel)
  {
    && Present(t, sel, m, k)
    && forall k' :: k < k' < PlanSize(t, sel) && Planned(t, sel, k').0 == Planned(t, sel, k).0
                    ==> !Present(t, sel, m, k')
  }

  /** The attribute name and field of the i-th planned assignment. */
  function NameAt(t: GType, sel: Option<seq<Selection>>, i: nat): string
    requires i < PlanSize(t, sel)
  {
    Planned(t, sel, i).0
  }

  /** The decode of the i-th planned assignment, which is present. */
  function DecodeAt(conv: Converter, t: GType, sel: Option<seq<Selection>>, m: OMap<Json>, i: nat)
    : Result<Value, Error>
    requires i < PlanSize(t, sel) && Present(t, sel, m, i)
  {
    Decode(conv, Planned(t, sel, i).1.typ, Raw(t, sel, m, i), None)
  }

  /** What the field loop does at the k-th planned assignment on an
      object. */
  function StepAt(conv: Converter, t: GType, sel: Option<seq<Selection>>, m: OMap<Json>, k: nat)
    : (r: Step<Value, Field, Error>)
    requires k < PlanSize(t, sel)
    ensures r.Skip? <==> !Present(t, sel, m, k)
    ensures r.Fail? <==> !PlanOk(conv, t, sel, m, k)
    ensures r.Store? ==> r.name == NameAt(t, sel, k) && r.f == Planned(t, sel, k).1
                         && DecodeAt(conv, t, sel, m, k) == Ok(r.v)
    ensures r.Fail? ==> r.e.FieldFailed? && r.e.container == Name(t)
  {
    if !Present(t, sel, m, k) then Skip
    else
      match DecodeAt(conv, t, sel, m, k)
      case Ok(v) => Store(NameAt(t, sel, k), v, Planned(t, sel, k).1)
      case Err(e) => Fail(FieldFailed(Name(t), NameAt(t, sel, k), Raw(t, sel, m, k), e))
  }

  /** The steps of the field loop on an object, one per planned
      assignment. */
  function Steps(conv: Converter, t: GType, sel: Option<seq<Selection>>, m: OMap<Json>)
    : (r: seq<Step<Value, Field, Error>>)
    ensures |r| == PlanSize(t, sel)
    ensures forall k :: 0 <= k < |r| ==> r[k] == StepAt(conv, t, sel, m, k)
  {
    seq(PlanSize(t, sel), k requires 0 <= k < PlanSize(t, sel) => StepAt(conv, t, sel, m, k))
  }

  /** One step of the field loop on an object: an absent key is skipped, a
      present one is decoded and stored, or aborts the loop. */
  lemma DecodeFieldsStep(conv: Converter, t: GType, m: OMap<Json>, sel: Option<seq<Selection>>,
                         i: nat, attrs: OMap<Value>, cache: OMap<Field>)
    requires i < PlanSize(t, sel)
    ensures var s := StepAt(conv, t, sel, m, i);
            DecodeFields(conv, t, JObj(m), sel, i, attrs, cache)
            == match s
               case Skip => DecodeFields(conv, t, JObj(m), sel, i + 1, attrs, cache)
               case Store(x, v, f) => DecodeFields(conv, t, JObj(m), sel, i + 1, Put(attrs, x, v), Put(cache, x, f))
               case Fail(e) => Err(e)
  {
    assert Contains(JObj(m), Planned(t, sel, i).1.graphqlName) == Some(Present(t, sel, m, i));
  }

  /** The field loop on an object runs its steps. */
  lemma {:induction false} FieldsRun(conv: Converter, t: GType, m: OMap<Json>, sel: Option<seq<Selection>>,
                                     i: nat, attrs: OMap<Value>, cache: OMap<Field>)
    requires i <= PlanSize(t, sel)
    ensures DecodeFields(conv, t, JObj(m), sel, i, attrs, cache) == Run(Steps(conv, t, sel, m), i, attrs, cache)
    decreases PlanSize(t, sel) - i
  {
    if i < PlanSize(t, sel) {
      match StepAt(conv, t, sel, m, i)
      case Skip =>
        FieldsRun(conv, t, m, sel, i + 1, attrs, cache);
        FieldsRunStep(conv, t, m, sel, i, attrs, cache);
      case Store(x, v, f) =>
        FieldsRun(conv, t, m, sel, i + 1, Put(attrs, x, v), Put(cache, x, f));
        FieldsRunStep(conv, t, m, sel, i, attrs, cache);
      case Fail(e) =>
        FieldsRunStep(conv, t, m, sel, i, attrs, cache);
    }
  }

  /** The field loop and its steps agree at the i-th planned assignment
      once they agree from the next one on. */
  lemma FieldsRunStep(conv: Converter, t: GType, m: OMap<Json>, sel: Option<seq<Selection>>,
                      i: nat, attrs: OMap<Value>, cache: OMap<Field>)
    requires i < PlanSize(t, sel)
    requires var s := StepAt(conv, t, sel, m, i);
             s.Skip? ==> DecodeFields(conv, t, JObj(m), sel, i + 1, attrs, cache)
                         == Run(Steps(conv, t, sel, m), i + 1, attrs, cache)
    requires var s := StepAt(conv, t, sel, m, i);
             s.Store? ==> DecodeFields(conv, t, JObj(m), sel, i + 1, Put(attrs, s.name, s.v), Put(cache, s.name, s.f))
                          == Run(Steps(conv, t, sel, m), i + 1, Put(attrs, s.name, s.v), Put(cache, s.name, s.f))
    ensures DecodeFields(conv, t, JObj(m), sel, i, attrs, cache) == Run(Steps(conv, t, sel, m), i, attrs, cache)
  {
    DecodeFieldsStep(conv, t, m, sel, i, attrs, cache);
    var steps := Steps(conv, t, sel, m);
    assert steps[i] == StepAt(conv, t, sel, m, i);
  }

  /** The field loop on an object, from the i-th planned assignment on,
      succeeds exactly when every present assignment decodes; otherwise it
      fails with the handler's `ValueError`. */
  lemma FieldsOk(conv: Converter, t: GType, m: OMap<Json>, sel: Option<seq<Selection>>,
                 i: nat, attrs: OMap<Value>, cache: OMap<Field>)
    requires i <= PlanSize(t, sel)
    ensures var r := DecodeFields(conv, t, JObj(m), sel, i, attrs, cache);
            r.Ok? <==> forall k :: i <= k < PlanSize(t, sel) ==> PlanOk(conv, t, sel, m, k)
    ensures var r := DecodeFields(conv, t, JObj(m), sel, i, attrs, cache);
            r.Err? ==> r.error.FieldFailed? && r.error.container == Name(t)
  {
    var steps := Steps(conv, t, sel, m);
    FieldsRun(conv, t, m, sel, i, attrs, cache);
    RunOk(steps, i, attrs, cache);
    forall k | i <= k < PlanSize(t, sel) ensures steps[k].Fail? <==> !PlanOk(conv, t, sel, m, k) {
      assert steps[k] == StepAt(conv, t, sel, m, k);
    }
    if Run(steps, i, attrs, cache).Err? {
      RunErr(steps, i, attrs, cache);
    }
  }

  /** The attributes and the field cache gain exactly the names of the
      present assignments, in the same order. */
  lemma FieldsNames(conv: Converter, t: GType, m: OMap<Json>, sel: Option<seq<Selection>>,
                    i: nat, attrs: OMap<Value>, cache: OMap<Field>)
    requires i <= PlanSize(t, sel) && Keys(attrs) == Keys(cache)
    requires DecodeFields(conv, t, JObj(m), sel, i, attrs, cache).Ok?
    ensures var r := DecodeFields(conv, t, JObj(m), sel, i, attrs, cache).value;
            Keys(r.0) == Keys(r.1)
    ensures var r := DecodeFields(conv, t, JObj(m), sel, i, attrs, cache).value;
            forall n :: HasKey(r.0, n) <==>
              HasKey(attrs, n)
              || exists k :: i <= k < PlanSize(t, sel) && Planned(t, sel, k).0 == n && Present(t, sel, m, k)
  {
    var steps := Steps(conv, t, sel, m);
    FieldsRun(conv, t, m, sel, i, attrs, cache);
    RunKeys(steps, i, attrs, cache);
    RunOk(steps, i, attrs, cache);
    var r := Run(steps, i, attrs, cache).value;
    forall n ensures HasKey(r.0, n) <==> (HasKey(attrs, n)
                     || exists k :: i <= k < PlanSize(t, sel) && Planned(t, sel, k).0 == n && Present(t, sel, m, k)) {
      RunHas(steps, i, attrs, cache, n);
      if exists k :: i <= k < PlanSize(t, sel) && Planned(t, sel, k).0 == n && Present(t, sel, m, k) {
        var k :| i <= k < PlanSize(t, sel) && Planned(t, sel, k).0 == n && Present(t, sel, m, k);
        assert steps[k].Store? && steps[k].name == n;
      }
    }
  }

  /** Each materialized name holds the value and field of the last present
      assignment of that name. */
  lemma FieldsValues(conv: Converter, t: GType, m: OMap<Json>, sel: Option<seq<Selection>>,
                     i: nat, attrs: OMap<Value>, cache: OMap<Field>)
    requires i <= PlanSize(t, sel)
    requires DecodeFields(conv, t, JObj(m), sel, i, attrs, cache).Ok?
    ensures var r := DecodeFields(conv, t, JObj(m), sel, i, attrs, cache).value;
            forall k :: i <= k < PlanSize(t, sel) && LastFor(t, sel, m, k) ==>
              && Get(r.0, Planned(t, sel, k).0).Some?
              && Decode(conv, Planned(t, sel, k).1.typ, Raw(t, sel, m, k), None)
                 == Ok(Get(r.0, Planned(t, sel, k).0).value)
              && Get(r.1, Planned(t, sel, k).0) == Some(Planned(t, sel, k).1)
  {
    var steps := Steps(conv, t, sel, m);
    FieldsRun(conv, t, m, sel, i, attrs, cache);
    forall k | i <= k < PlanSize(t, sel) && LastFor(t, sel, m, k)
      ensures var r := DecodeFields(conv, t, JObj(m), sel, i, attrs, cache).value;
              && Get(r.0, Planned(t, sel, k).0).Some?
              && Decode(conv, Planned(t, sel, k).1.typ, Raw(t, sel, m, k), None)
                 == Ok(Get(r.0, Planned(t, sel, k).0).value)
              && Get(r.1, Planned(t, sel, k).0) == Some(Planned(t, sel, k).1)
    {
      FieldsLast(conv, t, m, sel, i, attrs, cache, k);
    }
  }

  /** The step of an assignment that is the last present one of its name
      stores, and no later step stores under that name. */
  lemma FieldsLast(conv: Converter, t: GType, m: OMap<Json>, sel: Option<seq<Selection>>,
                   i: nat, attrs: OMap<Value>, cache: OMap<Field>, k: nat)
    requires i <= k < PlanSize(t, sel) && LastFor(t, sel, m, k)
    requires Run(Steps(conv, t, sel, m), i, attrs, cache).Ok?
    ensures var r := Run(Steps(conv, t, sel, m), i, attrs, cache).value;
            && DecodeAt(conv, t, sel, m, k).Ok?
            && Get(r.0, NameAt(t, sel, k)) == Some(DecodeAt(conv, t, sel, m, k).value)
            && Get(r.1, NameAt(t, sel, k)) == Some(Planned(t, sel, k).1)
  {
    var steps := Steps(conv, t, sel, m);
    RunOkAt(steps, i, attrs, cache, k);
    assert steps[k].Store?;
    RunLast(steps, i, attrs, cache, k);
  }

  /** Decoding a JSON object into a container class: it succeeds exactly
      when every planned field present in the object decodes (a failing one
      aborts the whole decode with `ValueError`); the instance is backed by
      the object itself; its attributes and field cache hold exactly the
      names of the present assignments, each with the decoded value of the
      last present assignment of that name. */
  lemma DecodeObject(conv: Converter, t: GType, m: OMap<Json>, sel: Option<seq<Selection>>)
    requires IsContainer(t)
    ensures Decode(conv, t, JObj(m), sel).Ok? <==>
              forall k :: 0 <= k < PlanSize(t, sel) ==> PlanOk(conv, t, sel, m, k)
    ensures Decode(conv, t, JObj(m), sel).Err? ==>
              Decode(conv, t, JObj(m), sel).error.FieldFailed?
              && Decode(conv, t, JObj(m), sel).error.container == Name(t)
    ensures Decode(conv, t, JObj(m), sel).Ok? ==>
              var inst := Decode(conv, t, JObj(m), sel).value.inst;
              && inst.store == JObj(m)
              && Keys(inst.attrs) == Keys(inst.cache)
              && (forall n :: HasKey(inst.attrs, n) <==>
                    exists k :: 0 <= k < PlanSize(t, sel) && Planned(t, sel, k).0 == n && Present(t, sel, m, k))
              && (forall k :: 0 <= k < PlanSize(t, sel) && LastFor(t, sel, m, k) ==>
                    && Get(inst.attrs, Planned(t, sel, k).0).Some?
                    && Decode(conv, Planned(t, sel, k).1.typ, Raw(t, sel, m, k), None)
                       == Ok(Get(inst.attrs, Planned(t, sel, k).0).value)
                    && Get(inst.cache, Planned(t, sel, k).0) == Some(Planned(t, sel, k).1))
  {
    DecodeObjectRuns(conv, t, m, sel);
    FieldsOk(conv, t, m, sel, 0, [], []);
    if DecodeFields(conv, t, JObj(m), sel, 0, [], []).Ok? {
      FieldsNames(conv, t, m, sel, 0, [], []);
      FieldsValues(conv, t, m, sel, 0, [], []);
    }
  }

  /** A container decode of an object runs the field loop from scratch and
      keeps the object as the backing store. */
  lemma DecodeObjectRuns(conv: Converter, t: GType, m: OMap<Json>, sel: Option<seq<Selection>>)
    requires IsContainer(t)
    ensures var fs := DecodeFields(conv, t, JObj(m), sel, 0, [], []);
            Decode(conv, t, JObj(m), sel)
            == if fs.Ok? then Ok(VObj(Instance(t, sel, fs.value.0, fs.value.1, JObj(m)))) else Err(fs.error)
  {
  }

  /** A container decode of a boolean or a number fails with the
      `TypeError` of `key in value` as soon as there is a field to look up,
      and of a list or a string with the handler's error once a key is
      found in it. */
  lemma DecodeNotObject(conv: Converter, t: GType, j: Json, sel: Option<seq<Selection>>)
    requires IsContainer(t) && PlanSize(t, sel) > 0
    ensures (j.JBool? || j.JNum?) ==> Decode(conv, t, j, sel) == Err(NotIterable(j))
    ensures (j.JArr? || j.JStr?) && Contains(j, WireOf(t, sel, 0)) == Some(true) ==>
              Decode(conv, t, j, sel) == Err(UnboundValue(Planned(t, sel, 0).0))
  {
  }

  /** `[t(v, sel) for v in items]` succeeds exactly when every item decodes,
      and then holds the decoded items in order. */
  lemma {:induction false} ItemsLaw(conv: Converter, b: GType, items: seq<Json>, sel: Option<seq<Selection>>)
    ensures DecodeItems(conv, b, items, sel).Ok? <==>
              forall k :: 0 <= k < |items| ==> Decode(conv, b, items[k], sel).Ok?
    ensures DecodeItems(conv, b, items, sel).Ok? ==>
              forall k :: 0 <= k < |items| ==>
                DecodeItems(conv, b, items, sel).value[k] == Decode(conv, b, items[k], sel).value
  {
    if |items| > 0 {
      ItemsLaw(conv, b, items[1..], sel);
      assert forall k :: 1 <= k < |items| ==> items[1..][k - 1] == items[k];
    }
  }

  /** The list wrapper maps null to null and decodes a list element by
      element, keeping length and order; it fails exactly when an element
      fails. */
  lemma DecodeList(conv: Converter, b: GType, xs: seq<Json>, sel: Option<seq<Selection>>)
    ensures Decode(conv, ListOfT(b), JNull, sel) == Ok(VJson(JNull))
    ensures Decode(conv, ListOfT(b), JArr(xs), sel).Ok? <==>
              forall k :: 0 <= k < |xs| ==> Decode(conv, b, xs[k], sel).Ok?
    ensures Decode(conv, ListOfT(b), JArr(xs), sel).Ok? ==>
              var v := Decode(conv, ListOfT(b), JArr(xs), sel).value;
              v.VList? && |v.items| == |xs|
              && forall k :: 0 <= k < |xs| ==> v.items[k] == Decode(conv, b, xs[k], sel).value
  {
    ItemsLaw(conv, b, xs, sel);
  }

  /** The non-null wrapper refuses null with `ValueError` and otherwise
      decodes like its base type, without the selection. */
  lemma DecodeNonNull(conv: Converter, b: GType, j: Json, sel: Option<seq<Selection>>)
    ensures j == JNull ==> Decode(conv, NonNullT(b), j, sel) == Err(NullValue(Name(b) + "!"))
    ensures j != JNull ==> Decode(conv, NonNullT(b), j, sel) == Decode(conv, b, j, None)
  {
  }

  /** An enum accepts null and exactly its own choices, returning them
      unchanged; anything else is a `ValueError`. */
  lemma DecodeEnum(conv: Converter, t: GType, j: Json, sel: Option<seq<Selection>>)
    requires t.EnumT?
    ensures Decode(conv, t, j, sel).Ok? <==> j == JNull || (j.JStr? && j.s in t.choices)
    ensures Decode(conv, t, j, sel).Ok? ==> Decode(conv, t, j, sel) == Ok(VJson(j))
    ensures Decode(conv, t, j, sel).Err? ==> Decode(conv, t, j, sel) == Err(BadEnumValue(Name(t), j))
  {
  }

  /** A scalar maps null to null and applies its converter to anything
      else, failing exactly when the converter fails. */
  lemma DecodeScalar(conv: Converter, t: GType, j: Json, sel: Option<seq<Selection>>)
    requires t.ScalarT?
    ensures j == JNull ==> Decode(conv, t, j, sel) == Ok(VJson(JNull))
    ensures j != JNull ==> (Decode(conv, t, j, sel).Ok? <==> conv(t.converter, j).Ok?)
    ensures j != JNull && conv(t.converter, j).Ok? ==> Decode(conv, t, j, sel) == Ok(VJson(conv(t.converter, j).value))
  {
  }

  /** A container maps null to an empty instance backed by `{}`, and a union
      (the root `Union` too) cannot be called at all. */
  lemma DecodeNullContainer(conv: Converter, t: GType, sel: Option<seq<Selection>>)
    ensures IsContainer(t) ==> Decode(conv, t, JNull, sel) == Ok(VObj(EmptyInstance(t, sel)))
    ensures t.UnionT? || t == RootT(UnionKind) ==> Decode(conv, t, JNull, sel) == Err(NotConstructible(Name(t)))
  {
  }

  /** The roots that are not containers: `Scalar(j)` returns j itself,
      `Enum(j)` accepts only null because it has no choices, and `Union`
      cannot be called. */
  lemma DecodeAbstract(conv: Converter, j: Json, sel: Option<seq<Selection>>)
    ensures Decode(conv, RootT(ScalarKind), j, sel) == Ok(VJson(j))
    ensures Decode(conv, RootT(EnumKind), j, sel).Ok? <==> j == JNull
    ensures j != JNull ==> Decode(conv, RootT(EnumKind), j, sel) == Err(BadEnumValue("Enum", j))
    ensures Decode(conv, RootT(UnionKind), j, sel) == Err(NotConstructible("Union"))
  {
  }
}

=== FILE: declare.dfy ===
/** Class statements: what executing `class X(Scalar)`, `class X(Enum)`,
    `class X(Union)` or a container class statement leaves behind. Every
    declaration first registers the new class in its schema
    (`BaseMeta.__init__`), then runs the metaclass's own steps. */
module Declarations {
  import opened Prelude
  import opened OrderedMaps
  import opened Types
  import opened Registry
  import opened Builder
  import Text

  /** `BaseMeta.__init__` for a class with bases: `schema += cls` unless
      `__auto_register` is off. The class is filed under the kind table `k`
      and a clash leaves the schema as it was. */
  function Register(home: Schema, t: GType, k: Kind, autoRegister: bool): (r: Outcome<Schema, Error>)
    ensures r.raised.Some? <==> autoRegister && Lookup(home, Name(t)).Ok? && Lookup(home, Name(t)).value != t
    ensures r.raised.Some? ==> r.state == home && r.raised.value == AlreadyRegistered(Name(t))
    ensures !autoRegister ==> r.state == home
    ensures autoRegister && r.raised.None? ==>
              Lookup(r.state, Name(t)) == Ok(t) && Get(KindTable(r.state, k), Name(t)) == Some(t)
    ensures forall n :: n != Name(t) ==> Lookup(r.state, n) == Lookup(home, n)
    ensures r.state.id == home.id && r.state.cache == home.cache
  {
    if !autoRegister then Outcome(home, None)
    else
      match AddUnder(home, t, k)
      case Ok(s) => Outcome(s, None)
      case Err(e) => Outcome(home, Some(e))
  }

  /** Registering a class under its own kind keeps the schema consistent. */
  lemma RegisterConsistent(home: Schema, t: GType, autoRegister: bool)
    requires Consistent(home)
    ensures Consistent(Register(home, t, KindOf(t), autoRegister).state)
  {
    if autoRegister && Add(home, t).Ok? {
      AddConsistent(home, t);
    }
  }

  /** `class X(Scalar)` with `converter` (or a subclass of a built-in). */
  function ScalarType(home: Schema, uid: nat, name: string, converter: string): (t: GType)
    ensures Name(t) == name && KindOf(t) == ScalarKind && HomeOf(t) == home.id
  {
    ScalarT(uid, home.id, name, converter)
  }

  function DeclareScalar(home: Schema, uid: nat, name: string, converter: string,
                         autoRegister: bool): (r: Outcome<Schema, Error>)
    ensures r.raised.Some? <==> autoRegister && Lookup(home, name).Ok?
                                && Lookup(home, name).value != ScalarType(home, uid, name, converter)
    ensures autoRegister && r.raised.None? ==>
              Lookup(r.state, name) == Ok(ScalarType(home, uid, name, converter))
              && Get(KindTable(r.state, ScalarKind), name) == Some(ScalarType(home, uid, name, converter))
  {
    Register(home, ScalarType(home, uid, name, converter), ScalarKind, autoRegister)
  }

  /** `__choices__` as written in the class body: one string or a sequence
      of strings. */
  datatype Choices = ChoiceText(text: string) | ChoiceList(items: seq<string>)

  /** `not cls.__choices__`. */
  predicate Missing(c: Choices)
  {
    match c
    case ChoiceText(text) => text == ""
    case ChoiceList(items) => |items| == 0
  }

  /** The choices the enum ends up with: a string is split on whitespace,
      a sequence is kept as it is. */
  function ChoiceSeq(c: Choices): (r: seq<string>)
    ensures c.ChoiceList? ==> r == c.items
    ensures c.ChoiceText? ==> r == Text.Words(c.text)
    ensures Missing(c) ==> r == []
  {
    match c
    case ChoiceText(text) => Text.Words(text)
    case ChoiceList(items) => items
  }

  /** The enum class. Its choices are normalised even when they are missing,
      in which case they are empty either way. */
  function EnumType(home: Schema, uid: nat, name: string, choices: Choices): (t: GType)
    ensures Name(t) == name && KindOf(t) == EnumKind && HomeOf(t) == home.id
    ensures t.EnumT? && t.choices == ChoiceSeq(choices)
  {
    EnumT(uid, home.id, name, ChoiceSeq(choices))
  }

  /** `EnumMeta.__init__`: registration first, then the check for missing
      choices, which raises with the class already registered. Text made of
      whitespace alone passes the check and yields no choices. */
  function DeclareEnum(home: Schema, uid: nat, name: string, choices: Choices,
                       autoRegister: bool): (r: Outcome<Schema, Error>)
    ensures var t := EnumType(home, uid, name, choices);
            r.state == Register(home, t, EnumKind, autoRegister).state
    ensures var t := EnumType(home, uid, name, choices);
            Register(home, t, EnumKind, autoRegister).raised.Some?
            ==> r.raised == Some(AlreadyRegistered(name))
    ensures var t := EnumType(home, uid, name, choices);
            Register(home, t, EnumKind, autoRegister).raised.None?
            ==> (r.raised.Some? <==> Missing(choices))
    ensures r.raised.Some? && r.raised.value.MissingChoices? ==> r.raised.value.name == name
  {
    var o := Register(home, EnumType(home, uid, name, choices), EnumKind, autoRegister);
    if o.raised.Some? then o
    else if Missing(choices) then Outcome(o.state, Some(MissingChoices(name)))
    else o
  }

  /** Choices written as whitespace-separated words come out as those
      words. */
  lemma EnumChoicesFromText(home: Schema, uid: nat, name: string, ws: seq<string>)
    requires forall i :: 0 <= i < |ws| ==> ws[i] != "" && Text.NoSpace(ws[i])
    ensures EnumType(home, uid, name, ChoiceText(Text.Join(ws, " "))).choices == ws
  {
    Text.WordsJoin(ws);
  }

  /** `class X(Union)` with `__types__`, kept as written. */
  function UnionType(home: Schema, uid: nat, name: string, types: seq<GType>): (t: GType)
    ensures Name(t) == name && KindOf(t) == UnionKind && HomeOf(t) == home.id
    ensures t.UnionT? && t.members == types
  {
    UnionT(uid, home.id, name, types)
  }

  function DeclareUnion(home: Schema, uid: nat, name: string, types: seq<GType>,
                        autoRegister: bool): (r: Outcome<Schema, Error>)
    ensures r.raised.Some? <==> autoRegister && Lookup(home, name).Ok?
                                && Lookup(home, name).value != UnionType(home, uid, name, types)
    ensures autoRegister && r.raised.None? ==>
              Lookup(r.state, name) == Ok(UnionType(home, uid, name, types))
              && Get(KindTable(r.state, UnionKind), name) == Some(UnionType(home, uid, name, types))
  {
    Register(home, UnionType(home, uid, name, types), UnionKind, autoRegister)
  }

  /** A container class statement, registering the class under its final
      kind. A class without bases is one of the abstract roots and is not
      registered. An enum base clashes with the container metaclass before
      the class exists; a scalar or union base (or a wrapper of one) has no
      field table, so `__inherit_fields` raises `AttributeError` once the
      class is registered. */
  function DeclareContainer(home: Schema, d: ContainerDecl): (r: Outcome<Schema, Error>)
    ensures |d.bases| == 0 ==> r == Outcome(home, None)
    ensures |d.bases| > 0 && AnyEnumBase(d.bases) ==> r == Outcome(home, Some(MetaclassConflict(d.name)))
    ensures |d.bases| > 0 && !AnyEnumBase(d.bases) ==>
              var t := BuildContainer(home.id, d);
              var clash := d.autoRegister && Lookup(home, d.name).Ok? && Lookup(home, d.name).value != t;
              && (r.raised.Some? <==> clash || !ContainerBases(d.bases))
              && (clash ==> r == Outcome(home, Some(AlreadyRegistered(d.name))))
              && (!clash && !ContainerBases(d.bases) ==> r.raised == Some(NoFieldTable(Name(d.bases[Reach(d.bases)]))))
              && (!clash && d.autoRegister ==>
                    Lookup(r.state, d.name) == Ok(t)
                    && Get(KindTable(r.state, FixKind(d.kind, d.bases)), d.name) == Some(t))
  {
    if |d.bases| == 0 then Outcome(home, None)
    else if AnyEnumBase(d.bases) then Outcome(home, Some(MetaclassConflict(d.name)))
    else
      var t := BuildContainer(home.id, d);
      var o := Register(home, t, KindOf(t), d.autoRegister);
      if o.raised.Some? || ContainerBases(d.bases) then o
      else Outcome(o.state, Some(NoFieldTable(Name(d.bases[Reach(d.bases)]))))
  }

  /** Declaring containers keeps the schema consistent. */
  lemma DeclareContainerConsistent(home: Schema, d: ContainerDecl)
    requires Consistent(home)
    ensures Consistent(DeclareContainer(home, d).state)
  {
    if |d.bases| > 0 && !AnyEnumBase(d.bases) {
      RegisterConsistent(home, BuildContainer(home.id, d), d.autoRegister);
    }
  }

  /** The error a container class statement with bases raises, as the
      source runs it, once the class is registered: the `AttributeError` of
      the first base without a field table, else the `TypeError` of
      `dir(cls)`. */
  function StopAsWritten(d: ContainerDecl): Error
    requires |d.bases| > 0
  {
    if ContainerBases(d.bases) then DirFailed(d.name) else NoFieldTable(Name(d.bases[Reach(d.bases)]))
  }

  /** A container class statement as the source runs it. A class with bases
      is registered under the kind it starts with, before an interface is
      promoted; then `dir(cls)` raises `TypeError` (or, earlier, a base
      without a field table raises `AttributeError`), leaving the registered
      class as `Interrupted` describes. Every such statement raises; one
      with an enum base raises before anything is registered. */
  function DeclareContainerAsWritten(home: Schema, d: ContainerDecl): (r: Outcome<Schema, Error>)
    ensures |d.bases| == 0 ==> r == Outcome(home, None)
    ensures |d.bases| > 0 ==> r.raised.Some?
    ensures |d.bases| > 0 && AnyEnumBase(d.bases) ==> r == Outcome(home, Some(MetaclassConflict(d.name)))
    ensures |d.bases| > 0 && !AnyEnumBase(d.bases) ==>
              var t := Interrupted(home.id, d);
              (r.raised == Some(StopAsWritten(d))
               <==> !(d.autoRegister && Lookup(home, d.name).Ok? && Lookup(home, d.name).value != t))
    ensures |d.bases| > 0 && !AnyEnumBase(d.bases) && d.autoRegister && r.raised == Some(StopAsWritten(d)) ==>
              var t := Interrupted(home.id, d);
              Lookup(r.state, d.name) == Ok(t) && Get(KindTable(r.state, d.kind), d.name) == Some(t)
    ensures !d.autoRegister ==> r.state == home
  {
    if |d.bases| == 0 then Outcome(home, None)
    else if AnyEnumBase(d.bases) then Outcome(home, Some(MetaclassConflict(d.name)))
    else
      var o := Register(home, Interrupted(home.id, d), d.kind, d.autoRegister);
      if o.raised.Some? then o else Outcome(o.state, Some(StopAsWritten(d)))
  }

  /** A declaration that registers a fresh name can be undone with
      `schema -= t`: the class sits in the table of the kind it ends up
      with. Only a statement whose bases all have field tables gets that
      far without raising. */
  lemma DeclaredRemovable(home: Schema, d: ContainerDecl)
    requires Consistent(home) && !Contains(home, d.name)
    requires |d.bases| > 0 && d.autoRegister
    ensures DeclareContainer(home, d).raised.None? <==> ContainerBases(d.bases)
    ensures !AnyEnumBase(d.bases) ==>
            var t := BuildContainer(home.id, d);
            Remove(DeclareContainer(home, d).state, t).raised.None?
            && Remove(DeclareContainer(home, d).state, t).state.all == home.all
  {
    if !AnyEnumBase(d.bases) {
      var t := BuildContainer(home.id, d);
      assert DeclareContainer(home, d).state == Add(home, t).value;
      AddThenRemove(home, t);
    } else {
      var i :| 0 <= i < |d.bases| && MetaOf(d.bases[i]) == EnumMeta;
      assert !ContainerBases(d.bases);
    }
  }

  /** As the source runs it, an interface declared with a base of kind
      `type` is registered in the `interface` table, then promoted to a
      `type` before the statement raises. `schema -= t` on the registered
      class looks in the `type` table and raises `KeyError` after the name
      has already left the name table. */
  lemma PromotedNotRemovable(home: Schema, d: ContainerDecl)
    requires Consistent(home) && !Contains(home, d.name)
    requires |d.bases| > 0 && d.autoRegister && d.kind == InterfaceKind && AnyTypeBase(d.bases)
    requires !AnyEnumBase(d.bases)
    ensures DeclareContainerAsWritten(home, d).raised == Some(StopAsWritten(d))
    ensures var s := DeclareContainerAsWritten(home, d).state;
            var t := Interrupted(home.id, d);
            && KindOf(t) == TypeKind
            && Get(KindTable(s, InterfaceKind), d.name) == Some(t)
            && Get(KindTable(s, TypeKind), d.name).None?
            && Remove(s, t).raised.Some?
            && !Contains(Remove(s, t).state, d.name)
  {
    var t := Interrupted(home.id, d);
    assert KindOf(t) == TypeKind;
    MisfiledNotRemovable(home, t, InterfaceKind);
  }

  /** `cls[key]`: the field of that Python name, or `KeyError`. */
  function FieldOf(t: GType, key: string): (r: Result<Field, Error>)
    ensures r.Ok? <==> HasKey(TableOf(t), key)
    ensures r.Ok? ==> Get(TableOf(t), key) == Some(r.value)
    ensures r.Err? ==> r.error == NoSuchField(Name(t), key)
  {
    match Get(TableOf(t), key)
    case Some(f) => Ok(f)
    case None => Err(NoSuchField(Name(t), key))
  }

  /** `key in cls`. */
  function HasField(t: GType, key: string): (r: bool)
    ensures r <==> FieldOf(t, key).Ok?
  {
    HasKey(TableOf(t), key)
  }
}

=== FILE: field_loop.dfy ===
/** The shape of the attribute loop in `ContainerType.__init__`: each
    planned assignment is skipped, stored under its attribute name (in the
    attributes and in the field cache at once) or aborts the loop. The laws
    here hold for any sequence of steps; the decoder instantiates them with
    its own. */
module FieldLoop {
  import opened Prelude
  import opened OrderedMaps

  /** What one pass of the loop does. */
  datatype Step<V, F, E> = Skip | Store(name: string, v: V, f: F) | Fail(e: E)

  /** The loop over the steps from the i-th on, from the attributes and cache built
      so far. */
  function Run<V, F, E>(steps: seq<Step<V, F, E>>, i: nat, attrs: OMap<V>, cache: OMap<F>)
    : (r: Result<(OMap<V>, OMap<F>), E>)
    decreases |steps| - i
  {
    if i >= |steps| then Ok((attrs, cache))
    else
      match steps[i]
      case Skip => Run(steps, i + 1, attrs, cache)
      case Store(x, v, f) => Run(steps, i + 1, Put(attrs, x, v), Put(cache, x, f))
      case Fail(e) => Err(e)
  }

  /** The attributes a run leaves, or the error it raised. */
  function Left<V, F, E>(r: Result<(OMap<V>, OMap<F>), E>): (l: Result<OMap<V>, E>)
    ensures l.Ok? <==> r.Ok?
    ensures r.Ok? ==> l.value == r.value.0
    ensures r.Err? ==> l.error == r.error
  {
    match r
    case Ok((a, _)) => Ok(a)
    case Err(e) => Err(e)
  }

  /** Some step from the i-th on stores under the name x. */
  ghost predicate Stores<V, F, E>(steps: seq<Step<V, F, E>>, i: nat, x: string)
  {
    exists k :: i <= k < |steps| && steps[k].Store? && steps[k].name == x
  }

  lemma StoresStep<V, F, E>(steps: seq<Step<V, F, E>>, i: nat, x: string)
    requires i < |steps|
    ensures Stores(steps, i, x) <==> (steps[i].Store? && steps[i].name == x) || Stores(steps, i + 1, x)
  {
    if Stores(steps, i, x) {
      var k :| i <= k < |steps| && steps[k].Store? && steps[k].name == x;
      if k > i {
        assert Stores(steps, i + 1, x);
      }
    }
  }

  /** When no step fails, the loop succeeds. */
  lemma {:induction false} RunOkIf<V, F, E>(steps: seq<Step<V, F, E>>, i: nat, attrs: OMap<V>, cache: OMap<F>)
    requires forall k :: i <= k < |steps| ==> !steps[k].Fail?
    ensures Run(steps, i, attrs, cache).Ok?
    decreases |steps| - i
  {
    if i < |steps| {
      match steps[i]
      case Skip => RunOkIf(steps, i + 1, attrs, cache);
      case Store(x, v, f) => RunOkIf(steps, i + 1, Put(attrs, x, v), Put(cache, x, f));
    }
  }

  /** A loop that succeeds passed no failing step. */
  lemma {:induction false} RunOkAt<V, F, E>(steps: seq<Step<V, F, E>>, i: nat, attrs: OMap<V>, cache: OMap<F>, k: nat)
    requires i <= k < |steps| && Run(steps, i, attrs, cache).Ok?
    ensures !steps[k].Fail?
    decreases k - i
  {
    if i < k {
      match steps[i]
      case Skip => RunOkAt(steps, i + 1, attrs, cache, k);
      case Store(x, v, f) => RunOkAt(steps, i + 1, Put(attrs, x, v), Put(cache, x, f), k);
    }
  }

  /** The loop succeeds exactly when no step fails. */
  lemma RunOk<V, F, E>(steps: seq<Step<V, F, E>>, i: nat, attrs: OMap<V>, cache: OMap<F>)
    ensures Run(steps, i, attrs, cache).Ok? <==> forall k :: i <= k < |steps| ==> !steps[k].Fail?
  {
    if Run(steps, i, attrs, cache).Ok? {
      forall k | i <= k < |steps| ensures !steps[k].Fail? {
        RunOkAt(steps, i, attrs, cache, k);
      }
    } else if forall k :: i <= k < |steps| ==> !steps[k].Fail? {
      RunOkIf(steps, i, attrs, cache);
    }
  }

  /** A failing loop raises the error of one of its steps. */
  lemma {:induction false} RunErr<V, F, E>(steps: seq<Step<V, F, E>>, i: nat, attrs: OMap<V>, cache: OMap<F>)
    requires Run(steps, i, attrs, cache).Err?
    ensures exists k :: i <= k < |steps| && steps[k].Fail? && steps[k].e == Run(steps, i, attrs, cache).error
    decreases |steps| - i
  {
    match steps[i]
    case Skip => RunErr(steps, i + 1, attrs, cache);
    case Store(x, v, f) => RunErr(steps, i + 1, Put(attrs, x, v), Put(cache, x, f));
    case Fail(e) => assert steps[i].Fail?;
  }

  /** The attributes and the cache keep the same names. */
  lemma {:induction false} RunKeys<V, F, E>(steps: seq<Step<V, F, E>>, i: nat, attrs: OMap<V>, cache: OMap<F>)
    requires Keys(attrs) == Keys(cache) && Run(steps, i, attrs, cache).Ok?
    ensures Keys(Run(steps, i, attrs, cache).value.0) == Keys(Run(steps, i, attrs, cache).value.1)
    decreases |steps| - i
  {
    if i < |steps| {
      match steps[i]
      case Skip => RunKeys(steps, i + 1, attrs, cache);
      case Store(x, v, f) =>
        SameKeysHasKey(attrs, cache, x);
        RunKeys(steps, i + 1, Put(attrs, x, v), Put(cache, x, f));
    }
  }

  /** A name ends up in the attributes exactly when it was there already or
      some step stores under it. */
  lemma {:induction false} RunHas<V, F, E>(steps: seq<Step<V, F, E>>, i: nat, attrs: OMap<V>, cache: OMap<F>,
                                           x: string)
    requires Run(steps, i, attrs, cache).Ok?
    ensures HasKey(Run(steps, i, attrs, cache).value.0, x) <==> HasKey(attrs, x) || Stores(steps, i, x)
    decreases |steps| - i
  {
    if i < |steps| {
      StoresStep(steps, i, x);
      match steps[i]
      case Skip => RunHas(steps, i + 1, attrs, cache, x);
      case Store(y, v, f) =>
        RunHas(steps, i + 1, Put(attrs, y, v), Put(cache, y, f), x);
        assert HasKey(Put(attrs, y, v), x) <==> x == y || HasKey(attrs, x) by {
          assert Get(Put(attrs, y, v), x).Some? <==> HasKey(Put(attrs, y, v), x);
          assert Get(attrs, x).Some? <==> HasKey(attrs, x);
        }
    }
  }

  /** A name no step stores under keeps its entries. */
  lemma {:induction false} RunUntouched<V, F, E>(steps: seq<Step<V, F, E>>, i: nat, attrs: OMap<V>,
                                                 cache: OMap<F>, x: string)
    requires Run(steps, i, attrs, cache).Ok? && !Stores(steps, i, x)
    ensures Get(Run(steps, i, attrs, cache).value.0, x) == Get(attrs, x)
    ensures Get(Run(steps, i, attrs, cache).value.1, x) == Get(cache, x)
    decreases |steps| - i
  {
    if i < |steps| {
      StoresStep(steps, i, x);
      match steps[i]
      case Skip => RunUntouched(steps, i + 1, attrs, cache, x);
      case Store(y, v, f) => RunUntouched(steps, i + 1, Put(attrs, y, v), Put(cache, y, f), x);
    }
  }

  /** The last step storing under a name decides what the name holds. */
  lemma {:induction false} RunLast<V, F, E>(steps: seq<Step<V, F, E>>, i: nat, attrs: OMap<V>, cache: OMap<F>,
                                            k: nat)
    requires Run(steps, i, attrs, cache).Ok?
    requires i <= k < |steps| && steps[k].Store? && !Stores(steps, k + 1, steps[k].name)
    ensures Get(Run(steps, i, attrs, cache).value.0, steps[k].name) == Some(steps[k].v)
    ensures Get(Run(steps, i, attrs, cache).value.1, steps[k].name) == Some(steps[k].f)
    decreases k - i
  {
    match steps[i]
    case Skip => RunLast(steps, i + 1, attrs, cache, k);
    case Store(y, v, f) =>
      if i < k {
        RunLast(steps, i + 1, Put(attrs, y, v), Put(cache, y, f), k);
      } else {
        RunUntouched(steps, i + 1, Put(attrs, y, v), Put(cache, y, f), y);
      }
  }
  /** Two steps that skip alike or store the same thing, whatever their
      error types. */
  ghost predicate Mirrors<V, F, E1, E2>(a: Step<V, F, E1>, b: Step<V, F, E2>)
  {
    (a.Skip? && b.Skip?) || (a.Store? && b.Store? && a.name == b.name && a.v == b.v && a.f == b.f)
  }

  /** Two loops whose steps mirror each other both succeed, with the same
      attributes and cache. */
  lemma {:induction false} RunMirror<V, F, E1, E2>(s1: seq<Step<V, F, E1>>, s2: seq<Step<V, F, E2>>, i: nat,
                                                   attrs: OMap<V>, cache: OMap<F>)
    requires |s1| == |s2| && forall j :: i <= j < |s1| ==> Mirrors(s1[j], s2[j])
    ensures Run(s1, i, attrs, cache).Ok? && Run(s2, i, attrs, cache).Ok?
    ensures Run(s1, i, attrs, cache).value == Run(s2, i, attrs, cache).value
    decreases |s1| - i
  {
    if i < |s1| {
      assert Mirrors(s1[i], s2[i]);
      match s1[i]
      case Skip =>
        RunMirror(s1, s2, i + 1, attrs, cache);
      case Store(x, v, f) =>
        RunMirror(s1, s2, i + 1, Put(attrs, x, v), Put(cache, x, f));
    }
  }
}

=== FILE: first_seen.dfy ===
/** Keeping the first occurrence of each element. This is the order in which
    `OrderedDict.update` leaves its keys, and the order in which a list
    guarded by `if x not in r: r.append(x)` collects its items. */
module FirstSeen {

  /** Walks `items` in order and appends an item when it is flagged or when
      the result does not hold it yet. A flag stands for an unguarded
      `append`. */
  function Keep<T(==)>(acc: seq<T>, items: seq<(T, bool)>): seq<T>
    decreases |items|
  {
    if |items| == 0 then acc
    else Keep(if items[0].1 || items[0].0 !in acc then acc + [items[0].0] else acc, items[1..])
  }

  /** The same elements, none of them flagged. */
  function Plain<T>(xs: seq<T>): (r: seq<(T, bool)>)
    ensures |r| == |xs|
  {
    seq(|xs|, i requires 0 <= i < |xs| => (xs[i], false))
  }

  /** The elements of `xs`, each once, in the order of their first
      occurrence. */
  function Dedup<T(==)>(xs: seq<T>): seq<T>
  {
    Keep([], Plain(xs))
  }

  /** Position of the first occurrence of x. */
  function IndexOf<T(==)>(xs: seq<T>, x: T): (r: nat)
    requires x in xs
    ensures r < |xs| && xs[r] == x
    ensures forall j :: 0 <= j < r ==> xs[j] != x
  {
    if xs[0] == x then 0 else 1 + IndexOf(xs[1..], x)
  }

  lemma PlainConcat<T>(a: seq<T>, b: seq<T>)
    ensures Plain(a + b) == Plain(a) + Plain(b)
  {
  }

  lemma PlainTail<T>(xs: seq<T>)
    requires |xs| > 0
    ensures Plain(xs)[0] == (xs[0], false) && Plain(xs)[1..] == Plain(xs[1..])
  {
  }

  /** Walking two runs of items is walking the first, then the second from
      where the first stopped. */
  lemma {:induction false} KeepConcat<T>(acc: seq<T>, a: seq<(T, bool)>, b: seq<(T, bool)>)
    ensures Keep(acc, a + b) == Keep(Keep(acc, a), b)
    decreases |a|
  {
    if |a| > 0 {
      assert (a + b)[0] == a[0];
      assert (a + b)[1..] == a[1..] + b;
      var acc' := if a[0].1 || a[0].0 !in acc then acc + [a[0].0] else acc;
      KeepConcat(acc', a[1..], b);
    } else {
      assert a + b == b;
    }
  }

  /** One more unflagged element is appended exactly when it is new. */
  lemma KeepOne<T>(acc: seq<T>, x: T)
    ensures Keep(acc, [(x, false)]) == if x in acc then acc else acc + [x]
  {
    assert [(x, false)][1..] == [];
  }

  /** One more element at the end of the input. */
  lemma DedupSnoc<T>(xs: seq<T>, x: T)
    ensures Dedup(xs + [x]) == if x in Dedup(xs) then Dedup(xs) else Dedup(xs) + [x]
  {
    PlainConcat(xs, [x]);
    assert Plain([x]) == [(x, false)];
    KeepConcat([], Plain(xs), Plain([x]));
    KeepOne(Dedup(xs), x);
  }

  lemma IndexOfPrefix<T>(xs: seq<T>, x: T, y: T)
    requires y in xs
    ensures y in xs + [x] && IndexOf(xs + [x], y) == IndexOf(xs, y)
  {
    var i := IndexOf(xs, y);
    assert (xs + [x])[i] == y;
    var k := IndexOf(xs + [x], y);
    assert xs[k] == (xs + [x])[k];
  }

  /** Dedup keeps exactly the elements of its input, each once, ordered by
      where they first occur. */
  lemma {:induction false} DedupLaw<T>(xs: seq<T>)
    ensures forall x :: x in Dedup(xs) <==> x in xs
    ensures forall i, j :: 0 <= i < j < |Dedup(xs)| ==>
              Dedup(xs)[i] in xs && Dedup(xs)[j] in xs
              && IndexOf(xs, Dedup(xs)[i]) < IndexOf(xs, Dedup(xs)[j])
    decreases |xs|
  {
    if |xs| == 0 {
      assert Dedup(xs) == [];
    } else {
      var init := xs[..|xs| - 1];
      var x := xs[|xs| - 1];
      assert xs == init + [x];
      DedupLaw(init);
      DedupSnoc(init, x);
      var d := Dedup(init);
      forall y | y in init
        ensures IndexOf(xs, y) == IndexOf(init, y)
      {
        IndexOfPrefix(init, x, y);
      }
      if x !in d {
        assert x !in init;
        assert IndexOf(xs, x) == |init| by {
          assert xs[|init|] == x;
        }
        var r := d + [x];
        forall i, j | 0 <= i < j < |r|
          ensures r[i] in xs && r[j] in xs && IndexOf(xs, r[i]) < IndexOf(xs, r[j])
        {
          assert r[i] == d[i] && d[i] in d;
          if j == |d| {
            assert IndexOf(xs, r[i]) == IndexOf(init, d[i]) < |init|;
          } else {
            assert r[j] == d[j];
          }
        }
      }
    }
  }
}

=== FILE: json.dfy ===
/** JSON values as the source receives them from `json.loads`: `None`, `bool`,
    `int`, `str`, `list` and insertion-ordered `dict`. Numbers are integers
    only. The functions below give Python's behaviour for the container
    protocol the codec applies to such values without checking their shape
    first (`key in value`, iteration). */
module JsonValues {
  import opened Prelude
  import opened OrderedMaps

  datatype Json =
    | JNull
    | JBool(b: bool)
    | JNum(n: int)
    | JStr(s: string)
    | JArr(items: seq<Json>)
    | JObj(members: OMap<Json>)

  /** Python's `needle in hay` on strings. */
  predicate IsSubstring(needle: string, hay: string)
    decreases |hay|
  {
    needle <= hay || (|hay| > 0 && IsSubstring(needle, hay[1..]))
  }

  /** Python's `key in value` for a string key: membership of the key in a
      dict, of the string among a list's items, substring test on a string.
      `None` stands for the `TypeError` raised for `None`, booleans and
      numbers. */
  function Contains(j: Json, key: string): (r: Option<bool>)
    ensures r.Some? <==> (j.JObj? || j.JArr? || j.JStr?)
    ensures j.JObj? ==> (r == Some(true) <==> HasKey(j.members, key))
  {
    match j
    case JObj(m) => Some(HasKey(m, key))
    case JArr(items) => Some(JStr(key) in items)
    case JStr(s) => Some(IsSubstring(key, s))
    case _ => None
  }

  /** Python's `for v in value`: a list yields its items, a dict its keys, a
      string its characters. `None` stands for the `TypeError` raised for
      `None`, booleans and numbers. */
  function Iterate(j: Json): (r: Option<seq<Json>>)
    ensures r.Some? <==> (j.JObj? || j.JArr? || j.JStr?)
    ensures j.JArr? ==> r == Some(j.items)
    ensures j.JObj? ==> r.Some? && |r.value| == |j.members|
    ensures j.JStr? ==> r.Some? && |r.value| == |j.s|
  {
    match j
    case JArr(items) => Some(items)
    case JObj(m) => Some(seq(|m|, i requires 0 <= i < |m| => JStr(m[i].0)))
    case JStr(s) => Some(seq(|s|, i requires 0 <= i < |s| => JStr([s[i]])))
    case _ => None
  }
}

=== FILE: naming.dfy ===
/** Wire names of fields and arguments: the snake_case to camelCase rule and
    the attachment of a field or argument to its container, which fixes its
    Python name and, when none was given, derives its GraphQL name. */
module Naming {
  import opened Prelude
  import opened OrderedMaps
  import opened Types
  import opened Text

  /** The parts after the first, each title-cased, glued together. */
  function TitleParts(ps: seq<string>): string
  {
    if |ps| == 0 then "" else Title(ps[0]) + TitleParts(ps[1..])
  }

  /** `BaseItem._to_graphql_name`: split on `_`, keep the first part as it is
      and title-case the others. */
  function ToGraphqlName(name: string): (r: string)
    ensures '_' !in r
    ensures |r| == |name| - Count(name, '_')
    ensures '_' !in name ==> r == name
  {
    var parts := Split(name, '_');
    ScanSplitsFirst(name);
    ScanShape(name, true, false);
    if '_' !in name then SplitNoSeparator(name, '_'); parts[0] + TitleParts(parts[1..])
    else parts[0] + TitleParts(parts[1..])
  }

  /** A character-by-character reading of the same rule: characters before
      the first `_` are copied; every `_` is dropped; after one, a letter is
      upper-cased when it does not follow a letter and lower-cased when it
      does, and other characters are copied. */
  function Scan(s: string, first: bool, afterLetter: bool): string
  {
    if |s| == 0 then ""
    else if s[0] == '_' then Scan(s[1..], false, false)
    else if first then [s[0]] + Scan(s[1..], true, false)
    else if IsAsciiLetter(s[0]) then
      [if afterLetter then ToLower(s[0]) else ToUpper(s[0])] + Scan(s[1..], false, true)
    else [s[0]] + Scan(s[1..], false, false)
  }

  /** The scan never emits `_` and drops exactly the underscores. */
  lemma {:induction false} ScanShape(s: string, first: bool, afterLetter: bool)
    ensures '_' !in Scan(s, first, afterLetter)
    ensures |Scan(s, first, afterLetter)| == |s| - Count(s, '_')
  {
    if |s| > 0 {
      if s[0] == '_' {
        ScanShape(s[1..], false, false);
      } else if first {
        ScanShape(s[1..], true, false);
      } else if IsAsciiLetter(s[0]) {
        ScanShape(s[1..], false, true);
      } else {
        ScanShape(s[1..], false, false);
      }
    }
  }

  lemma TitleFromCons(c: char, t: string, afterLetter: bool)
    ensures TitleFrom([c] + t, afterLetter)
         == (if IsAsciiLetter(c) then [if afterLetter then ToLower(c) else ToUpper(c)] + TitleFrom(t, true)
             else [c] + TitleFrom(t, false))
  {
    assert ([c] + t)[1..] == t;
  }

  /** After the first `_` the scan title-cases the part it is in and every
      later part. */
  lemma {:induction false} ScanSplitsRest(s: string, afterLetter: bool)
    ensures Scan(s, false, afterLetter)
         == TitleFrom(Split(s, '_')[0], afterLetter) + TitleParts(Split(s, '_')[1..])
  {
    if |s| > 0 {
      var q := Split(s[1..], '_');
      if s[0] == '_' {
        ScanSplitsRest(s[1..], false);
        assert Split(s, '_') == [""] + q;
        assert Split(s, '_')[1..] == q;
        assert TitleParts(q) == Title(q[0]) + TitleParts(q[1..]);
      } else {
        var after' := IsAsciiLetter(s[0]);
        ScanSplitsRest(s[1..], after');
        assert Split(s, '_') == [[s[0]] + q[0]] + q[1..];
        TitleFromCons(s[0], q[0], afterLetter);
      }
    }
  }

  /** The scan and the split-based definition agree from the start. */
  lemma {:induction false} ScanSplitsFirst(s: string)
    ensures Scan(s, true, false) == Split(s, '_')[0] + TitleParts(Split(s, '_')[1..])
  {
    if |s| > 0 {
      var q := Split(s[1..], '_');
      if s[0] == '_' {
        ScanSplitsRest(s[1..], false);
        assert Split(s, '_') == [""] + q;
        assert Split(s, '_')[1..] == q;
      } else {
        ScanSplitsFirst(s[1..]);
        assert Split(s, '_') == [[s[0]] + q[0]] + q[1..];
      }
    }
  }

  /** The wire-name rule agrees with the character scan on every name. */
  lemma GraphqlNameIsScan(name: string)
    ensures ToGraphqlName(name) == Scan(name, true, false)
  {
    ScanSplitsFirst(name);
  }

  /** Deriving a wire name from a wire name changes nothing. */
  lemma GraphqlNameIdempotent(name: string)
    ensures ToGraphqlName(ToGraphqlName(name)) == ToGraphqlName(name)
  {
  }

  /** `BaseItem._set_container`: the Python name is always replaced; the
      GraphQL name is derived from it only when none was set. */
  function AttachArg(a: Arg, name: string): (r: Arg)
    ensures r.name == name && r.typ == a.typ && r.default == a.default
    ensures a.graphqlName != "" ==> r.graphqlName == a.graphqlName
    ensures a.graphqlName == "" ==> r.graphqlName == ToGraphqlName(name)
  {
    a.(name := name, graphqlName := if a.graphqlName == "" then ToGraphqlName(name) else a.graphqlName)
  }

  /** `ArgDict._set_container`: every argument is attached under its own key. */
  function AttachArgs(args: OMap<Arg>): (r: OMap<Arg>)
    ensures |r| == |args|
    ensures forall i :: 0 <= i < |args| ==> r[i] == (args[i].0, AttachArg(args[i].1, args[i].0))
  {
    seq(|args|, i requires 0 <= i < |args| => (args[i].0, AttachArg(args[i].1, args[i].0)))
  }

  /** `Field._set_container`: the field as a `BaseItem`, then its arguments. */
  function AttachField(f: Field, name: string): (r: Field)
    ensures r.name == name && r.typ == f.typ
    ensures f.graphqlName != "" ==> r.graphqlName == f.graphqlName
    ensures f.graphqlName == "" ==> r.graphqlName == ToGraphqlName(name)
    ensures Keys(r.args) == Keys(f.args)
    ensures forall k :: Get(r.args, k).Some? <==> Get(f.args, k).Some?
    ensures forall k :: Get(f.args, k).Some? ==> Get(r.args, k) == Some(AttachArg(Get(f.args, k).value, k))
  {
    var args := AttachArgs(f.args);
    AttachKeepsKeys(f.args, args);
    AttachGet(f.args, args);
    Field(name, if f.graphqlName == "" then ToGraphqlName(name) else f.graphqlName, f.typ, args)
  }

  lemma AttachKeepsKeys(args: OMap<Arg>, r: OMap<Arg>)
    requires |r| == |args|
    requires forall i :: 0 <= i < |args| ==> r[i].0 == args[i].0
    ensures Keys(r) == Keys(args)
    ensures forall k :: Get(r, k).Some? <==> Get(args, k).Some?
  {
    assert Keys(r) == Keys(args);
    forall k ensures Get(r, k).Some? <==> Get(args, k).Some? {
      SameKeysHasKey(r, args, k);
    }
  }

  /** Each argument is found attached under its own key. */
  lemma AttachGet(args: OMap<Arg>, r: OMap<Arg>)
    requires |r| == |args| && Keys(r) == Keys(args)
    requires forall i :: 0 <= i < |args| ==> r[i] == (args[i].0, AttachArg(args[i].1, args[i].0))
    ensures forall k :: Get(args, k).Some? ==> Get(r, k) == Some(AttachArg(Get(args, k).value, k))
  {
    forall k | Get(args, k).Some?
      ensures Get(r, k) == Some(AttachArg(Get(args, k).value, k))
    {
      FindSameKeys(r, args, k);
    }
  }

  /** Attaching a second time renames the field but keeps the GraphQL name
      the first attachment fixed, unless that name came out empty (a name made
      of underscores only), in which case the second attachment derives it
      anew. */
  lemma FirstAttachmentWins(f: Field, first: string, second: string)
    ensures f.graphqlName != "" || Count(first, '_') < |first| ==>
      AttachField(AttachField(f, first), second).graphqlName == AttachField(f, first).graphqlName
    ensures f.graphqlName == "" && Count(first, '_') == |first| ==>
      AttachField(AttachField(f, first), second).graphqlName == ToGraphqlName(second)
    ensures AttachField(AttachField(f, first), second).name == second
  {
    var g := AttachField(f, first);
    if f.graphqlName == "" {
      assert |g.graphqlName| == |first| - Count(first, '_');
    }
  }
}

=== FILE: ordered_map.dfy ===
/** Python's `OrderedDict` (and the insertion-ordered `dict`) keyed by names,
    as a sequence of name/value pairs. Assigning an existing key replaces its
    value in place and keeps its position; assigning a new key appends it.
    `update` is a series of assignments. */
module OrderedMaps {
  import opened Prelude
  import opened FirstSeen

  type OMap<V> = seq<(string, V)>

  function Keys<V>(m: OMap<V>): (ks: seq<string>)
  {
    seq(|m|, i requires 0 <= i < |m| => m[i].0)
  }

  function Values<V>(m: OMap<V>): (vs: seq<V>)
  {
    seq(|m|, i requires 0 <= i < |m| => m[i].1)
  }

  predicate Unique(ks: seq<string>)
  {
    forall i, j :: 0 <= i < j < |ks| ==> ks[i] != ks[j]
  }

  predicate UniqueKeys<V>(m: OMap<V>)
  {
    forall i, j :: 0 <= i < j < |m| ==> m[i].0 != m[j].0
  }

  predicate HasKey<V>(m: OMap<V>, k: string)
  {
    exists i :: 0 <= i < |m| && m[i].0 == k
  }

  lemma HasKeyCons<V>(m: OMap<V>, k: string)
    requires |m| > 0
    ensures HasKey(m, k) <==> m[0].0 == k || HasKey(m[1..], k)
  {
    if HasKey(m, k) && m[0].0 != k {
      var i :| 0 <= i < |m| && m[i].0 == k;
      assert m[1..][i - 1].0 == k;
    }
    if HasKey(m[1..], k) {
      var i :| 0 <= i < |m[1..]| && m[1..][i].0 == k;
      assert m[i + 1].0 == k;
    }
  }

  lemma KeysInKeys<V>(m: OMap<V>, k: string)
    ensures HasKey(m, k) <==> k in Keys(m)
  {
    if k in Keys(m) {
      var i :| 0 <= i < |m| && Keys(m)[i] == k;
      assert m[i].0 == k;
    }
    if HasKey(m, k) {
      var i :| 0 <= i < |m| && m[i].0 == k;
      assert Keys(m)[i] == k;
    }
  }

  lemma {:induction false} FindAppend<V>(m: OMap<V>, k: string, v: V)
    requires !HasKey(m, k)
    ensures Find(m + [(k, v)], k) == Some(|m|)
  {
    if |m| > 0 {
      HasKeyCons(m, k);
      assert (m + [(k, v)])[1..] == m[1..] + [(k, v)];
      FindAppend(m[1..], k, v);
    }
  }

  /** Position of the first entry for k. */
  function Find<V>(m: OMap<V>, k: string): (r: Option<nat>)
    ensures r.Some? ==> r.value < |m| && m[r.value].0 == k
    ensures r.Some? ==> forall j :: 0 <= j < r.value ==> m[j].0 != k
    ensures r.None? <==> !HasKey(m, k)
  {
    if |m| == 0 then None
    else if m[0].0 == k then Some(0)
    else
      HasKeyCons(m, k);
      match Find(m[1..], k)
      case None => None
      case Some(i) => assert m[i + 1] == m[1..][i]; Some(i + 1)
  }

  function Get<V>(m: OMap<V>, k: string): (r: Option<V>)
    ensures r.Some? <==> HasKey(m, k)
  {
    match Find(m, k)
    case None => None
    case Some(i) => Some(m[i].1)
  }

  lemma GetUnique<V>(m: OMap<V>, i: nat)
    requires UniqueKeys(m) && i < |m|
    ensures Get(m, m[i].0) == Some(m[i].1)
  {
  }

  lemma {:induction false} FindPrefix<V>(m: OMap<V>, n: OMap<V>, k: string)
    requires HasKey(m, k)
    ensures Find(m + n, k) == Find(m, k)
  {
    HasKeyCons(m, k);
    if m[0].0 != k {
      assert (m + n)[1..] == m[1..] + n;
      HasKeyCons(m + n, k);
      FindPrefix(m[1..], n, k);
    }
  }

  lemma {:induction false} FindSameKeys<V>(m: OMap<V>, n: OMap<V>, k: string)
    requires Keys(m) == Keys(n)
    ensures Find(m, k) == Find(n, k)
  {
    assert |m| == |Keys(m)| == |n|;
    if |m| > 0 {
      assert m[0].0 == Keys(m)[0] == n[0].0;
      assert Keys(m[1..]) == Keys(m)[1..] == Keys(n)[1..] == Keys(n[1..]);
      FindSameKeys(m[1..], n[1..], k);
    }
  }

  lemma SameKeysHasKey<V, W>(m: OMap<V>, n: OMap<W>, k: string)
    requires Keys(m) == Keys(n)
    ensures HasKey(m, k) <==> HasKey(n, k)
  {
    KeysInKeys(m, k);
    KeysInKeys(n, k);
  }

  /** `m[k] = v`. */
  function Put<V>(m: OMap<V>, k: string, v: V): (r: OMap<V>)
    ensures Get(r, k) == Some(v)
    ensures forall k' :: k' != k ==> Get(r, k') == Get(m, k')
    ensures Keys(r) == if HasKey(m, k) then Keys(m) else Keys(m) + [k]
    ensures UniqueKeys(m) ==> UniqueKeys(r)
  {
    match Find(m, k)
    case None =>
      var r := m + [(k, v)];
      assert Keys(r) == Keys(m) + [k];
      assert forall k' :: k' != k ==> Get(r, k') == Get(m, k') by {
        forall k' | k' != k ensures Get(r, k') == Get(m, k') {
          if HasKey(m, k') {
            FindPrefix(m, [(k, v)], k');
          } else {
            assert !HasKey(r, k');
          }
        }
      }
      FindAppend(m, k, v);
      r
    case Some(i) =>
      var r := m[i := (k, v)];
      assert Keys(r) == Keys(m);
      assert forall k' :: Find(r, k') == Find(m, k') by {
        forall k' ensures Find(r, k') == Find(m, k') {
          FindSameKeys(r, m, k');
        }
      }
      r
  }

  /** `del m[k]`: `None` when k is absent (Python raises `KeyError`). */
  function Delete<V>(m: OMap<V>, k: string): (r: Option<OMap<V>>)
    ensures r.None? <==> !HasKey(m, k)
    ensures r.Some? && UniqueKeys(m) ==> !HasKey(r.value, k) && UniqueKeys(r.value)
    ensures r.Some? ==> forall k' :: k' != k ==> Get(r.value, k') == Get(m, k')
    ensures r.Some? ==> |r.value| + 1 == |m|
  {
    match Find(m, k)
    case None => None
    case Some(i) =>
      var r := m[..i] + m[i + 1..];
      assert forall k' :: k' != k ==> Get(r, k') == Get(m, k') by {
        forall k' | k' != k ensures Get(r, k') == Get(m, k') {
          DeleteAt(m, i, k');
        }
      }
      assert UniqueKeys(m) ==> forall j :: 0 <= j < |r| ==> r[j].0 != k by {
        if UniqueKeys(m) {
          forall j | 0 <= j < |r| ensures r[j].0 != k {
            if j >= i {
              assert r[j] == m[j + 1];
            }
          }
        }
      }
      Some(r)
  }

  lemma {:induction false} DeleteAt<V>(m: OMap<V>, i: nat, k: string)
    requires i < |m| && m[i].0 != k
    ensures Get(m[..i] + m[i + 1..], k) == Get(m, k)
  {
    var r := m[..i] + m[i + 1..];
    HasKeyCons(m, k);
    if i == 0 {
      assert r == m[1..];
    } else {
      HasKeyCons(r, k);
      if m[0].0 != k {
        assert r[1..] == m[1..][..i - 1] + m[1..][i..];
        DeleteAt(m[1..], i - 1, k);
      }
    }
  }

  /** The keys of n that m does not have, first occurrence first. */
  function NewKeys<V>(m: OMap<V>, n: OMap<V>): seq<string>
    decreases |n|
  {
    if |n| == 0 then []
    else if HasKey(m, n[0].0) then NewKeys(m, n[1..])
    else [n[0].0] + NewKeys(m + [n[0]], n[1..])
  }

  lemma {:induction false} NewKeysSameKeys<V>(m: OMap<V>, m2: OMap<V>, n: OMap<V>)
    requires Keys(m) == Keys(m2)
    ensures NewKeys(m, n) == NewKeys(m2, n)
    decreases |n|
  {
    if |n| > 0 {
      SameKeysHasKey(m, m2, n[0].0);
      if !HasKey(m, n[0].0) {
        KeysAppend(m, n[0]);
        KeysAppend(m2, n[0]);
        NewKeysSameKeys(m + [n[0]], m2 + [n[0]], n[1..]);
      } else {
        NewKeysSameKeys(m, m2, n[1..]);
      }
    }
  }

  lemma PutHasKey<V>(m: OMap<V>, k: string, v: V)
    ensures forall k' :: HasKey(Put(m, k, v), k') <==> k' == k || HasKey(m, k')
  {
    forall k' ensures HasKey(Put(m, k, v), k') <==> k' == k || HasKey(m, k') {
      assert Get(Put(m, k, v), k').Some? <==> HasKey(Put(m, k, v), k');
    }
  }

  lemma UniqueTail<V>(n: OMap<V>)
    requires |n| > 0 && UniqueKeys(n)
    ensures UniqueKeys(n[1..]) && !HasKey(n[1..], n[0].0)
  {
    forall j | 0 <= j < |n[1..]| ensures n[1..][j].0 != n[0].0 {
      assert n[1..][j] == n[j + 1];
    }
  }

  lemma HasKeyAll<V>(n: OMap<V>)
    requires |n| > 0
    ensures forall k :: HasKey(n, k) <==> k == n[0].0 || HasKey(n[1..], k)
  {
    forall k ensures HasKey(n, k) <==> k == n[0].0 || HasKey(n[1..], k) {
      HasKeyCons(n, k);
    }
  }

  lemma GetTail<V>(m: OMap<V>, k: string)
    requires |m| > 0 && m[0].0 != k
    ensures Get(m, k) == Get(m[1..], k)
  {
    HasKeyCons(m, k);
  }

  /** `m.update(n)`: every entry of n assigned in order. */
  function Update<V>(m: OMap<V>, n: OMap<V>): (r: OMap<V>)
    ensures Keys(r) == Keys(m) + NewKeys(m, n)
    ensures forall k :: HasKey(r, k) <==> HasKey(m, k) || HasKey(n, k)
    ensures forall k :: !HasKey(n, k) ==> Get(r, k) == Get(m, k)
    ensures UniqueKeys(n) ==> forall k :: HasKey(n, k) ==> Get(r, k) == Get(n, k)
    ensures UniqueKeys(m) ==> UniqueKeys(r)
    decreases |n|
  {
    if |n| == 0 then m
    else
      var m' := Put(m, n[0].0, n[0].1);
      var r := Update(m', n[1..]);
      UpdateStep(m, n, m', r);
      r
  }

  lemma UpdateStep<V>(m: OMap<V>, n: OMap<V>, m': OMap<V>, r: OMap<V>)
    requires |n| > 0 && m' == Put(m, n[0].0, n[0].1)
    requires Keys(r) == Keys(m') + NewKeys(m', n[1..])
    requires forall k :: HasKey(r, k) <==> HasKey(m', k) || HasKey(n[1..], k)
    requires forall k :: !HasKey(n[1..], k) ==> Get(r, k) == Get(m', k)
    requires UniqueKeys(n[1..]) ==> forall k :: HasKey(n[1..], k) ==> Get(r, k) == Get(n[1..], k)
    requires UniqueKeys(m') ==> UniqueKeys(r)
    ensures Keys(r) == Keys(m) + NewKeys(m, n)
    ensures forall k :: HasKey(r, k) <==> HasKey(m, k) || HasKey(n, k)
    ensures forall k :: !HasKey(n, k) ==> Get(r, k) == Get(m, k)
    ensures UniqueKeys(n) ==> forall k :: HasKey(n, k) ==> Get(r, k) == Get(n, k)
    ensures UniqueKeys(m) ==> UniqueKeys(r)
  {
    HasKeyAll(n);
    PutHasKey(m, n[0].0, n[0].1);
    UpdateKeysStep(m, n, m');
    if UniqueKeys(n) {
      UniqueTail(n);
      UpdateGetStep(m, n, m', r);
    }
  }

  lemma UpdateKeysStep<V>(m: OMap<V>, n: OMap<V>, m': OMap<V>)
    requires |n| > 0 && m' == Put(m, n[0].0, n[0].1)
    ensures Keys(m') + NewKeys(m', n[1..]) == Keys(m) + NewKeys(m, n)
  {
    if !HasKey(m, n[0].0) {
      UpdateKeysFresh(m, n, m');
    } else {
      assert NewKeys(m, n) == NewKeys(m, n[1..]);
      NewKeysSameKeys(m', m, n[1..]);
    }
  }

  lemma UpdateKeysFresh<V>(m: OMap<V>, n: OMap<V>, m': OMap<V>)
    requires |n| > 0 && !HasKey(m, n[0].0)
    requires Keys(m') == Keys(m) + [n[0].0]
    ensures Keys(m') + NewKeys(m', n[1..]) == Keys(m) + NewKeys(m, n)
  {
    var k := n[0].0;
    var rest := NewKeys(m + [n[0]], n[1..]);
    assert NewKeys(m, n) == [k] + rest;
    KeysAppend(m, n[0]);
    NewKeysSameKeys(m', m + [n[0]], n[1..]);
    SeqAssoc(Keys(m), [k], rest);
  }

  lemma SeqAssoc<T>(a: seq<T>, b: seq<T>, c: seq<T>)
    ensures (a + b) + c == a + (b + c)
  {
  }

  lemma KeysAppend<V>(m: OMap<V>, e: (string, V))
    ensures Keys(m + [e]) == Keys(m) + [e.0]
  {
  }

  lemma UpdateGetStep<V>(m: OMap<V>, n: OMap<V>, m': OMap<V>, r: OMap<V>)
    requires |n| > 0 && m' == Put(m, n[0].0, n[0].1)
    requires UniqueKeys(n[1..]) && !HasKey(n[1..], n[0].0)
    requires forall k :: !HasKey(n[1..], k) ==> Get(r, k) == Get(m', k)
    requires forall k :: HasKey(n[1..], k) ==> Get(r, k) == Get(n[1..], k)
    ensures forall k :: HasKey(n, k) ==> Get(r, k) == Get(n, k)
  {
    forall k | HasKey(n, k) ensures Get(r, k) == Get(n, k) {
      HasKeyCons(n, k);
      if k != n[0].0 {
        GetTail(n, k);
      } else {
        assert Get(r, k) == Get(m', k);
      }
    }
  }

  /** `m.update(n)` leaves the keys of m in place and appends those of n
      that are new, each at its first occurrence in n. */
  lemma {:induction false} UpdateOrder<V>(m: OMap<V>, n: OMap<V>)
    ensures Keys(Update(m, n)) == Keep(Keys(m), Plain(Keys(n)))
    decreases |n|
  {
    NewKeysKeep(m, n);
  }

  lemma {:induction false} NewKeysKeep<V>(m: OMap<V>, n: OMap<V>)
    ensures Keys(m) + NewKeys(m, n) == Keep(Keys(m), Plain(Keys(n)))
    decreases |n|
  {
    if |n| == 0 {
      assert Plain(Keys(n)) == [];
    } else {
      var k := n[0].0;
      PlainTail(Keys(n));
      assert Keys(n)[1..] == Keys(n[1..]);
      KeysInKeys(m, k);
      if HasKey(m, k) {
        NewKeysKeep(m, n[1..]);
      } else {
        KeysAppend(m, n[0]);
        NewKeysKeep(m + [n[0]], n[1..]);
        SeqAssoc(Keys(m), [k], NewKeys(m + [n[0]], n[1..]));
      }
    }
  }

  /** Assigning a fresh key and deleting it again gives back the map. */
  lemma PutDeleteFresh<V>(m: OMap<V>, k: string, v: V)
    requires !HasKey(m, k)
    ensures Delete(Put(m, k, v), k) == Some(m)
  {
    var r := Put(m, k, v);
    assert r == m + [(k, v)];
    FindAppend(m, k, v);
    assert r[..|m|] + r[|m| + 1..] == m;
  }

  /** Updating with entries whose keys are new and distinct appends them. */
  lemma {:induction false} UpdateFresh<V>(m: OMap<V>, n: OMap<V>)
    requires UniqueKeys(m + n)
    ensures Update(m, n) == m + n
    decreases |n|
  {
    if |n| > 0 {
      var k := n[0].0;
      assert (m + n)[|m|] == n[0];
      assert !HasKey(m, k) by {
        forall i | 0 <= i < |m| ensures m[i].0 != k {
          assert (m + n)[i] == m[i];
        }
      }
      assert Put(m, k, n[0].1) == m + [n[0]];
      assert (m + [n[0]]) + n[1..] == m + n;
      UpdateFresh(m + [n[0]], n[1..]);
    }
  }

  /** Assigning a key the value it already has changes nothing. */
  lemma PutPresent<V>(m: OMap<V>, k: string, v: V)
    requires Get(m, k) == Some(v)
    ensures Put(m, k, v) == m
  {
    var i := Find(m, k).value;
    assert m[i] == (k, v);
  }
}

=== FILE: prelude.dfy ===
/** Failure-carrying datatypes shared by every module of the model.

- Option<T>: a value or nothing (Python's `None` where a lookup misses).
- Result<T, E>: a value or the exception the source raises instead.
- Outcome<S, E>: the state an operation leaves behind together with the
  exception it raised, if any. The source sometimes raises only after it has
  already mutated an object (a registry, an instance); `Outcome` keeps both.
 */
module Prelude {

  datatype Option<+T> = None | Some(value: T)

  datatype Result<+T, +E> = Ok(value: T) | Err(error: E) {

    predicate IsFailure() {
      Err?
    }

    function PropagateFailure<U>(): Result<U, E>
      requires Err?
    {
      Err(error)
    }

    function Extract(): T
      requires Ok?
    {
      value
    }
  }

  datatype Outcome<+S, +E> = Outcome(state: S, raised: Option<E>)
}

=== FILE: registry.dfy ===
/** The schema: a registry of declared types by name and by kind, plus the
    per-schema cache of wrapper types. The default schema of the source
    (`global_schema`) is `Default()` here and is passed explicitly. */
module Registry {
  import opened Prelude
  import opened OrderedMaps
  import opened Types

  /** `__all` (every registered type by name, in registration order),
      `__kinds` (one table per kind) and `__cache__` (wrappers by name).
      `id` stands for the identity of the schema object. */
  datatype Schema = Schema(id: nat, all: OMap<GType>, kinds: map<Kind, OMap<GType>>,
                           cache: map<string, GType>)

  /** What `schema.<key>` yields: a kind table or a type. */
  datatype Attribute = TableAttr(table: OMap<GType>) | TypeAttr(t: GType)

  /** `schema.<kind>`; an absent table reads as empty. */
  function KindTable(s: Schema, k: Kind): OMap<GType>
  {
    if k in s.kinds then s.kinds[k] else []
  }

  /** Every type is filed under its own name in `all` and, under the same
      name, in the table of its own kind, and nothing else is in the tables. */
  ghost predicate Consistent(s: Schema)
  {
    && UniqueKeys(s.all)
    && (forall k :: k in s.kinds ==> UniqueKeys(s.kinds[k]))
    && (forall n :: Get(s.all, n).Some? ==>
          n == Name(Get(s.all, n).value)
          && Get(KindTable(s, KindOf(Get(s.all, n).value)), n) == Get(s.all, n))
    && (forall k, n {:trigger Get(KindTable(s, k), n)} :: Get(KindTable(s, k), n).Some? ==>
          KindOf(Get(KindTable(s, k), n).value) == k
          && Get(s.all, n) == Get(KindTable(s, k), n))
  }

  function Empty(id: nat): Schema
  {
    Schema(id, [], map[], map[])
  }

  /** The built-in scalars in declaration order. */
  function Builtins(): seq<GType>
  {
    [Builtin(PyInt), Builtin(PyFloat), Builtin(PyStr), Builtin(PyBool), Builtin(PyId)]
  }

  /** The default schema once the built-in scalars have registered
      themselves. The abstract classes register nothing. */
  function Default(): (s: Schema)
    ensures Consistent(s)
    ensures forall t :: t in Builtins() ==> Lookup(s, Name(t)) == Ok(t)
  {
    var bs := [("Int", Builtin(PyInt)), ("Float", Builtin(PyFloat)), ("String", Builtin(PyStr)),
               ("Boolean", Builtin(PyBool)), ("ID", Builtin(PyId))];
    var s := Schema(0, bs, map[ScalarKind := bs], map[]);
    DefaultConsistent(s, bs);
    s
  }

  lemma DefaultConsistent(s: Schema, bs: OMap<GType>)
    requires bs == [("Int", Builtin(PyInt)), ("Float", Builtin(PyFloat)), ("String", Builtin(PyStr)),
                    ("Boolean", Builtin(PyBool)), ("ID", Builtin(PyId))]
    requires s == Schema(0, bs, map[ScalarKind := bs], map[])
    ensures Consistent(s)
    ensures forall t :: t in Builtins() ==> Lookup(s, Name(t)) == Ok(t)
  {
    BuiltinsTable(bs);
    ScalarTableConsistent(0, bs);
    forall t | t in Builtins() ensures Lookup(s, Name(t)) == Ok(t) {
      var i :| 0 <= i < |Builtins()| && Builtins()[i] == t;
      assert bs[i] == (Name(t), t);
    }
  }

  /** The built-in scalars' table: each filed under its own name, no name
      twice. */
  lemma BuiltinsTable(bs: OMap<GType>)
    requires bs == [("Int", Builtin(PyInt)), ("Float", Builtin(PyFloat)), ("String", Builtin(PyStr)),
                    ("Boolean", Builtin(PyBool)), ("ID", Builtin(PyId))]
    ensures UniqueKeys(bs) && |bs| == |Builtins()|
    ensures forall i :: 0 <= i < |bs| ==> bs[i] == (Name(Builtins()[i]), Builtins()[i])
    ensures forall i :: 0 <= i < |bs| ==> KindOf(bs[i].1) == ScalarKind
  {
  }

  /** A schema whose one table is the scalar table, holding scalars under
      their own names, is consistent. */
  lemma ScalarTableConsistent(id: nat, bs: OMap<GType>)
    requires UniqueKeys(bs)
    requires forall i :: 0 <= i < |bs| ==> bs[i].0 == Name(bs[i].1) && KindOf(bs[i].1) == ScalarKind
    ensures Consistent(Schema(id, bs, map[ScalarKind := bs], map[]))
    ensures forall i :: 0 <= i < |bs| ==> Get(bs, bs[i].0) == Some(bs[i].1)
  {
    forall i | 0 <= i < |bs| ensures Get(bs, bs[i].0) == Some(bs[i].1) {
      GetUnique(bs, i);
    }
    forall n | Get(bs, n).Some?
      ensures n == Name(Get(bs, n).value) && KindOf(Get(bs, n).value) == ScalarKind
    {
      var i := Find(bs, n).value;
      assert Get(bs, n) == Some(bs[i].1);
    }
  }

  /** `Schema(base_schema)`: a snapshot of the base's name and kind tables
      with an empty wrapper cache. Later changes to either schema do not
      reach the other. */
  function New(id: nat, base: Schema): (s: Schema)
    ensures s.id == id && s.cache == map[]
    ensures forall n :: Lookup(s, n) == Lookup(base, n)
    ensures forall k :: KindTable(s, k) == KindTable(base, k)
    ensures Consistent(base) ==> Consistent(s)
  {
    Schema(id, base.all, base.kinds, map[])
  }

  /** `name in schema`. */
  function Contains(s: Schema, name: string): (r: bool)
    ensures r <==> Lookup(s, name).Ok?
  {
    HasKey(s.all, name)
  }

  /** `schema[name]`; `KeyError` when absent. */
  function Lookup(s: Schema, name: string): (r: Result<GType, Error>)
    ensures r.Ok? <==> HasKey(s.all, name)
    ensures r.Err? ==> r.error == NotRegistered(name)
  {
    match Get(s.all, name)
    case Some(t) => Ok(t)
    case None => Err(NotRegistered(name))
  }

  /** `iter(schema)`: the registered types in registration order. */
  function Registered(s: Schema): (ts: seq<GType>)
    ensures |ts| == |s.all|
    ensures forall i :: 0 <= i < |s.all| ==> ts[i] == s.all[i].1
  {
    Values(s.all)
  }

  /** The kind whose `__kind__` text is `key`, if any. */
  function ParseKind(key: string): (r: Option<Kind>)
    ensures r.Some? ==> KindText(r.value) == key
  {
    if key == "scalar" then Some(ScalarKind)
    else if key == "enum" then Some(EnumKind)
    else if key == "union" then Some(UnionKind)
    else if key == "type" then Some(TypeKind)
    else if key == "interface" then Some(InterfaceKind)
    else if key == "input" then Some(InputKind)
    else None
  }

  lemma ParseKindText(k: Kind)
    ensures ParseKind(KindText(k)) == Some(k)
  {
  }

  /** `schema.<key>`: a kind table of that name wins over a type of that
      name; otherwise `AttributeError`. */
  function Attr(s: Schema, key: string): (r: Result<Attribute, Error>)
    ensures (ParseKind(key).Some? && ParseKind(key).value in s.kinds)
            ==> r == Ok(TableAttr(s.kinds[ParseKind(key).value]))
    ensures !(ParseKind(key).Some? && ParseKind(key).value in s.kinds)
            ==> (r.Ok? <==> Lookup(s, key).Ok?)
    ensures !(ParseKind(key).Some? && ParseKind(key).value in s.kinds) && r.Ok?
            ==> r.value == TypeAttr(Lookup(s, key).value)
  {
    var k := ParseKind(key);
    if k.Some? && k.value in s.kinds then Ok(TableAttr(s.kinds[k.value]))
    else
      match Get(s.all, key)
      case Some(t) => Ok(TypeAttr(t))
      case None => Err(NoSuchAttribute("Schema", key))
  }

  /** `schema += t`: the name is bound to t unless it is already bound to
      another type (`ValueError`, nothing changes); t is then filed in the
      table of its kind, replacing whatever that table held under the name. */
  function Add(s: Schema, t: GType): (r: Result<Schema, Error>)
    ensures r.Err? <==> (Lookup(s, Name(t)).Ok? && Lookup(s, Name(t)).value != t)
    ensures r.Err? ==> r.error == AlreadyRegistered(Name(t))
    ensures r.Ok? ==> Lookup(r.value, Name(t)) == Ok(t)
    ensures r.Ok? ==> forall n :: n != Name(t) ==> Lookup(r.value, n) == Lookup(s, n)
    ensures r.Ok? ==> Get(KindTable(r.value, KindOf(t)), Name(t)) == Some(t)
    ensures r.Ok? ==> forall k, n :: (k != KindOf(t) || n != Name(t)) ==>
                        Get(KindTable(r.value, k), n) == Get(KindTable(s, k), n)
    ensures r.Ok? ==> r.value.id == s.id && r.value.cache == s.cache
  {
    AddUnder(s, t, KindOf(t))
  }

  /** `schema += t` with t filed under the kind table `k`. The source reads
      `k` from `t.__kind__` at the time of the call, which a container
      declaration changes after registering itself. */
  function AddUnder(s: Schema, t: GType, k: Kind): (r: Result<Schema, Error>)
    ensures r.Err? <==> (Lookup(s, Name(t)).Ok? && Lookup(s, Name(t)).value != t)
    ensures r.Err? ==> r.error == AlreadyRegistered(Name(t))
    ensures r.Ok? ==> Lookup(r.value, Name(t)) == Ok(t)
    ensures r.Ok? ==> forall n :: n != Name(t) ==> Lookup(r.value, n) == Lookup(s, n)
    ensures r.Ok? ==> Get(KindTable(r.value, k), Name(t)) == Some(t)
    ensures r.Ok? ==> forall k', n :: (k' != k || n != Name(t)) ==>
                        Get(KindTable(r.value, k'), n) == Get(KindTable(s, k'), n)
    ensures r.Ok? ==> r.value.id == s.id && r.value.cache == s.cache
  {
    var name := Name(t);
    match Get(s.all, name)
    case Some(u) => if u != t then Err(AlreadyRegistered(name)) else Ok(File(s, t, k))
    case None => Ok(File(Enter(s, t), t, k))
  }

  /** Binds t's name to t in the name table; nothing else changes. */
  function Enter(s: Schema, t: GType): (r: Schema)
    ensures r.kinds == s.kinds && r.id == s.id && r.cache == s.cache
    ensures Lookup(r, Name(t)) == Ok(t)
    ensures forall n :: n != Name(t) ==> Lookup(r, n) == Lookup(s, n)
    ensures r.all == Put(s.all, Name(t), t)
  {
    s.(all := Put(s.all, Name(t), t))
  }

  /** Files t under its name in the table `k`, creating the table when
      needed; the rest of the schema is left alone. */
  function File(s: Schema, t: GType, k: Kind): (r: Schema)
    ensures r.all == s.all && r.id == s.id && r.cache == s.cache
    ensures Get(KindTable(r, k), Name(t)) == Some(t)
    ensures forall k', n :: (k' != k || n != Name(t)) ==>
              Get(KindTable(r, k'), n) == Get(KindTable(s, k'), n)
  {
    var r := s.(kinds := s.kinds[k := Put(KindTable(s, k), Name(t), t)]);
    assert forall k', n :: (k' != k || n != Name(t)) ==> Get(KindTable(r, k'), n) == Get(KindTable(s, k'), n);
    r
  }

  /** `schema -= t`: deletes the name from `all`, then from the table of t's
      kind. Either deletion may raise `KeyError`; when the second one does,
      the first has already happened. The name is all that is compared: a
      different type of the same name is removed just the same. */
  function Remove(s: Schema, t: GType): (r: Outcome<Schema, Error>)
    ensures !Contains(s, Name(t)) ==> r == Outcome(s, Some(NotRegistered(Name(t))))
    ensures r.raised.None? <==> Contains(s, Name(t)) && HasKey(KindTable(s, KindOf(t)), Name(t))
    ensures Contains(s, Name(t)) ==>
              forall n :: n != Name(t) ==> Lookup(r.state, n) == Lookup(s, n)
    ensures Contains(s, Name(t)) && UniqueKeys(s.all) ==> !Contains(r.state, Name(t))
    ensures r.raised.None? && UniqueKeys(KindTable(s, KindOf(t))) ==> !HasKey(KindTable(r.state, KindOf(t)), Name(t))
    ensures r.raised.Some? ==> r.state.kinds == s.kinds
    ensures forall k, n :: (k != KindOf(t) || n != Name(t)) ==>
              Get(KindTable(r.state, k), n) == Get(KindTable(s, k), n)
    ensures r.state.id == s.id && r.state.cache == s.cache
  {
    var name := Name(t);
    var k := KindOf(t);
    match Delete(s.all, name)
    case None => Outcome(s, Some(NotRegistered(name)))
    case Some(all) =>
      var s1 := s.(all := all);
      if k !in s.kinds then Outcome(s1, Some(NoSuchKind(k)))
      else
        match Delete(s.kinds[k], name)
        case None => Outcome(s1, Some(NotRegistered(name)))
        case Some(table) =>
          var r := s1.(kinds := s.kinds[k := table]);
          assert forall k', n :: (k' != k || n != name) ==> Get(KindTable(r, k'), n) == Get(KindTable(s, k'), n);
          Outcome(r, None)
  }

  /** Registration keeps the schema consistent. */
  lemma AddConsistent(s: Schema, t: GType)
    requires Consistent(s) && Add(s, t).Ok?
    ensures Consistent(Add(s, t).value)
  {
    var r := Add(s, t).value;
    var name := Name(t);
    var k := KindOf(t);
    if Contains(s, name) {
      AddPresent(s, t);
    } else {
      forall k' | k' in r.kinds ensures UniqueKeys(r.kinds[k']) {
        if k' != k {
          assert r.kinds[k'] == s.kinds[k'];
        }
      }
      forall n | Get(r.all, n).Some?
        ensures n == Name(Get(r.all, n).value)
        ensures Get(KindTable(r, KindOf(Get(r.all, n).value)), n) == Get(r.all, n)
      {
        if n != name {
          assert Get(r.all, n) == Get(s.all, n);
        }
      }
      forall k' ensures !HasKey(KindTable(s, k'), name) {
        assert Get(KindTable(s, k'), name).Some? ==> Get(s.all, name).Some?;
      }
      forall k', n | Get(KindTable(r, k'), n).Some?
        ensures KindOf(Get(KindTable(r, k'), n).value) == k'
        ensures Get(r.all, n) == Get(KindTable(r, k'), n)
      {
        if k' == k && n == name {
          assert Get(KindTable(r, k'), n) == Some(t);
        } else {
          var v := Get(KindTable(s, k'), n);
          assert Get(KindTable(r, k'), n) == v;
          assert v.Some?;
          assert KindOf(v.value) == k';
          assert Get(s.all, n) == v;
          assert n != name;
          assert Get(r.all, n) == Get(s.all, n);
        }
      }
    }
  }

  /** Registering a type that is already registered changes nothing. */
  lemma AddPresent(s: Schema, t: GType)
    requires Consistent(s) && Lookup(s, Name(t)) == Ok(t)
    ensures Add(s, t) == Ok(s)
  {
    var k := KindOf(t);
    assert Get(KindTable(s, k), Name(t)) == Some(t);
    PutPresent(KindTable(s, k), Name(t), t);
    assert k in s.kinds;
    assert s.kinds[k := s.kinds[k]] == s.kinds;
  }

  /** Registration is idempotent. */
  lemma AddIdempotent(s: Schema, t: GType)
    requires Consistent(s) && Add(s, t).Ok?
    ensures Add(Add(s, t).value, t) == Add(s, t)
  {
    AddConsistent(s, t);
    AddPresent(Add(s, t).value, t);
  }

  /** Removing a type that is registered under its own name succeeds and
      keeps the schema consistent. */
  lemma RemoveConsistent(s: Schema, t: GType)
    requires Consistent(s) && Lookup(s, Name(t)) == Ok(t)
    ensures Remove(s, t).raised.None?
    ensures Consistent(Remove(s, t).state)
    ensures !Contains(Remove(s, t).state, Name(t))
  {
    var name := Name(t);
    var k := KindOf(t);
    assert Get(KindTable(s, k), name) == Some(t);
    var r := Remove(s, t).state;
    forall k' | k' in r.kinds ensures UniqueKeys(r.kinds[k']) {
      if k' != k {
        assert r.kinds[k'] == s.kinds[k'];
      }
    }
    forall n | Get(r.all, n).Some?
      ensures n == Name(Get(r.all, n).value)
      ensures Get(KindTable(r, KindOf(Get(r.all, n).value)), n) == Get(r.all, n)
    {
      assert n != name;
      assert Get(r.all, n) == Get(s.all, n);
    }
    assert k in s.kinds && UniqueKeys(s.kinds[k]);
    assert !HasKey(KindTable(r, k), name);
    forall k', n | Get(KindTable(r, k'), n).Some?
      ensures KindOf(Get(KindTable(r, k'), n).value) == k'
      ensures Get(r.all, n) == Get(KindTable(r, k'), n)
    {
      assert k' != k || n != name;
      assert Get(KindTable(r, k'), n) == Get(KindTable(s, k'), n);
    }
  }

  /** Registering a fresh type and removing it again gives back the same
      name table and the same kind tables (a kind table created for it stays
      behind, empty). */
  lemma AddThenRemove(s: Schema, t: GType)
    requires Consistent(s) && !Contains(s, Name(t))
    ensures Add(s, t).Ok?
    ensures Remove(Add(s, t).value, t).raised.None?
    ensures Remove(Add(s, t).value, t).state.all == s.all
    ensures forall k :: KindTable(Remove(Add(s, t).value, t).state, k) == KindTable(s, k)
  {
    var name := Name(t);
    var k := KindOf(t);
    assert Get(KindTable(s, k), name).Some? ==> Get(s.all, name).Some?;
    var a := Add(s, t).value;
    assert a == s.(all := Put(s.all, name, t), kinds := s.kinds[k := Put(KindTable(s, k), name, t)]);
    RemoveFresh(s, t, a);
  }

  /** A fresh type filed under a kind other than its own cannot be removed
      again: `schema -= t` deletes the name, then finds no entry in the
      table of t's kind and raises. */
  lemma MisfiledNotRemovable(s: Schema, t: GType, k: Kind)
    requires Consistent(s) && !Contains(s, Name(t)) && k != KindOf(t)
    ensures AddUnder(s, t, k).Ok?
    ensures var a := AddUnder(s, t, k).value;
            && Get(KindTable(a, k), Name(t)) == Some(t)
            && Get(KindTable(a, KindOf(t)), Name(t)).None?
            && Remove(a, t).raised.Some?
            && !Contains(Remove(a, t).state, Name(t))
  {
    var name := Name(t);
    assert Get(KindTable(s, KindOf(t)), name).None?;
    var a := AddUnder(s, t, k).value;
    assert a.all == Put(s.all, name, t);
  }

  lemma RemoveFresh(s: Schema, t: GType, a: Schema)
    requires !HasKey(s.all, Name(t)) && !HasKey(KindTable(s, KindOf(t)), Name(t))
    requires a == s.(all := Put(s.all, Name(t), t),
                     kinds := s.kinds[KindOf(t) := Put(KindTable(s, KindOf(t)), Name(t), t)])
    ensures Remove(a, t).raised.None?
    ensures Remove(a, t).state.all == s.all
    ensures forall k :: KindTable(Remove(a, t).state, k) == KindTable(s, k)
  {
    var name := Name(t);
    var k := KindOf(t);
    PutDeleteFresh(s.all, name, t);
    PutDeleteFresh(KindTable(s, k), name, t);
    var r := Remove(a, t);
    assert r == Outcome(s.(kinds := a.kinds[k := KindTable(s, k)]), None);
  }
}

=== FILE: render.dfy ===
/** GraphQL text: the type-system definitions printed for types, fields,
    arguments and schemas (`__to_graphql__`), and the literals written for
    argument and input values (`__to_graphql_input__`). Every renderer
    takes the indent level and the indent unit; the text of a scalar
    literal is whatever `json.dumps` makes of it, passed in as a function. */
module Render {
  import opened Prelude
  import opened OrderedMaps
  import opened JsonValues
  import opened Types
  import opened Text
  import opened Registry
  import Builder

  /** `json.dumps` on a JSON value. */
  type Dumps = Json -> string

  /** What a `__to_graphql_input__` returns: text, or `None` (what an enum
      or the list wrapper returns for null). */
  datatype Piece = Str(s: string) | PyNone

  /** `'%s' % p`. */
  function Show(p: Piece): (r: string)
    ensures p.Str? ==> r == p.s
    ensures p.PyNone? ==> r == "None"
  {
    match p
    case Str(s) => s
    case PyNone => "None"
  }

  /** `indent_string * indent`. */
  function Prefix(unit: string, indent: nat): string
  {
    Repeat(unit, indent)
  }

  predicate OneLine(s: string)
  {
    '\n' !in s
  }

  lemma {:induction false} PrefixOneLine(unit: string, indent: nat)
    requires OneLine(unit)
    ensures OneLine(Prefix(unit, indent))
  {
    if indent > 0 {
      PrefixOneLine(unit, indent - 1);
      assert Prefix(unit, indent) == unit + Prefix(unit, indent - 1);
    }
  }

  lemma GlueOneLine(a: string, b: string)
    requires OneLine(a) && OneLine(b)
    ensures OneLine(a + b)
  {
  }

  /** Each line with the prefix in front. */
  function Prefixed(p: string, ls: seq<string>): (r: seq<string>)
    ensures |r| == |ls|
  {
    seq(|ls|, i requires 0 <= i < |ls| => p + ls[i])
  }

  /** `''.join(prefix + l + '\n' for l in ls)`. */
  function Block(p: string, ls: seq<string>): string
  {
    if |ls| == 0 then "" else p + ls[0] + "\n" + Block(p, ls[1..])
  }

  /** A block of prefixed lines, then more text, splits into the prefixed
      lines followed by the lines of that text. */
  lemma {:induction false} BlockLines(p: string, ls: seq<string>, last: string)
    requires OneLine(p) && forall i :: 0 <= i < |ls| ==> OneLine(ls[i])
    ensures Split(Block(p, ls) + last, '\n') == Prefixed(p, ls) + Split(last, '\n')
  {
    if |ls| > 0 {
      BlockLines(p, ls[1..], last);
      GlueOneLine(p, ls[0]);
      assert Block(p, ls) + last == (p + ls[0]) + ['\n'] + (Block(p, ls[1..]) + last);
      SplitPeel(p + ls[0], '\n', Block(p, ls[1..]) + last);
      assert Prefixed(p, ls) == [p + ls[0]] + Prefixed(p, ls[1..]);
    } else {
      assert Block(p, ls) + last == last;
      assert Prefixed(p, ls) + Split(last, '\n') == Split(last, '\n');
    }
  }

  /** Text joined by newlines splits back into its lines. */
  lemma LinesOf(xs: seq<string>)
    requires |xs| >= 1 && forall i :: 0 <= i < |xs| ==> OneLine(xs[i])
    ensures Split(Join(xs, "\n"), '\n') == xs
  {
    SplitJoin(xs, '\n');
  }

  /** A first line, middle lines and a last line, joined by newlines,
      split back into those lines. */
  lemma Framed(head: string, mid: seq<string>, last: string)
    requires OneLine(head) && OneLine(last) && forall i :: 0 <= i < |mid| ==> OneLine(mid[i])
    ensures Split(Join([head] + mid + [last], "\n"), '\n') == [head] + mid + [last]
  {
    var xs := [head] + mid + [last];
    forall i | 0 <= i < |xs| ensures OneLine(xs[i]) {
      if 0 < i < |xs| - 1 {
        assert xs[i] == mid[i - 1];
      }
    }
    LinesOf(xs);
  }

  lemma PrefixedOneLine(p: string, ls: seq<string>)
    requires OneLine(p) && forall i :: 0 <= i < |ls| ==> OneLine(ls[i])
    ensures forall i :: 0 <= i < |ls| ==> OneLine(Prefixed(p, ls)[i])
  {
    forall i | 0 <= i < |ls| ensures OneLine(Prefixed(p, ls)[i]) {
      GlueOneLine(p, ls[i]);
    }
  }

  /** Renders every element in order, stopping at the first failure: the
      shape of a generator consumed by `join` or a loop that appends. */
  function MapAll<A>(f: A -> Result<string, Error>, xs: seq<A>): (r: Result<seq<string>, Error>)
    ensures r.Ok? <==> forall i :: 0 <= i < |xs| ==> f(xs[i]).Ok?
    ensures r.Ok? ==> |r.value| == |xs| && forall i :: 0 <= i < |xs| ==> r.value[i] == f(xs[i]).value
    ensures r.Err? ==> exists i :: 0 <= i < |xs| && f(xs[i]) == Err(r.error)
                                  && forall j :: 0 <= j < i ==> f(xs[j]).Ok?
  {
    if |xs| == 0 then Ok([])
    else
      match f(xs[0])
      case Err(e) => Err(e)
      case Ok(y) =>
        assert forall i :: 1 <= i < |xs| ==> xs[1..][i - 1] == xs[i];
        match MapAll(f, xs[1..])
        case Err(e) => Err(e)
        case Ok(ys) => Ok([y] + ys)
  }

  /** `Variable.__to_graphql__` and `Variable.__to_graphql_input__`: the
      variable name behind a dollar sign. */
  function Variable(name: string): (r: string)
    ensures |r| == |name| + 1 && r[0] == '$' && r[1..] == name
  {
    "$" + name
  }

  /** An enum's literal is the value itself: a string stays as it is and
      null stays `None`. */
  function EnumInput(x: Json): (r: Result<Piece, Error>)
    ensures x.JStr? ==> r == Ok(Str(x.s))
    ensures x == JNull ==> r == Ok(PyNone)
    ensures r.Ok? <==> x.JStr? || x == JNull
  {
    match x
    case JStr(s) => Ok(Str(s))
    case JNull => Ok(PyNone)
    case _ => Err(NotText)
  }

  /** `t.__to_graphql_input__(x)`. A scalar writes the JSON text of the
      value; an enum writes the value bare; the non-null wrapper defers to
      its base; the list wrapper keeps null as `None` and otherwise writes
      `[a, b]`; an input object class writes `{name: v, …}` with the wire
      name of each key's field, in the value's own key order; other classes
      have no literal form. */
  function InputText(dumps: Dumps, t: GType, x: Json): (r: Result<Piece, Error>)
    decreases t, 1
  {
    match t
    case ScalarT(_, _, _, _) => Ok(Str(dumps(x)))
    case EnumT(_, _, _, _) => EnumInput(x)
    case UnionT(_, _, name, _) => Err(NoConversion(name))
    case NonNullT(b) => InputText(dumps, b, x)
    case ListOfT(b) =>
      if x == JNull then Ok(PyNone)
      else
        (match Iterate(x)
         case None => Err(NotIterable(x))
         case Some(xs) =>
           var ps :- InputPieces(dumps, b, xs);
           if AllText(ps) then Ok(Str("[" + Join(Texts(ps), ", ") + "]")) else Err(NotText))
    case RootT(k) =>
      if k == ScalarKind then Ok(Str(dumps(x)))
      else if k == EnumKind then EnumInput(x)
      else if k == InputKind then ObjectInput(dumps, t, x)
      else Err(NoConversion(Name(t)))
    case ContainerT(_, _, name, k, _, _) =>
      if k == InputKind then ObjectInput(dumps, t, x) else Err(NoConversion(name))
  }

  /** `Input.__to_graphql_input__`: `{` and `}` around the entries. */
  function ObjectInput(dumps: Dumps, t: GType, x: Json): (r: Result<Piece, Error>)
    requires t.ContainerT? || t.RootT?
    ensures !x.JObj? ==> r == Err(NotMapping(x))
    decreases t, 0, 2
  {
    if !x.JObj? then Err(NotMapping(x))
    else
      var es :- ObjectEntries(dumps, t, x.members, 0);
      Ok(Str("{" + Join(es, ", ") + "}"))
  }

  /** The entries of an input object literal from the i-th key on:
      `wire: literal`, or `KeyError` for a key that is no field. */
  function ObjectEntries(dumps: Dumps, t: GType, m: OMap<Json>, i: nat): (r: Result<seq<string>, Error>)
    requires (t.ContainerT? || t.RootT?) && i <= |m|
    ensures r.Ok? ==> |r.value| == |m| - i
    decreases t, 0, 1, |m| - i
  {
    if i == |m| then Ok([])
    else
      match Find(FieldsOf(t), m[i].0)
      case None => Err(NoSuchField(Name(t), m[i].0))
      case Some(idx) =>
        assert t.fields[idx] in t.fields;
        var f := t.fields[idx].1;
        var p :- InputText(dumps, f.typ, m[i].1);
        var rest :- ObjectEntries(dumps, t, m, i + 1);
        Ok([f.graphqlName + ": " + Show(p)] + rest)
  }

  /** The literals of the items of a list, all computed before any is
      joined. */
  function InputPieces(dumps: Dumps, b: GType, xs: seq<Json>): (r: Result<seq<Piece>, Error>)
    ensures r.Ok? ==> |r.value| == |xs|
    decreases b, 2, |xs|
  {
    if |xs| == 0 then Ok([])
    else
      var p :- InputText(dumps, b, xs[0]);
      var ps :- InputPieces(dumps, b, xs[1..]);
      Ok([p] + ps)
  }

  /** No item came out as `None`, which `join` would refuse. */
  predicate AllText(ps: seq<Piece>)
  {
    forall i :: 0 <= i < |ps| ==> ps[i].Str?
  }

  function Texts(ps: seq<Piece>): (r: seq<string>)
    ensures |r| == |ps|
  {
    seq(|ps|, i requires 0 <= i < |ps| => Show(ps[i]))
  }

  /** `Arg.__to_graphql__`: `wire: Type`, followed by ` = ` and the literal
      of the default when there is one. */
  function ArgText(dumps: Dumps, a: Arg): (r: Result<string, Error>)
    ensures a.default == JNull ==> r == Ok(a.graphqlName + ": " + Name(a.typ))
    ensures a.default != JNull ==>
              (r.Ok? <==> InputText(dumps, a.typ, a.default).Ok? && InputText(dumps, a.typ, a.default).value.Str?)
  {
    if a.default == JNull then Ok(a.graphqlName + ": " + Name(a.typ))
    else
      var p :- InputText(dumps, a.typ, a.default);
      if p.PyNone? then Err(NotText)
      else Ok(a.graphqlName + ": " + Name(a.typ) + " = " + p.s)
  }

  /** `Arg.__to_graphql_input__`: `wire: literal`. */
  function ArgInput(dumps: Dumps, a: Arg, x: Json): (r: Result<string, Error>)
    ensures r.Ok? <==> InputText(dumps, a.typ, x).Ok?
    ensures r.Ok? ==> r.value == a.graphqlName + ": " + Show(InputText(dumps, a.typ, x).value)
  {
    var p :- InputText(dumps, a.typ, x);
    Ok(a.graphqlName + ": " + Show(p))
  }

  /** One entry of the values passed to an argument list: the argument of
      that key, or `KeyError`. */
  function ArgEntry(dumps: Dumps, args: OMap<Arg>, e: (string, Json)): (r: Result<string, Error>)
    ensures !HasKey(args, e.0) ==> r == Err(NoSuchArgument(e.0))
    ensures HasKey(args, e.0) ==> r == ArgInput(dumps, Get(args, e.0).value, e.1)
  {
    match Get(args, e.0)
    case None => Err(NoSuchArgument(e.0))
    case Some(a) => ArgInput(dumps, a, e.1)
  }

  /** An argument list, three or fewer inline and more one per line. */
  function Layout(texts: seq<string>, unit: string, inner: nat, outer: nat): string
  {
    if |texts| <= 3 then "(" + Join(texts, ", ") + ")"
    else "(" + "\n" + Block(Prefix(unit, inner), texts) + (Prefix(unit, outer) + ")")
  }

  /** `ArgDict.__to_graphql__`: nothing for no arguments, otherwise the
      declarations laid out with the lines at one level deeper than the
      closing parenthesis. */
  function ArgsText(dumps: Dumps, args: OMap<Arg>, indent: nat, unit: string): (r: Result<string, Error>)
  {
    if |args| == 0 then Ok("")
    else
      var texts :- MapAll((a: Arg) => ArgText(dumps, a), Values(args));
      Ok(Layout(texts, unit, indent + 1, indent))
  }

  /** `ArgDict.__to_graphql_input__`: nothing for no values, otherwise one
      `wire: literal` per value, in the values' order, laid out with the
      lines two levels deeper than the given indent and the closing
      parenthesis one level deeper. */
  function ArgsInput(dumps: Dumps, args: OMap<Arg>, values: OMap<Json>, indent: nat, unit: string)
    : (r: Result<string, Error>)
  {
    if |values| == 0 then Ok("")
    else
      var texts :- MapAll((e: (string, Json)) => ArgEntry(dumps, args, e), values);
      Ok(Layout(texts, unit, indent + 2, indent + 1))
  }

  /** The text of a rendering known to succeed. */
  function Got(r: Result<string, Error>): string
  {
    if r.Ok? then r.value else ""
  }

  /** The layout rule: empty for no entries, one line for up to three, and
      for more an opening line, one prefixed line per entry and a closing
      line. */
  lemma LayoutLaw(texts: seq<string>, unit: string, inner: nat, outer: nat)
    requires |texts| > 0
    ensures |texts| <= 3 ==> Layout(texts, unit, inner, outer) == "(" + Join(texts, ", ") + ")"
    ensures |texts| > 3 && OneLine(unit) && (forall i :: 0 <= i < |texts| ==> OneLine(texts[i])) ==>
              Split(Layout(texts, unit, inner, outer), '\n')
              == ["("] + Prefixed(Prefix(unit, inner), texts) + [Prefix(unit, outer) + ")"]
  {
    if |texts| > 3 && OneLine(unit) && (forall i :: 0 <= i < |texts| ==> OneLine(texts[i])) {
      PrefixOneLine(unit, inner);
      PrefixOneLine(unit, outer);
      GlueOneLine(Prefix(unit, outer), ")");
      StackLines(Prefix(unit, inner), texts, Prefix(unit, outer) + ")");
    }
  }

  /** An opening parenthesis on a line of its own, the block, and a last
      line. */
  lemma StackLines(p: string, ts: seq<string>, last: string)
    requires OneLine(p) && OneLine(last) && forall i :: 0 <= i < |ts| ==> OneLine(ts[i])
    ensures Split("(" + "\n" + Block(p, ts) + last, '\n') == ["("] + Prefixed(p, ts) + [last]
  {
    var b := Block(p, ts) + last;
    BlockLines(p, ts, last);
    SplitNoSeparator(last, '\n');
    assert "(" + "\n" + Block(p, ts) + last == "(" + ['\n'] + b;
    SplitPeel("(", '\n', b);
  }

  /** Field arguments: no text without arguments; one failing declaration
      fails the whole list; up to three are written `(a, b, c)`; more are
      written on their own lines, one level deeper than the closing
      parenthesis. */
  lemma ArgsLayout(dumps: Dumps, args: OMap<Arg>, indent: nat, unit: string)
    ensures |args| == 0 ==> ArgsText(dumps, args, indent, unit) == Ok("")
    ensures ArgsText(dumps, args, indent, unit).Ok? <==>
              forall i :: 0 <= i < |args| ==> ArgText(dumps, args[i].1).Ok?
    ensures var r := ArgsText(dumps, args, indent, unit);
            var ts := seq(|args|, i requires 0 <= i < |args| => Got(ArgText(dumps, args[i].1)));
            r.Ok? && 0 < |args| <= 3 ==> r.value == "(" + Join(ts, ", ") + ")"
    ensures var r := ArgsText(dumps, args, indent, unit);
            var ts := seq(|args|, i requires 0 <= i < |args| => Got(ArgText(dumps, args[i].1)));
            r.Ok? && |args| > 3 && OneLine(unit) && (forall i :: 0 <= i < |args| ==> OneLine(ts[i])) ==>
              Split(r.value, '\n') == ["("] + Prefixed(Prefix(unit, indent + 1), ts) + [Prefix(unit, indent) + ")"]
  {
    var f := (a: Arg) => ArgText(dumps, a);
    var vs := Values(args);
    assert forall i :: 0 <= i < |args| ==> vs[i] == args[i].1;
    if |args| > 0 && MapAll(f, vs).Ok? {
      var ts := seq(|args|, i requires 0 <= i < |args| => Got(ArgText(dumps, args[i].1)));
      assert MapAll(f, vs).value == ts;
      LayoutLaw(ts, unit, indent + 1, indent);
    }
  }

  /** Argument values: no text without values; a key that names no
      argument is a `KeyError`; up to three are written `(a: 1, b: 2)`;
      more are written on their own lines two levels deeper than the given
      indent, with the closing parenthesis one level deeper. */
  lemma ArgsInputLayout(dumps: Dumps, args: OMap<Arg>, values: OMap<Json>, indent: nat, unit: string)
    ensures |values| == 0 ==> ArgsInput(dumps, args, values, indent, unit) == Ok("")
    ensures ArgsInput(dumps, args, values, indent, unit).Ok? <==>
              forall i :: 0 <= i < |values| ==>
                HasKey(args, values[i].0) && InputText(dumps, Get(args, values[i].0).value.typ, values[i].1).Ok?
    ensures (exists i :: 0 <= i < |values| && !HasKey(args, values[i].0)
                         && forall j :: 0 <= j < i ==> ArgEntry(dumps, args, values[j]).Ok?) ==>
              ArgsInput(dumps, args, values, indent, unit).Err?
              && ArgsInput(dumps, args, values, indent, unit).error.NoSuchArgument?
    ensures var r := ArgsInput(dumps, args, values, indent, unit);
            var ts := seq(|values|, i requires 0 <= i < |values| => Got(ArgEntry(dumps, args, values[i])));
            r.Ok? && 0 < |values| <= 3 ==> r.value == "(" + Join(ts, ", ") + ")"
    ensures var r := ArgsInput(dumps, args, values, indent, unit);
            var ts := seq(|values|, i requires 0 <= i < |values| => Got(ArgEntry(dumps, args, values[i])));
            r.Ok? && |values| > 3 && OneLine(unit) && (forall i :: 0 <= i < |values| ==> OneLine(ts[i])) ==>
              Split(r.value, '\n') == ["("] + Prefixed(Prefix(unit, indent + 2), ts) + [Prefix(unit, indent + 1) + ")"]
  {
    var f := (e: (string, Json)) => ArgEntry(dumps, args, e);
    if |values| > 0 {
      if MapAll(f, values).Ok? {
        var ts := seq(|values|, i requires 0 <= i < |values| => Got(ArgEntry(dumps, args, values[i])));
        assert MapAll(f, values).value == ts;
        LayoutLaw(ts, unit, indent + 2, indent + 1);
      } else {
        if exists i :: 0 <= i < |values| && !HasKey(args, values[i].0)
                       && forall j :: 0 <= j < i ==> ArgEntry(dumps, args, values[j]).Ok? {
          var i :| 0 <= i < |values| && !HasKey(args, values[i].0)
                   && forall j :: 0 <= j < i ==> ArgEntry(dumps, args, values[j]).Ok?;
          var k :| 0 <= k < |values| && f(values[k]) == Err(MapAll(f, values).error)
                   && forall j :: 0 <= j < k ==> f(values[j]).Ok?;
          assert k == i;
        }
      }
    }
  }

  /** `Field.__to_graphql__`: `wire(args): Type`, the arguments one level
      deeper than the field. */
  function FieldText(dumps: Dumps, f: Field, indent: nat, unit: string): (r: Result<string, Error>)
    ensures r.Ok? <==> ArgsText(dumps, f.args, indent + 1, unit).Ok?
    ensures |f.args| == 0 ==> r == Ok(f.graphqlName + ": " + Name(f.typ))
  {
    var a :- ArgsText(dumps, f.args, indent + 1, unit);
    assert |f.args| == 0 ==> f.graphqlName + a == f.graphqlName;
    Ok(f.graphqlName + a + ": " + Name(f.typ))
  }

  /** The class a wrapper derives from: wrappers render with their base's
      metaclass under their own name. */
  function Core(t: GType): (c: GType)
    ensures !c.NonNullT? && !c.ListOfT?
    ensures KindOf(c) == KindOf(t)
  {
    match t
    case NonNullT(b) => Core(b)
    case ListOfT(b) => Core(b)
    case _ => t
  }

  /** `BaseMeta.__to_graphql__`: the indent, the kind and the name. */
  function BaseText(t: GType, indent: nat, unit: string): string
  {
    Prefix(unit, indent) + KindText(KindOf(t)) + " " + Name(t)
  }

  function NamesOf(ts: seq<GType>): (r: seq<string>)
    ensures |r| == |ts|
  {
    seq(|ts|, i requires 0 <= i < |ts| => Name(ts[i]))
  }

  /** The first line of a container: ` implements I1, I2` when there are
      interfaces, then the opening brace. */
  function Header(base: string, interfaces: seq<GType>): string
  {
    base + (if |interfaces| > 0 then " implements " + Join(NamesOf(interfaces), ", ") else "") + " {"
  }

  /** The field lines of a container, in declaration order; the first
      field that cannot be written stops them. */
  function FieldLines(dumps: Dumps, fs: OMap<Field>, indent: nat, unit: string): (r: Result<seq<string>, Error>)
    ensures r.Ok? <==> forall i :: 0 <= i < |fs| ==> FieldText(dumps, fs[i].1, indent, unit).Ok?
    ensures r.Ok? ==> |r.value| == |fs| && forall i :: 0 <= i < |fs| ==> r.value[i] == FieldText(dumps, fs[i].1, indent, unit).value
  {
    assert forall i :: 0 <= i < |fs| ==> Values(fs)[i] == fs[i].1;
    MapAll((f: Field) => FieldText(dumps, f, indent, unit), Values(fs))
  }

  /** `cls.__to_graphql__()` through the class's metaclass. A scalar is its
      first line alone; an enum lists its choices one per line, one level
      deeper, and closes with a brace it never opened; a union lists its
      members after ` = `; a container opens a brace after its interfaces,
      lists its fields one per line and closes the brace. A wrapper of a
      container is a container class of its own, with the interfaces and
      the field table its construction gives it (`Builder.WrapperBuilt`). */
  function TypeText(dumps: Dumps, t: GType, indent: nat, unit: string): (r: Result<string, Error>)
  {
    var base := BaseText(t, indent, unit);
    var inner := Prefix(unit, indent + 1);
    var close := Prefix(unit, indent) + "}";
    match Core(t)
    case ScalarT(_, _, _, _) => Ok(base)
    case EnumT(_, _, _, choices) => Ok(Join([base] + Prefixed(inner, choices) + [close], "\n"))
    case UnionT(_, _, _, members) => Ok(base + " = " + Join(NamesOf(members), " | "))
    case ContainerT(_, _, _, _, _, _) =>
      var lines :- FieldLines(dumps, TableOf(t), indent, unit);
      Ok(Join([Header(base, Builder.InterfacesOf(t))] + Prefixed(inner, lines) + [close], "\n"))
    case RootT(k) =>
      if k == ScalarKind then Ok(base)
      else if k == EnumKind then Ok(Join([base, close], "\n"))
      else if k == UnionKind then Ok(base + " = ")
      else Ok(Join([Header(base, []), close], "\n"))
    case _ => Ok(base)
  }

  /** An enum's lines: the kind and name with no opening brace, each choice
      one level deeper, and a closing brace. */
  lemma EnumLines(dumps: Dumps, t: GType, indent: nat, unit: string)
    requires Core(t).EnumT?
    requires OneLine(unit) && OneLine(Name(t)) && forall i :: 0 <= i < |Core(t).choices| ==> OneLine(Core(t).choices[i])
    ensures TypeText(dumps, t, indent, unit).Ok?
    ensures Split(TypeText(dumps, t, indent, unit).value, '\n')
            == [BaseText(t, indent, unit)] + Prefixed(Prefix(unit, indent + 1), Core(t).choices) + [Prefix(unit, indent) + "}"]
  {
    var base := BaseText(t, indent, unit);
    var close := Prefix(unit, indent) + "}";
    PrefixOneLine(unit, indent);
    PrefixOneLine(unit, indent + 1);
    GlueOneLine(Prefix(unit, indent), KindText(KindOf(t)) + " ");
    GlueOneLine(Prefix(unit, indent) + KindText(KindOf(t)) + " ", Name(t));
    GlueOneLine(Prefix(unit, indent), "}");
    PrefixedOneLine(Prefix(unit, indent + 1), Core(t).choices);
    LinesOf([base] + Prefixed(Prefix(unit, indent + 1), Core(t).choices) + [close]);
  }

  /** The enum's first line carries no brace when its name does not. */
  lemma EnumOpensNoBrace(dumps: Dumps, t: GType, indent: nat, unit: string)
    requires Core(t).EnumT?
    requires OneLine(unit) && OneLine(Name(t)) && forall i :: 0 <= i < |Core(t).choices| ==> OneLine(Core(t).choices[i])
    requires '{' !in unit && '{' !in Name(t)
    ensures '{' !in Split(TypeText(dumps, t, indent, unit).value, '\n')[0]
  {
    EnumLines(dumps, t, indent, unit);
    NoCharPrefix(unit, indent, '{');
    var k := KindText(KindOf(t));
    assert '{' !in k + " ";
    NoCharGlue(Prefix(unit, indent), k + " ", '{');
    NoCharGlue(Prefix(unit, indent) + k + " ", Name(t), '{');
  }

  lemma {:induction false} NoCharPrefix(unit: string, indent: nat, c: char)
    requires c !in unit
    ensures c !in Prefix(unit, indent)
  {
    if indent > 0 {
      NoCharPrefix(unit, indent - 1, c);
      assert Prefix(unit, indent) == unit + Prefix(unit, indent - 1);
      NoCharGlue(unit, Prefix(unit, indent - 1), c);
    }
  }

  lemma NoCharGlue(a: string, b: string, c: char)
    requires c !in a && c !in b
    ensures c !in a + b
  {
  }

  /** A container's text fails exactly when one of its fields' does. */
  lemma ContainerOk(dumps: Dumps, t: GType, indent: nat, unit: string)
    requires Core(t).ContainerT?
    ensures TypeText(dumps, t, indent, unit).Ok? <==>
              forall i :: 0 <= i < |TableOf(t)| ==> FieldText(dumps, TableOf(t)[i].1, indent, unit).Ok?
  {
    ContainerTextOk(dumps, t, indent, unit);
  }

  /** A container's text is written exactly when its field lines are. */
  lemma ContainerTextOk(dumps: Dumps, t: GType, indent: nat, unit: string)
    requires Core(t).ContainerT?
    ensures TypeText(dumps, t, indent, unit).Ok? <==> FieldLines(dumps, TableOf(t), indent, unit).Ok?
  {
  }

  /** A container's lines: the header with its interfaces and the opening
      brace, each field one level deeper (its arguments one level deeper
      still), and the closing brace. */
  lemma ContainerLines(dumps: Dumps, t: GType, indent: nat, unit: string)
    requires Core(t).ContainerT?
    ensures var r := TypeText(dumps, t, indent, unit);
            var fs := TableOf(t);
            var ls := seq(|fs|, i requires 0 <= i < |fs| => Got(FieldText(dumps, fs[i].1, indent, unit)));
            var head := Header(BaseText(t, indent, unit), Builder.InterfacesOf(t));
            r.Ok? && OneLine(unit) && OneLine(head) && (forall i :: 0 <= i < |fs| ==> OneLine(ls[i])) ==>
              Split(r.value, '\n') == [head] + Prefixed(Prefix(unit, indent + 1), ls) + [Prefix(unit, indent) + "}"]
  {
    var fs := TableOf(t);
    var ls := seq(|fs|, i requires 0 <= i < |fs| => Got(FieldText(dumps, fs[i].1, indent, unit)));
    var head := Header(BaseText(t, indent, unit), Builder.InterfacesOf(t));
    ContainerJoined(dumps, t, indent, unit);
    if TypeText(dumps, t, indent, unit).Ok? && OneLine(unit) && OneLine(head) && (forall i :: 0 <= i < |fs| ==> OneLine(ls[i])) {
      PrefixOneLine(unit, indent);
      PrefixOneLine(unit, indent + 1);
      GlueOneLine(Prefix(unit, indent), "}");
      PrefixedOneLine(Prefix(unit, indent + 1), ls);
      Framed(head, Prefixed(Prefix(unit, indent + 1), ls), Prefix(unit, indent) + "}");
    }
  }

  /** A container's text, when it can be written, is its header, its
      field lines one level deeper and the closing brace, joined by
      newlines. */
  lemma ContainerJoined(dumps: Dumps, t: GType, indent: nat, unit: string)
    requires Core(t).ContainerT?
    ensures var fs := TableOf(t);
            var ls := seq(|fs|, i requires 0 <= i < |fs| => Got(FieldText(dumps, fs[i].1, indent, unit)));
            TypeText(dumps, t, indent, unit).Ok? ==>
              TypeText(dumps, t, indent, unit).value
              == Join([Header(BaseText(t, indent, unit), Builder.InterfacesOf(t))] + Prefixed(Prefix(unit, indent + 1), ls)
                      + [Prefix(unit, indent) + "}"], "\n")
  {
    var fs := TableOf(t);
    var ls := seq(|fs|, i requires 0 <= i < |fs| => Got(FieldText(dumps, fs[i].1, indent, unit)));
    if FieldLines(dumps, fs, indent, unit).Ok? {
      assert FieldLines(dumps, fs, indent, unit).value == ls;
    }
  }

  /** A union is one line: its kind and name, then the member names
      separated by ` | `. */
  lemma UnionLine(dumps: Dumps, t: GType, indent: nat, unit: string)
    requires Core(t).UnionT?
    ensures TypeText(dumps, t, indent, unit)
            == Ok(BaseText(t, indent, unit) + " = " + Join(NamesOf(Core(t).members), " | "))
  {
  }

  /** The list wrapper's literal: null stays `None`; otherwise it fails
      when an item fails, then with `TypeError` when an item came out as
      `None`, and else writes `[a, b]` with the items' literals in order. */
  lemma ListLiteral(dumps: Dumps, b: GType, xs: seq<Json>)
    ensures InputText(dumps, ListOfT(b), JNull) == Ok(PyNone)
    ensures InputText(dumps, ListOfT(b), JArr(xs)).Ok? <==>
              forall i :: 0 <= i < |xs| ==> InputText(dumps, b, xs[i]).Ok? && InputText(dumps, b, xs[i]).value.Str?
    ensures InputText(dumps, ListOfT(b), JArr(xs)).Ok? ==>
              var ts := seq(|xs|, i requires 0 <= i < |xs| => InputText(dumps, b, xs[i]).value.s);
              InputText(dumps, ListOfT(b), JArr(xs)) == Ok(Str("[" + Join(ts, ", ") + "]"))
  {
    PiecesLaw(dumps, b, xs);
    var r := InputPieces(dumps, b, xs);
    if r.Ok? && AllText(r.value) {
      var ts := seq(|xs|, i requires 0 <= i < |xs| => InputText(dumps, b, xs[i]).value.s);
      assert Texts(r.value) == ts;
    }
  }

  lemma {:induction false} PiecesLaw(dumps: Dumps, b: GType, xs: seq<Json>)
    ensures InputPieces(dumps, b, xs).Ok? <==> forall i :: 0 <= i < |xs| ==> InputText(dumps, b, xs[i]).Ok?
    ensures InputPieces(dumps, b, xs).Ok? ==>
              forall i :: 0 <= i < |xs| ==> InputPieces(dumps, b, xs).value[i] == InputText(dumps, b, xs[i]).value
  {
    if |xs| > 0 {
      PiecesLaw(dumps, b, xs[1..]);
      assert forall i :: 1 <= i < |xs| ==> xs[1..][i - 1] == xs[i];
    }
  }

  /** A scalar's literal is the JSON text of the value, whatever the value;
      an enum's is the value itself, and only text or null has one. */
  lemma ScalarEnumLiteral(dumps: Dumps, t: GType, x: Json)
    ensures t.ScalarT? ==> InputText(dumps, t, x) == Ok(Str(dumps(x)))
    ensures t.EnumT? ==> (InputText(dumps, t, x).Ok? <==> x.JStr? || x == JNull)
    ensures t.EnumT? && x.JStr? ==> InputText(dumps, t, x) == Ok(Str(x.s))
    ensures t.EnumT? && x == JNull ==> InputText(dumps, t, x) == Ok(PyNone)
  {
  }

  /** The non-null wrapper writes literals exactly as its base does. */
  lemma NonNullLiteral(dumps: Dumps, b: GType, x: Json)
    ensures InputText(dumps, NonNullT(b), x) == InputText(dumps, b, x)
  {
  }

  /** A loop step that fails with the item's error, else with the rest's
      error, else puts the item in front of the rest. */
  function Cons(x: Result<string, Error>, xs: Result<seq<string>, Error>): Result<seq<string>, Error>
  {
    match x
    case Err(e) => Err(e)
    case Ok(y) =>
      match xs
      case Err(e) => Err(e)
      case Ok(ys) => Ok([y] + ys)
  }

  /** One entry of an input object literal: `wire: literal`, or `KeyError`
      for a key that names no field of the class. */
  function Entry(dumps: Dumps, t: GType, e: (string, Json)): (r: Result<string, Error>)
    ensures !HasKey(FieldsOf(t), e.0) ==> r == Err(NoSuchField(Name(t), e.0))
  {
    match Get(FieldsOf(t), e.0)
    case None => Err(NoSuchField(Name(t), e.0))
    case Some(f) =>
      var p :- InputText(dumps, f.typ, e.1);
      Ok(f.graphqlName + ": " + Show(p))
  }

  /** The key names a field of the class and the value's literal can be
      written. */
  predicate EntryOk(dumps: Dumps, t: GType, e: (string, Json))
  {
    Entry(dumps, t, e).Ok?
  }

  /** `wire: literal` for an entry that can be written. */
  function EntryText(dumps: Dumps, t: GType, e: (string, Json)): string
    requires EntryOk(dumps, t, e)
  {
    Entry(dumps, t, e).value
  }

  /** One step of the entries loop. */
  lemma ObjectEntriesStep(dumps: Dumps, t: GType, m: OMap<Json>, i: nat)
    requires (t.ContainerT? || t.RootT?) && i < |m|
    ensures ObjectEntries(dumps, t, m, i) == Cons(Entry(dumps, t, m[i]), ObjectEntries(dumps, t, m, i + 1))
  {
    match Find(FieldsOf(t), m[i].0)
    case None =>
    case Some(idx) =>
      assert Get(FieldsOf(t), m[i].0) == Some(t.fields[idx].1);
  }

  /** The entries loop as a whole: it fails exactly when an entry does,
      with the first failing entry's error, and otherwise lists the
      entries in the value's key order. */
  lemma ObjectEntriesLaw(dumps: Dumps, t: GType, m: OMap<Json>)
    requires t.ContainerT? || t.RootT?
    ensures ObjectEntries(dumps, t, m, 0).Ok? <==> forall k :: 0 <= k < |m| ==> EntryOk(dumps, t, m[k])
    ensures ObjectEntries(dumps, t, m, 0).Ok? ==>
              |ObjectEntries(dumps, t, m, 0).value| == |m|
              && forall k :: 0 <= k < |m| ==> ObjectEntries(dumps, t, m, 0).value[k] == Entry(dumps, t, m[k]).value
    ensures ObjectEntries(dumps, t, m, 0).Err? ==>
              exists k :: 0 <= k < |m| && Entry(dumps, t, m[k]) == Err(ObjectEntries(dumps, t, m, 0).error)
                          && forall k' :: 0 <= k' < k ==> EntryOk(dumps, t, m[k'])
  {
    ObjectEntriesOk(dumps, t, m);
    ObjectEntriesValues(dumps, t, m);
    ObjectEntriesErr(dumps, t, m);
  }

  /** rs[j] is the loop from item j on, xs[j] the j-th item's result. */
  ghost predicate Chain(rs: seq<Result<seq<string>, Error>>, xs: seq<Result<string, Error>>)
  {
    |rs| == |xs| + 1 && rs[|xs|] == Ok([]) && forall j :: 0 <= j < |xs| ==> rs[j] == Cons(xs[j], rs[j + 1])
  }

  /** Such a loop from item i on succeeds exactly when every item does,
      then holds the items in order, and otherwise fails with the first
      failing item's error. */
  lemma {:induction false} ChainLaw(rs: seq<Result<seq<string>, Error>>, xs: seq<Result<string, Error>>, i: nat)
    requires Chain(rs, xs) && i <= |xs|
    ensures rs[i].Ok? <==> forall j :: i <= j < |xs| ==> xs[j].Ok?
    ensures rs[i].Ok? ==> |rs[i].value| == |xs| - i && forall j :: i <= j < |xs| ==> rs[i].value[j - i] == xs[j].value
    ensures rs[i].Err? ==> exists j :: i <= j < |xs| && xs[j] == Err(rs[i].error) && forall j' :: i <= j' < j ==> xs[j'].Ok?
    decreases |xs| - i
  {
    if i < |xs| {
      ChainLaw(rs, xs, i + 1);
      assert rs[i] == Cons(xs[i], rs[i + 1]);
      if rs[i].Ok? {
        forall j | i < j < |xs| ensures rs[i].value[j - i] == xs[j].value {
          assert rs[i].value[j - i] == rs[i + 1].value[j - i - 1];
        }
      }
    }
  }

  /** The entries loop from each key on. */
  function EntryRuns(dumps: Dumps, t: GType, m: OMap<Json>): (rs: seq<Result<seq<string>, Error>>)
    requires t.ContainerT? || t.RootT?
    ensures |rs| == |m| + 1 && forall j :: 0 <= j <= |m| ==> rs[j] == ObjectEntries(dumps, t, m, j)
  {
    seq(|m| + 1, j requires 0 <= j <= |m| => ObjectEntries(dumps, t, m, j))
  }

  /** Each key's entry. */
  function Entries(dumps: Dumps, t: GType, m: OMap<Json>): (xs: seq<Result<string, Error>>)
    ensures |xs| == |m| && forall j :: 0 <= j < |m| ==> xs[j] == Entry(dumps, t, m[j])
  {
    seq(|m|, j requires 0 <= j < |m| => Entry(dumps, t, m[j]))
  }

  /** The entries loop is such a loop. */
  lemma EntriesChain(dumps: Dumps, t: GType, m: OMap<Json>)
    requires t.ContainerT? || t.RootT?
    ensures Chain(EntryRuns(dumps, t, m), Entries(dumps, t, m))
  {
    var rs, xs := EntryRuns(dumps, t, m), Entries(dumps, t, m);
    forall j | 0 <= j < |xs| ensures rs[j] == Cons(xs[j], rs[j + 1]) {
      ObjectEntriesStep(dumps, t, m, j);
    }
  }

  /** `ChainLaw` for the whole loop. */
  lemma ChainAll(rs: seq<Result<seq<string>, Error>>, xs: seq<Result<string, Error>>)
    requires Chain(rs, xs)
    ensures rs[0].Ok? <==> forall j :: 0 <= j < |xs| ==> xs[j].Ok?
    ensures rs[0].Ok? ==> |rs[0].value| == |xs| && forall j :: 0 <= j < |xs| ==> xs[j].Ok? && rs[0].value[j] == xs[j].value
    ensures rs[0].Err? ==> exists j :: 0 <= j < |xs| && xs[j] == Err(rs[0].error) && forall j' :: 0 <= j' < j ==> xs[j'].Ok?
  {
    ChainLaw(rs, xs, 0);
    if rs[0].Ok? {
      forall j | 0 <= j < |xs| ensures rs[0].value[j] == xs[j].value {
        assert rs[0].value[j - 0] == xs[j].value;
      }
    }
  }

  lemma ObjectEntriesOk(dumps: Dumps, t: GType, m: OMap<Json>)
    requires t.ContainerT? || t.RootT?
    ensures ObjectEntries(dumps, t, m, 0).Ok? <==> forall k :: 0 <= k < |m| ==> EntryOk(dumps, t, m[k])
  {
    EntriesChain(dumps, t, m);
    ChainAll(EntryRuns(dumps, t, m), Entries(dumps, t, m));
  }

  lemma ObjectEntriesValues(dumps: Dumps, t: GType, m: OMap<Json>)
    requires t.ContainerT? || t.RootT?
    ensures ObjectEntries(dumps, t, m, 0).Ok? ==>
              |ObjectEntries(dumps, t, m, 0).value| == |m|
              && forall k :: 0 <= k < |m| ==>
                   EntryOk(dumps, t, m[k]) && ObjectEntries(dumps, t, m, 0).value[k] == Entry(dumps, t, m[k]).value
  {
    EntriesChain(dumps, t, m);
    ChainAll(EntryRuns(dumps, t, m), Entries(dumps, t, m));
  }

  lemma ObjectEntriesErr(dumps: Dumps, t: GType, m: OMap<Json>)
    requires t.ContainerT? || t.RootT?
    ensures ObjectEntries(dumps, t, m, 0).Err? ==>
              exists k :: 0 <= k < |m| && Entry(dumps, t, m[k]) == Err(ObjectEntries(dumps, t, m, 0).error)
                          && forall k' :: 0 <= k' < k ==> EntryOk(dumps, t, m[k'])
  {
    EntriesChain(dumps, t, m);
    ChainAll(EntryRuns(dumps, t, m), Entries(dumps, t, m));
  }

  /** An input object's literal: a value without `.items()` is an
      `AttributeError`; otherwise the entries inside braces. */
  lemma ObjectLiteral(dumps: Dumps, t: GType, m: OMap<Json>)
    requires t.ContainerT? && t.kind == InputKind
    ensures InputText(dumps, t, JNull) == Err(NotMapping(JNull))
    ensures InputText(dumps, t, JObj(m)).Ok? <==> forall k :: 0 <= k < |m| ==> EntryOk(dumps, t, m[k])
    ensures InputText(dumps, t, JObj(m)).Ok? ==>
              var es := seq(|m|, k requires 0 <= k < |m| && EntryOk(dumps, t, m[k]) => EntryText(dumps, t, m[k]));
              InputText(dumps, t, JObj(m)) == Ok(Str("{" + Join(es, ", ") + "}"))
    ensures InputText(dumps, t, JObj(m)).Err? ==>
              exists k :: 0 <= k < |m| && Entry(dumps, t, m[k]) == Err(InputText(dumps, t, JObj(m)).error)
                          && forall k' :: 0 <= k' < k ==> EntryOk(dumps, t, m[k'])
  {
    ObjectEntriesLaw(dumps, t, m);
    if ObjectEntries(dumps, t, m, 0).Ok? {
      var es := seq(|m|, k requires 0 <= k < |m| && EntryOk(dumps, t, m[k]) => EntryText(dumps, t, m[k]));
      assert ObjectEntries(dumps, t, m, 0).value == es;
    }
  }

  /** `Schema.__to_graphql__`: `schema {`, every registered type in
      registration order one level deeper, and `}`; it fails exactly when a
      type's text does. */
  function SchemaText(dumps: Dumps, s: Schema, indent: nat, unit: string): (r: Result<string, Error>)
  {
    var lines :- MapAll((t: GType) => TypeText(dumps, t, indent + 1, unit), Values(s.all));
    Ok(Join([Prefix(unit, indent) + "schema {"] + lines + [Prefix(unit, indent) + "}"], "\n"))
  }

  /** The schema's lines: the opening line, the text of each registered
      type in registration order, the closing line. */
  function SchemaBody(dumps: Dumps, s: Schema, indent: nat, unit: string): seq<string>
  {
    var ls := seq(|s.all|, i requires 0 <= i < |s.all| => Got(TypeText(dumps, s.all[i].1, indent + 1, unit)));
    [Prefix(unit, indent) + "schema {"] + ls + [Prefix(unit, indent) + "}"]
  }

  /** The schema's text fails exactly when a type's text does, and is
      otherwise its lines joined by newlines. */
  lemma SchemaJoined(dumps: Dumps, s: Schema, indent: nat, unit: string)
    ensures SchemaText(dumps, s, indent, unit).Ok? <==>
              forall i :: 0 <= i < |s.all| ==> TypeText(dumps, s.all[i].1, indent + 1, unit).Ok?
    ensures SchemaText(dumps, s, indent, unit).Ok? ==>
              SchemaText(dumps, s, indent, unit).value == Join(SchemaBody(dumps, s, indent, unit), "\n")
  {
    var f := (t: GType) => TypeText(dumps, t, indent + 1, unit);
    var vs := Values(s.all);
    assert forall i :: 0 <= i < |s.all| ==> vs[i] == s.all[i].1;
    var ls := seq(|s.all|, i requires 0 <= i < |s.all| => Got(TypeText(dumps, s.all[i].1, indent + 1, unit)));
    if MapAll(f, vs).Ok? {
      assert MapAll(f, vs).value == ls;
    }
  }

  /** The schema's text, line by line, when every type is a single line:
      the opening line, one line per registered type, the closing line. */
  lemma SchemaLines(dumps: Dumps, s: Schema, indent: nat, unit: string)
    ensures SchemaText(dumps, s, indent, unit).Ok? <==>
              forall i :: 0 <= i < |s.all| ==> TypeText(dumps, s.all[i].1, indent + 1, unit).Ok?
    ensures var r := SchemaText(dumps, s, indent, unit);
            var ls := seq(|s.all|, i requires 0 <= i < |s.all| => Got(TypeText(dumps, s.all[i].1, indent + 1, unit)));
            r.Ok? && OneLine(unit) && (forall i :: 0 <= i < |s.all| ==> OneLine(ls[i])) ==>
              Split(r.value, '\n') == [Prefix(unit, indent) + "schema {"] + ls + [Prefix(unit, indent) + "}"]
  {
    SchemaJoined(dumps, s, indent, unit);
    var ls := seq(|s.all|, i requires 0 <= i < |s.all| => Got(TypeText(dumps, s.all[i].1, indent + 1, unit)));
    if SchemaText(dumps, s, indent, unit).Ok? && OneLine(unit) && (forall i :: 0 <= i < |s.all| ==> OneLine(ls[i])) {
      PrefixOneLine(unit, indent);
      GlueOneLine(Prefix(unit, indent), "schema {");
      GlueOneLine(Prefix(unit, indent), "}");
      Framed(Prefix(unit, indent) + "schema {", ls, Prefix(unit, indent) + "}");
    }
  }
}

=== FILE: roundtrip.dfy ===
/** Decoding and then taking the JSON snapshot, against a reference
    definition on JSON alone: the snapshot of decoded data is the data
    restricted to the declared fields, recursively, with scalars passed
    through their converters and a null object turned into `{}`. */
module RoundTrip {
  import opened Prelude
  import opened OrderedMaps
  import opened JsonValues
  import opened Types
  import opened Codec
  import opened Snapshot
  import opened FieldLoop

  /** Every container reachable from the type keys each field by the
      field's own Python name, once: what attaching the fields when the
      class is built leaves. */
  ghost predicate WellFormed(t: GType)
    decreases t
  {
    match t
    case ContainerT(_, _, _, _, _, fs) =>
      && UniqueKeys(fs)
      && forall k :: 0 <= k < |fs| ==> fs[k].1.name == fs[k].0 && (fs[k] in fs && WellFormed(fs[k].1.typ))
    case NonNullT(b) => WellFormed(b)
    case ListOfT(b) => WellFormed(b)
    case _ => true
  }

  /** The JSON that decoding x as t and taking the snapshot gives back, or
      `None` when decoding fails or the snapshot cannot be taken (a union;
      a list or a string where an object is expected, or anything but a list
      where a list is expected). */
  function Canon(conv: Converter, t: GType, x: Json): Option<Json>
    decreases t, 1
  {
    match t
    case ScalarT(_, _, _, c) =>
      if x == JNull then Some(JNull)
      else (match conv(c, x) case Ok(y) => Some(y) case Err(_) => None)
    case EnumT(_, _, _, choices) =>
      if x == JNull || (x.JStr? && x.s in choices) then Some(x) else None
    case UnionT(_, _, _, _) => None
    case RootT(ScalarKind) => Some(x)
    case RootT(EnumKind) => if x == JNull then Some(JNull) else None
    case RootT(UnionKind) => None
    case NonNullT(b) => if x == JNull then None else Canon(conv, b, x)
    case ListOfT(b) =>
      if x == JNull then Some(JNull)
      else if x.JArr? then
        (match CanonItems(conv, b, x.items) case Some(ys) => Some(JArr(ys)) case None => None)
      else None
    case _ =>
      if x == JNull then Some(JObj([]))
      else if x.JObj? then
        (match CanonFields(conv, t, x.members, 0, []) case Some(d) => Some(JObj(d)) case None => None)
      else None
  }

  function CanonItems(conv: Converter, b: GType, xs: seq<Json>): (r: Option<seq<Json>>)
    ensures r.Some? ==> |r.value| == |xs|
    decreases b, 2, |xs|
  {
    if |xs| == 0 then Some([])
    else
      match Canon(conv, b, xs[0])
      case None => None
      case Some(y) =>
        match CanonItems(conv, b, xs[1..])
        case None => None
        case Some(ys) => Some([y] + ys)
  }

  /** The declared fields of t from the k-th on whose wire name is a key of
      m, stored under that wire name. */
  function CanonFields(conv: Converter, t: GType, m: OMap<Json>, k: nat, d: OMap<Json>): Option<OMap<Json>>
    requires k <= |FieldsOf(t)|
    decreases t, 0, |FieldsOf(t)| - k
  {
    var fs := FieldsOf(t);
    if k == |fs| then Some(d)
    else
      var f := fs[k].1;
      if !HasKey(m, f.graphqlName) then CanonFields(conv, t, m, k + 1, d)
      else
        assert fs[k] in t.fields;
        match Canon(conv, f.typ, Get(m, f.graphqlName).value)
        case None => None
        case Some(y) => CanonFields(conv, t, m, k + 1, Put(d, f.graphqlName, y))
  }

  /** A reference list is there exactly when every item has one, and then
      holds them in order. */
  lemma {:induction false} CanonItemsLaw(conv: Converter, b: GType, xs: seq<Json>)
    ensures CanonItems(conv, b, xs).Some? <==> forall k :: 0 <= k < |xs| ==> Canon(conv, b, xs[k]).Some?
    ensures CanonItems(conv, b, xs).Some? ==>
              forall k :: 0 <= k < |xs| ==> CanonItems(conv, b, xs).value[k] == Canon(conv, b, xs[k]).value
  {
    if |xs| > 0 {
      CanonItemsLaw(conv, b, xs[1..]);
      assert forall k :: 1 <= k < |xs| ==> xs[1..][k - 1] == xs[k];
    }
  }

  /** One step of the reference loop. */
  lemma CanonFieldsStep(conv: Converter, t: GType, m: OMap<Json>, k: nat, d: OMap<Json>)
    requires k < |FieldsOf(t)|
    ensures var f := FieldsOf(t)[k].1;
            !HasKey(m, f.graphqlName) ==> CanonFields(conv, t, m, k, d) == CanonFields(conv, t, m, k + 1, d)
    ensures var f := FieldsOf(t)[k].1;
            HasKey(m, f.graphqlName) && Canon(conv, f.typ, Get(m, f.graphqlName).value).None? ==>
              CanonFields(conv, t, m, k, d).None?
    ensures var f := FieldsOf(t)[k].1;
            HasKey(m, f.graphqlName) && Canon(conv, f.typ, Get(m, f.graphqlName).value).Some? ==>
              CanonFields(conv, t, m, k, d)
              == CanonFields(conv, t, m, k + 1, Put(d, f.graphqlName, Canon(conv, f.typ, Get(m, f.graphqlName).value).value))
  {
  }

  /** What the reference loop does at the k-th field: skip a field whose
      wire name the input lacks, store the reference value under the wire
      name, or give up when the value has none. */
  function CanonStep(conv: Converter, t: GType, m: OMap<Json>, k: nat): (r: Step<Json, Field, ()>)
    requires k < |FieldsOf(t)|
    ensures var f := FieldsOf(t)[k].1;
            && (r.Skip? <==> !HasKey(m, f.graphqlName))
            && (r.Fail? <==> HasKey(m, f.graphqlName) && Canon(conv, f.typ, Get(m, f.graphqlName).value).None?)
            && (r.Store? ==> r.name == f.graphqlName && r.f == f
                             && Canon(conv, f.typ, Get(m, f.graphqlName).value) == Some(r.v))
  {
    var f := FieldsOf(t)[k].1;
    if !HasKey(m, f.graphqlName) then Skip
    else
      match Canon(conv, f.typ, Get(m, f.graphqlName).value)
      case Some(y) => Store(f.graphqlName, y, f)
      case None => Fail(())
  }

  function CanonSteps(conv: Converter, t: GType, m: OMap<Json>): (r: seq<Step<Json, Field, ()>>)
    ensures |r| == |FieldsOf(t)|
    ensures forall k :: 0 <= k < |r| ==> r[k] == CanonStep(conv, t, m, k)
  {
    seq(|FieldsOf(t)|, k requires 0 <= k < |FieldsOf(t)| => CanonStep(conv, t, m, k))
  }

  /** The attributes of a finished run, or `None` when it gave up. */
  function Found(r: Result<(OMap<Json>, OMap<Field>), ()>): (o: Option<OMap<Json>>)
    ensures o.Some? <==> r.Ok?
    ensures r.Ok? ==> o.value == r.value.0
  {
    match r
    case Ok((a, _)) => Some(a)
    case Err(_) => None
  }

  /** The reference loop runs its steps. */
  lemma {:induction false} CanonRun(conv: Converter, t: GType, m: OMap<Json>, k: nat, d: OMap<Json>,
                                    c: OMap<Field>)
    requires k <= |FieldsOf(t)|
    ensures CanonFields(conv, t, m, k, d) == Found(Run(CanonSteps(conv, t, m), k, d, c))
    decreases |FieldsOf(t)| - k
  {
    if k < |FieldsOf(t)| {
      CanonFieldsStep(conv, t, m, k, d);
      var steps := CanonSteps(conv, t, m);
      assert steps[k] == CanonStep(conv, t, m, k);
      match steps[k]
      case Skip =>
        CanonRun(conv, t, m, k + 1, d, c);
        assert Run(steps, k, d, c) == Run(steps, k + 1, d, c);
      case Store(x, v, f) =>
        CanonRun(conv, t, m, k + 1, Put(d, x, v), Put(c, x, f));
        assert Run(steps, k, d, c) == Run(steps, k + 1, Put(d, x, v), Put(c, x, f));
      case Fail(e) =>
        assert Run(steps, k, d, c) == Err(e);
    }
  }

  /** Where the reference object is there, so is the reference value of
      every declared field whose wire name the input has. */
  lemma CanonFieldsSome(conv: Converter, t: GType, m: OMap<Json>, k: nat, d: OMap<Json>)
    requires k <= |FieldsOf(t)| && CanonFields(conv, t, m, k, d).Some?
    ensures forall k' :: k <= k' < |FieldsOf(t)| && HasKey(m, FieldsOf(t)[k'].1.graphqlName) ==>
              Canon(conv, FieldsOf(t)[k'].1.typ, Get(m, FieldsOf(t)[k'].1.graphqlName).value).Some?
  {
    var steps := CanonSteps(conv, t, m);
    CanonRun(conv, t, m, k, d, []);
    RunOk(steps, k, d, []);
    forall k' | k <= k' < |FieldsOf(t)| && HasKey(m, FieldsOf(t)[k'].1.graphqlName)
      ensures Canon(conv, FieldsOf(t)[k'].1.typ, Get(m, FieldsOf(t)[k'].1.graphqlName).value).Some?
    {
      assert !steps[k'].Fail?;
    }
  }

  /** The snapshot loop and the reference loop agree when the instance has
      exactly the fields whose wire names the input has, each converting to
      its reference value. */
  lemma FieldsCanon(conv: Converter, t: GType, m: OMap<Json>, inst: Instance, k: nat, d: OMap<Json>)
    requires inst.typ == t && k <= |FieldsOf(t)|
    requires forall k' :: k <= k' < |FieldsOf(t)| ==>
               (Declared(inst, k') <==> HasKey(m, FieldsOf(t)[k'].1.graphqlName))
    requires forall k' :: k <= k' < |FieldsOf(t)| && Declared(inst, k') ==>
               && Canon(conv, FieldsOf(t)[k'].1.typ, Get(m, FieldsOf(t)[k'].1.graphqlName).value).Some?
               && Converted(inst, k')
                  == Ok(Canon(conv, FieldsOf(t)[k'].1.typ, Get(m, FieldsOf(t)[k'].1.graphqlName).value).value)
    ensures CanonFields(conv, t, m, k, d).Some?
    ensures Fields(inst, VObj(inst), k, d) == Ok(CanonFields(conv, t, m, k, d).value)
  {
    var s1, s2 := SnapSteps(inst), CanonSteps(conv, t, m);
    forall j | k <= j < |s1| ensures Mirrors(s1[j], s2[j]) {
      assert s1[j] == SnapStep(inst, j) && s2[j] == CanonStep(conv, t, m, j);
    }
    RunMirror(s1, s2, k, d, []);
    SnapshotRun(inst, k, d, []);
    CanonRun(conv, t, m, k, d, []);
  }

  /** An instance with no attributes snapshots as the object it started
      with. */
  lemma {:induction false} BareSnapshot(inst: Instance, k: nat, d: OMap<Json>)
    requires inst.attrs == [] && k <= |FieldsOf(inst.typ)|
    ensures Fields(inst, VObj(inst), k, d) == Ok(d)
    decreases |FieldsOf(inst.typ)| - k
  {
    if k < |FieldsOf(inst.typ)| {
      FieldsStep(inst, k, d);
      BareSnapshot(inst, k + 1, d);
    }
  }

  /** A container decoded from null snapshots as `{}`, not as null. */
  lemma NullSnapshot(conv: Converter, t: GType, sel: Option<seq<Selection>>)
    requires IsContainer(t)
    ensures Decode(conv, t, JNull, sel).Ok?
    ensures ToJson(t, Decode(conv, t, JNull, sel).value) == Ok(JObj([]))
  {
    BareSnapshot(EmptyInstance(t, sel), 0, []);
  }

  /** Converting a Python list item by item gives the items' conversions. */
  lemma {:induction false} ItemsJson(b: GType, v: Value, ys: seq<Json>, i: nat)
    requires v.VList? && |ys| == |v.items| && i <= |v.items|
    requires forall k :: i <= k < |v.items| ==> ToJson(b, v.items[k]) == Ok(ys[k])
    ensures ToJsonItems(b, v, i) == Ok(ys[i..])
    decreases |v.items| - i
  {
    if i < |v.items| {
      ItemsJson(b, v, ys, i + 1);
      assert ToJson(b, v.items[i]) == Ok(ys[i]);
      ItemsStep(b, v, i);
      assert ys[i..] == [ys[i]] + ys[i + 1..];
    } else {
      assert ys[i..] == [];
    }
  }

  /** The list case of the round trip, given the round trip of every item. */
  lemma ListRoundTrip(conv: Converter, b: GType, xs: seq<Json>)
    requires forall k :: 0 <= k < |xs| ==>
               && Canon(conv, b, xs[k]).Some?
               && Decode(conv, b, xs[k], None).Ok?
               && ToJson(b, Decode(conv, b, xs[k], None).value) == Ok(Canon(conv, b, xs[k]).value)
    ensures Decode(conv, ListOfT(b), JArr(xs), None).Ok? && CanonItems(conv, b, xs).Some?
    ensures ToJson(ListOfT(b), Decode(conv, ListOfT(b), JArr(xs), None).value)
            == Ok(JArr(CanonItems(conv, b, xs).value))
  {
    DecodeList(conv, b, xs, None);
    CanonItemsLaw(conv, b, xs);
    var v := Decode(conv, ListOfT(b), JArr(xs), None).value;
    var ys := CanonItems(conv, b, xs).value;
    ItemsJson(b, v, ys, 0);
    assert ys[0..] == ys;
  }

  /** The object case of the round trip, given the round trip of every
      field the object has: with fields keyed by their own distinct names,
      each present field is decoded once and its value stays. */
  lemma ObjectRoundTrip(conv: Converter, t: GType, m: OMap<Json>)
    requires IsContainer(t) && UniqueKeys(FieldsOf(t))
    requires forall k :: 0 <= k < |FieldsOf(t)| ==> FieldsOf(t)[k].1.name == FieldsOf(t)[k].0
    requires forall k :: 0 <= k < |FieldsOf(t)| && HasKey(m, FieldsOf(t)[k].1.graphqlName) ==>
               var raw := Get(m, FieldsOf(t)[k].1.graphqlName).value;
               && Canon(conv, FieldsOf(t)[k].1.typ, raw).Some?
               && Decode(conv, FieldsOf(t)[k].1.typ, raw, None).Ok?
               && ToJson(FieldsOf(t)[k].1.typ, Decode(conv, FieldsOf(t)[k].1.typ, raw, None).value)
                  == Ok(Canon(conv, FieldsOf(t)[k].1.typ, raw).value)
    ensures Decode(conv, t, JObj(m), None).Ok? && CanonFields(conv, t, m, 0, []).Some?
    ensures ToJson(t, Decode(conv, t, JObj(m), None).value) == Ok(JObj(CanonFields(conv, t, m, 0, []).value))
  {
    ObjectDecoded(conv, t, m);
    FieldsCanon(conv, t, m, Decode(conv, t, JObj(m), None).value.inst, 0, []);
  }

  /** Under the same conditions the object decodes, and its instance
      declares exactly the fields present in the input, each holding a
      value whose snapshot is the reference JSON of the raw value. */
  lemma ObjectDecoded(conv: Converter, t: GType, m: OMap<Json>)
    requires IsContainer(t) && UniqueKeys(FieldsOf(t))
    requires forall k :: 0 <= k < |FieldsOf(t)| ==> FieldsOf(t)[k].1.name == FieldsOf(t)[k].0
    requires forall k :: 0 <= k < |FieldsOf(t)| && HasKey(m, FieldsOf(t)[k].1.graphqlName) ==>
               var raw := Get(m, FieldsOf(t)[k].1.graphqlName).value;
               && Canon(conv, FieldsOf(t)[k].1.typ, raw).Some?
               && Decode(conv, FieldsOf(t)[k].1.typ, raw, None).Ok?
               && ToJson(FieldsOf(t)[k].1.typ, Decode(conv, FieldsOf(t)[k].1.typ, raw, None).value)
                  == Ok(Canon(conv, FieldsOf(t)[k].1.typ, raw).value)
    ensures Decode(conv, t, JObj(m), None).Ok? && Decode(conv, t, JObj(m), None).value.VObj?
    ensures var inst := Decode(conv, t, JObj(m), None).value.inst;
            inst.typ == t
            && forall k :: 0 <= k < |FieldsOf(t)| ==>
                 && (Declared(inst, k) <==> HasKey(m, FieldsOf(t)[k].1.graphqlName))
                 && (Declared(inst, k) ==>
                       Converted(inst, k)
                       == Ok(Canon(conv, FieldsOf(t)[k].1.typ, Get(m, FieldsOf(t)[k].1.graphqlName).value).value))
  {
    assert forall k :: 0 <= k < |FieldsOf(t)| ==> PlanOk(conv, t, None, m, k);
    ObjectDeclared(conv, t, m);
    ObjectConverted(conv, t, m);
  }

  /** Under the same conditions, the instance declares exactly the fields
      whose wire names the input has. */
  lemma ObjectDeclared(conv: Converter, t: GType, m: OMap<Json>)
    requires IsContainer(t) && UniqueKeys(FieldsOf(t))
    requires forall k :: 0 <= k < |FieldsOf(t)| ==> FieldsOf(t)[k].1.name == FieldsOf(t)[k].0
    requires forall k :: 0 <= k < |FieldsOf(t)| ==> PlanOk(conv, t, None, m, k)
    ensures Decode(conv, t, JObj(m), None).Ok? && Decode(conv, t, JObj(m), None).value.VObj?
    ensures var inst := Decode(conv, t, JObj(m), None).value.inst;
            inst.typ == t
            && forall k :: 0 <= k < |FieldsOf(t)| ==> (Declared(inst, k) <==> HasKey(m, FieldsOf(t)[k].1.graphqlName))
  {
    var fs := FieldsOf(t);
    DecodeObject(conv, t, m, None);
    var inst := Decode(conv, t, JObj(m), None).value.inst;
    forall k | 0 <= k < |fs| ensures Declared(inst, k) <==> HasKey(m, fs[k].1.graphqlName) {
      assert Planned(t, None, k).0 == fs[k].0;
      if HasKey(m, fs[k].1.graphqlName) {
        assert Present(t, None, m, k);
      }
      if Declared(inst, k) {
        var k' :| 0 <= k' < |fs| && Planned(t, None, k').0 == fs[k].0 && Present(t, None, m, k');
        assert fs[k'].0 == fs[k].0;
      }
    }
  }

  /** Under the same conditions, each declared field converts to the
      reference value of its raw value. */
  lemma ObjectConverted(conv: Converter, t: GType, m: OMap<Json>)
    requires IsContainer(t) && UniqueKeys(FieldsOf(t))
    requires forall k :: 0 <= k < |FieldsOf(t)| ==> FieldsOf(t)[k].1.name == FieldsOf(t)[k].0
    requires forall k :: 0 <= k < |FieldsOf(t)| ==> PlanOk(conv, t, None, m, k)
    requires forall k :: 0 <= k < |FieldsOf(t)| && HasKey(m, FieldsOf(t)[k].1.graphqlName) ==>
               var raw := Get(m, FieldsOf(t)[k].1.graphqlName).value;
               && Canon(conv, FieldsOf(t)[k].1.typ, raw).Some?
               && Decode(conv, FieldsOf(t)[k].1.typ, raw, None).Ok?
               && ToJson(FieldsOf(t)[k].1.typ, Decode(conv, FieldsOf(t)[k].1.typ, raw, None).value)
                  == Ok(Canon(conv, FieldsOf(t)[k].1.typ, raw).value)
    ensures Decode(conv, t, JObj(m), None).Ok? && Decode(conv, t, JObj(m), None).value.VObj?
    ensures var inst := Decode(conv, t, JObj(m), None).value.inst;
            inst.typ == t
            && forall k :: 0 <= k < |FieldsOf(t)| && HasKey(m, FieldsOf(t)[k].1.graphqlName) ==>
                 Declared(inst, k)
                 && Converted(inst, k)
                    == Ok(Canon(conv, FieldsOf(t)[k].1.typ, Get(m, FieldsOf(t)[k].1.graphqlName).value).value)
  {
    var fs := FieldsOf(t);
    ObjectDeclared(conv, t, m);
    DecodeObject(conv, t, m, None);
    var inst := Decode(conv, t, JObj(m), None).value.inst;
    forall k | 0 <= k < |fs| && HasKey(m, fs[k].1.graphqlName)
      ensures Declared(inst, k)
      ensures Converted(inst, k) == Ok(Canon(conv, fs[k].1.typ, Get(m, fs[k].1.graphqlName).value).value)
    {
      assert Planned(t, None, k) == (fs[k].0, fs[k].1);
      assert LastFor(t, None, m, k);
      assert Get(inst.attrs, fs[k].0).value == Decode(conv, fs[k].1.typ, Get(m, fs[k].1.graphqlName).value, None).value;
    }
  }

  /** Decoding without a selection and then taking the snapshot gives the
      reference JSON, whenever there is one: for well-formed types the
      round trip through Python objects loses exactly the undeclared keys. */
  lemma {:induction false} RoundTripLaw(conv: Converter, t: GType, x: Json)
    requires WellFormed(t) && Canon(conv, t, x).Some?
    ensures Decode(conv, t, x, None).Ok?
    ensures ToJson(t, Decode(conv, t, x, None).value) == Ok(Canon(conv, t, x).value)
    decreases t
  {
    match t
    case ScalarT(_, _, _, _) =>
    case EnumT(_, _, _, _) =>
    case NonNullT(b) =>
      RoundTripLaw(conv, b, x);
      ToJsonNonNull(b, Decode(conv, b, x, None).value);
    case ListOfT(b) =>
      if x != JNull {
        CanonItemsLaw(conv, b, x.items);
        forall k | 0 <= k < |x.items|
          ensures && Decode(conv, b, x.items[k], None).Ok?
                  && ToJson(b, Decode(conv, b, x.items[k], None).value) == Ok(Canon(conv, b, x.items[k]).value)
        {
          RoundTripLaw(conv, b, x.items[k]);
        }
        ListRoundTrip(conv, b, x.items);
      }
    case RootT(k) =>
      if ContainerKind(k) {
        if x == JNull {
          NullSnapshot(conv, t, None);
        } else {
          ObjectRoundTrip(conv, t, x.members);
        }
      }
    case ContainerT(_, _, _, _, _, fs) =>
      if x == JNull {
        NullSnapshot(conv, t, None);
      } else {
        var m := x.members;
        CanonFieldsSome(conv, t, m, 0, []);
        forall k | 0 <= k < |fs| && HasKey(m, fs[k].1.graphqlName)
          ensures var raw := Get(m, fs[k].1.graphqlName).value;
                  && Decode(conv, fs[k].1.typ, raw, None).Ok?
                  && ToJson(fs[k].1.typ, Decode(conv, fs[k].1.typ, raw, None).value)
                     == Ok(Canon(conv, fs[k].1.typ, raw).value)
        {
          assert fs[k] in fs;
          RoundTripLaw(conv, fs[k].1.typ, Get(m, fs[k].1.graphqlName).value);
        }
        ObjectRoundTrip(conv, t, m);
      }
  }
}

=== FILE: scenario.dfy ===
/** The declarations of a small schema, worked through the model: an
    interface `Node` with an `id`, and a type `Person(Type, Node)` adding a
    `name`. */
module Scenario {
  import opened Prelude
  import opened OrderedMaps
  import opened JsonValues
  import opened Types
  import opened Registry
  import opened Naming
  import opened Sorting
  import opened Builder
  import opened Declarations
  import opened Text
  import opened Render
  import opened Codec
  import opened Snapshot
  import opened RoundTrip

  const IdType: GType := Builtin(PyId)
  const StrType: GType := Builtin(PyStr)

  /** `class Node(Interface): id = ID`, for any type of the `id` member. */
  function NodeDeclOf(idType: GType): ContainerDecl
  {
    ContainerDecl(10, "Node", InterfaceKind, [RootT(InterfaceKind)], [("id", TypeMember(idType))], true)
  }

  function NodeDecl(): ContainerDecl
  {
    NodeDeclOf(IdType)
  }

  /** Node's own `id` member becomes its one field. */
  lemma NodeOwn(idType: GType)
    ensures var d := NodeDeclOf(idType);
            OwnFields(InheritFields(d.bases), d.members, SortNames(Keys(d.members)))
              == [("id", Field("id", "id", idType, []))]
  {
    var d := NodeDeclOf(idType);
    var ms := d.members;
    var f := Field("id", "id", idType, []);
    SingleInherit(RootT(InterfaceKind));
    assert Update<Field>([], []) == [];
    assert InheritFields(d.bases) == [];
    assert Keys(ms) == ["id"];
    assert SortNames(["id"]) == ["id"];
    assert ToGraphqlName("id") == "id";
    assert AttachArgs([]) == [];
    assert OwnField(ms, "id") == Some(f);
    assert Find<Field>([], "id") == None;
    assert Put([], "id", f) == [("id", f)];
    assert OwnFields([("id", f)], ms, []) == [("id", f)];
    assert OwnFields([], ms, ["id"]) == [("id", f)];
  }

  /** Node's kind and fields do not depend on how its interfaces are
      listed. */
  lemma NodeConstruct(idType: GType, skipRoots: bool)
    ensures Construct(0, NodeDeclOf(idType), skipRoots)
            == ContainerT(10, 0, "Node", InterfaceKind, Collect([RootT(InterfaceKind)], [], skipRoots),
                          [("id", Field("id", "id", idType, []))])
  {
    assert ContainerBases(NodeDeclOf(idType).bases) by {
      assert MetaOf(RootT(InterfaceKind)) == ContainerMeta;
    }
    ConstructFull(0, NodeDeclOf(idType), skipRoots);
    NodeOwn(idType);
    InterfaceStays();
  }

  /** An interface whose only base is `Interface` stays an interface. */
  lemma InterfaceStays()
    ensures FixKind(InterfaceKind, [RootT(InterfaceKind)]) == InterfaceKind
  {
    assert KindOf(RootT(InterfaceKind)) == InterfaceKind;
  }

  /** `class Person(Type, Node)` with `name = str`. */
  function PersonDecl(node: GType): ContainerDecl
  {
    PersonDeclOf(node, StrType)
  }

  /** The same statement for any type of the `name` member. */
  function PersonDeclOf(node: GType, nameType: GType): ContainerDecl
  {
    ContainerDecl(11, "Person", TypeKind, [RootT(TypeKind), node], [("name", TypeMember(nameType))], true)
  }

  const IdField: Field := Field("id", "id", IdType, [])
  const NameField: Field := Field("name", "name", StrType, [])

  /** Node as declared: an interface with the one field `id`. */
  const NodeType: GType := ContainerT(10, 0, "Node", InterfaceKind, [], [("id", IdField)])

  lemma NodeInterfaces()
    ensures Collect([RootT(InterfaceKind)], [], true) == []
  {
    assert AddMissing([], []) == [];
    assert Collect([RootT(InterfaceKind)], [], true) == Collect([], [], true);
  }

  lemma NodeBuilt()
    ensures BuildContainer(0, NodeDecl()) == NodeType
  {
    NodeConstruct(IdType, true);
    NodeInterfaces();
  }

  /** Person as declared: a type implementing Node, with Node's `id` first
      and its own `name` after it. */
  const PersonType: GType :=
    ContainerT(11, 0, "Person", TypeKind, [NodeType], [("id", IdField), ("name", NameField)])

  lemma PersonInherited(node: GType, id: Field)
    requires TableOf(node) == [("id", id)]
    ensures InheritFields([RootT(TypeKind), node]) == [("id", id)]
  {
    var bs := [RootT(TypeKind), node];
    assert bs[..1] == [RootT(TypeKind)];
    assert [RootT(TypeKind)][..0] == [];
    assert Inherit([], [RootT(TypeKind)]) == Update(Inherit([], []), []) == [];
    assert Put<Field>([], "id", id) == [("id", id)];
    assert Update([], [("id", id)]) == Update([("id", id)], []) == [("id", id)];
  }

  /** Person's own `name` member is appended after the inherited `id`. */
  lemma PersonOwn(id: Field, nameType: GType)
    ensures var ms := PersonDeclOf(NodeType, nameType).members;
            OwnFields([("id", id)], ms, SortNames(Keys(ms)))
              == [("id", id), ("name", Field("name", "name", nameType, []))]
  {
    var ms := PersonDeclOf(NodeType, nameType).members;
    var f := Field("name", "name", nameType, []);
    assert Keys(ms) == ["name"];
    assert SortNames(["name"]) == ["name"];
    assert ToGraphqlName("name") == "name";
    assert AttachArgs([]) == [];
    assert OwnField(ms, "name") == Some(f);
    assert Find([("id", id)], "name") == None;
    assert Put([("id", id)], "name", f) == [("id", id), ("name", f)];
    assert OwnFields([("id", id)], ms, ["name"]) == OwnFields([("id", id), ("name", f)], ms, []);
  }

  /** Person's kind and fields do not depend on how Node lists its
      interfaces. */
  lemma PersonConstruct(node: GType, nameType: GType, skipRoots: bool)
    requires TableOf(node) == [("id", IdField)]
    ensures Construct(0, PersonDeclOf(node, nameType), skipRoots)
            == ContainerT(11, 0, "Person", TypeKind, Collect([RootT(TypeKind), node], [], skipRoots),
                          [("id", IdField), ("name", Field("name", "name", nameType, []))])
  {
    var d := PersonDeclOf(node, nameType);
    assert ContainerBases(d.bases) by {
      TableMeta(node);
      assert MetaOf(RootT(TypeKind)) == ContainerMeta && MetaOf(node) == ContainerMeta;
    }
    ConstructFull(0, d, skipRoots);
    PersonInherited(node, IdField);
    PersonOwn(IdField, nameType);
    assert d.members == PersonDeclOf(NodeType, nameType).members;
    TypeStays(node);
  }

  /** A type stays a type whatever its bases. */
  lemma TypeStays(node: GType)
    ensures FixKind(TypeKind, [RootT(TypeKind), node]) == TypeKind
  {
  }

  lemma PersonInterfaces()
    ensures Collect([RootT(TypeKind), NodeType], [], true) == [NodeType]
  {
    assert AddMissing([], []) == [];
    assert Collect([RootT(TypeKind), NodeType], [], true) == Collect([NodeType], [], true);
    assert AddMissing([NodeType], []) == [NodeType];
    assert Collect([NodeType], [], true) == Collect([], [NodeType], true);
  }

  /** Node and Person as the class statements build them. Person implements
      Node alone: the abstract `Interface` class is listed nowhere. */
  lemma PersonBuilt()
    ensures BuildContainer(0, NodeDecl()) == NodeType
    ensures BuildContainer(0, PersonDecl(BuildContainer(0, NodeDecl()))) == PersonType
  {
    NodeBuilt();
    PersonConstruct(NodeType, StrType, true);
    PersonInterfaces();
  }

  /** `class Node(Interface)` as the source leaves it: registered with the
      abstract `Interface` class among its interfaces, and without the `id`
      field, since the statement raises before own members become fields. */
  const NodeAsWritten: GType := ContainerT(10, 0, "Node", InterfaceKind, [RootT(InterfaceKind)], [])

  /** One step of `__populate_interfaces`. */
  lemma CollectCons(b: GType, bs: seq<GType>, acc: seq<GType>, skipRoots: bool)
    ensures Collect([b] + bs, acc, skipRoots)
            == Collect(bs, AddMissing(if Admits(b, skipRoots) then acc + [b] else acc, InterfacesOf(b)), skipRoots)
  {
    assert ([b] + bs)[1..] == bs;
  }

  lemma NodeInterfacesAsWritten()
    ensures Collect([RootT(InterfaceKind)], [], false) == [RootT(InterfaceKind)]
  {
    var root := RootT(InterfaceKind);
    CollectCons(root, [], [], false);
    assert [root] + [] == [root];
  }

  lemma NodeInterruptedAsWritten()
    ensures Interrupted(0, NodeDecl()) == NodeAsWritten
  {
    var d := NodeDecl();
    var bs := [RootT(InterfaceKind)];
    assert d.bases == bs;
    assert bs[..0] == [];
    assert TableOf(bs[0]) == [];
    assert InheritFields(bs) == Update(Inherit([], []), []) == [];
    assert MetaOf(bs[0]) == ContainerMeta;
    assert ContainerBases(bs);
    assert InheritedPart(bs) == [];
    InterfaceStays();
    NodeInterfacesAsWritten();
    assert Interrupted(0, d) == ContainerT(d.uid, 0, d.name, FixKind(d.kind, bs), InterfacesAsWritten(bs), InheritedPart(bs));
  }

  lemma NodeFresh()
    ensures !Registry.Contains(Default(), "Node")
    ensures ContainerBases(NodeDecl().bases) && !AnyEnumBase(NodeDecl().bases)
  {
    assert MetaOf(RootT(InterfaceKind)) == ContainerMeta;
    var s := Default();
    assert Keys(s.all) == ["Int", "Float", "String", "Boolean", "ID"];
    assert !HasKey(s.all, "Node");
  }

  /** As the source runs it, `class Node(Interface)` raises `TypeError`,
      with Node already registered without its `id` field. */
  lemma NodeDeclaredAsWritten()
    ensures var o := DeclareContainerAsWritten(Default(), NodeDecl());
            && o.raised == Some(DirFailed("Node"))
            && Lookup(o.state, "Node") == Ok(NodeAsWritten)
            && Get(KindTable(o.state, InterfaceKind), "Node") == Some(NodeAsWritten)
  {
    NodeFresh();
    NodeInterruptedAsWritten();
  }

  /** Corrected, the statement completes and registers Node with its
      field. */
  lemma NodeDeclared()
    ensures var o := DeclareContainer(Default(), NodeDecl());
            && o.raised.None?
            && Lookup(o.state, "Node") == Ok(NodeType)
            && Get(KindTable(o.state, InterfaceKind), "Node") == Some(NodeType)
  {
    NodeFresh();
    NodeBuilt();
    InterfaceStays();
  }

  lemma PersonFieldTexts(dumps: Dumps)
    ensures FieldText(dumps, IdField, 0, "  ") == Ok("id: ID")
    ensures FieldText(dumps, NameField, 0, "  ") == Ok("name: String")
  {
    assert Name(IdType) == "ID" && Name(StrType) == "String";
    assert "id" + ": " + "ID" == "id: ID";
    assert "name" + ": " + "String" == "name: String";
  }

  lemma PersonLines(h: string)
    ensures [h] + Prefixed(Prefix("  ", 1), ["id: ID", "name: String"]) + [Prefix("  ", 0) + "}"]
            == [h, "  id: ID", "  name: String", "}"]
  {
    assert Prefix("  ", 0) == "" && Prefix("  ", 1) == "  ";
    var ps := Prefixed("  ", ["id: ID", "name: String"]);
    assert ps[0] == "  id: ID" && ps[1] == "  name: String";
    assert ps == ["  id: ID", "  name: String"];
    assert "" + "}" == "}";
  }

  /** Person's text for any list of interfaces: the header, then its two
      fields one level deeper, then the closing brace. */
  lemma PersonTextWith(dumps: Dumps, interfaces: seq<GType>)
    ensures TypeText(dumps, ContainerT(11, 0, "Person", TypeKind, interfaces, [("id", IdField), ("name", NameField)]), 0, "  ")
              == Ok(Join([Header("type Person", interfaces), "  id: ID", "  name: String", "}"], "\n"))
  {
    var t := ContainerT(11, 0, "Person", TypeKind, interfaces, [("id", IdField), ("name", NameField)]);
    assert Prefix("  ", 0) == "";
    assert BaseText(t, 0, "  ") == "type Person";
    var xs := Values(t.fields);
    assert xs == [IdField, NameField];
    PersonFieldTexts(dumps);
    var f := (x: Field) => FieldText(dumps, x, 0, "  ");
    assert f(xs[0]) == Ok("id: ID") && f(xs[1]) == Ok("name: String");
    var m := MapAll(f, xs);
    assert m.Ok? && |m.value| == 2 && m.value[0] == "id: ID" && m.value[1] == "name: String";
    assert m.value == ["id: ID", "name: String"];
    PersonLines(Header("type Person", interfaces));
  }

  /** The header of a container implementing one interface. */
  lemma HeaderOfOne(base: string, a: GType)
    ensures Header(base, [a]) == base + " implements " + Name(a) + " {"
  {
    assert NamesOf([a]) == [Name(a)];
  }

  lemma HeaderOne(a: GType)
    requires Name(a) == "Node"
    ensures Header("type Person", [a]) == "type Person implements Node {"
  {
    HeaderOfOne("type Person", a);
    assert "type Person" + " implements " + "Node" + " {" == "type Person implements Node {";
  }

  /** The text of Person: it implements Node and nothing else. */
  lemma PersonText(dumps: Dumps)
    ensures TypeText(dumps, PersonType, 0, "  ")
              == Ok(Join(["type Person implements Node {", "  id: ID", "  name: String", "}"], "\n"))
  {
    PersonTextWith(dumps, [NodeType]);
    HeaderOne(NodeType);
  }

  /** As the source leaves it, Node's text claims the abstract `Interface`
      and has no field line. */
  lemma NodeTextAsWritten(dumps: Dumps)
    ensures TypeText(dumps, NodeAsWritten, 0, "  ")
              == Ok(Join(["interface Node implements Interface {", "}"], "\n"))
  {
    assert Prefix("  ", 0) == "";
    assert FieldLines(dumps, [], 0, "  ") == Ok([]);
    NodeHeaderAsWritten();
    assert Prefixed(Prefix("  ", 1), []) == [];
    assert "" + "}" == "}";
  }

  /** As the source leaves it, Node's first line names `Interface`. */
  lemma NodeHeaderAsWritten()
    ensures Header(BaseText(NodeAsWritten, 0, "  "), Builder.InterfacesOf(NodeAsWritten))
            == "interface Node implements Interface {"
  {
    assert Prefix("  ", 0) == "";
    assert BaseText(NodeAsWritten, 0, "  ") == "interface Node";
    NodeInterfaceHeader();
  }

  /** The header line of a Node that names the abstract `Interface`. */
  lemma NodeInterfaceHeader()
    ensures Header("interface Node", [RootT(InterfaceKind)]) == "interface Node implements Interface {"
  {
    HeaderOfOne("interface Node", RootT(InterfaceKind));
    assert Name(RootT(InterfaceKind)) == "Interface";
    assert "interface Node" + " implements " + "Interface" + " {" == "interface Node implements Interface {";
  }

  /** Corrected, Node's text names no interface and lists `id`. */
  lemma NodeText(dumps: Dumps)
    ensures TypeText(dumps, NodeType, 0, "  ")
              == Ok(Join(["interface Node {", "  id: ID", "}"], "\n"))
  {
    assert Prefix("  ", 0) == "" && Prefix("  ", 1) == "  ";
    assert BaseText(NodeType, 0, "  ") == "interface Node";
    PersonFieldTexts(dumps);
    assert Header("interface Node", []) == "interface Node {";
    var ls := FieldLines(dumps, NodeType.fields, 0, "  ");
    assert NodeType.fields[0].1 == IdField;
    assert ls.Ok? && |ls.value| == 1 && ls.value[0] == "id: ID";
    assert ls.value == ["id: ID"];
    var ps := Prefixed("  ", ["id: ID"]);
    assert ps[0] == "  id: ID" && ps == ["  id: ID"];
    assert "" + "}" == "}";
    assert ["interface Node {"] + ps + ["}"] == ["interface Node {", "  id: ID", "}"];
  }

  /** `non_null(Node)` is a container class of its own whose only base is
      the interface Node, so it lists Node among its interfaces and keeps
      Node's `id` field. */
  lemma NonNullNodeText(dumps: Dumps)
    ensures TypeText(dumps, NonNullT(NodeType), 0, "  ")
              == Ok(Join(["interface Node! implements Node {", "  id: ID", "}"], "\n"))
  {
    var w := NonNullT(NodeType);
    NonNullNodeParts();
    PersonFieldTexts(dumps);
    var ls := FieldLines(dumps, TableOf(w), 0, "  ");
    assert ls.Ok? && |ls.value| == 1 && ls.value[0] == "id: ID";
    assert ls.value == ["id: ID"];
    var ps := Prefixed("  ", ["id: ID"]);
    assert ps[0] == "  id: ID" && ps == ["  id: ID"];
    assert "" + "}" == "}";
    assert ["interface Node! implements Node {"] + ps + ["}"] == ["interface Node! implements Node {", "  id: ID", "}"];
  }

  /** The pieces `non_null(Node)` renders from: its first line, its
      interfaces and its field table. */
  lemma NonNullNodeParts()
    ensures var w := NonNullT(NodeType);
            && Core(w) == NodeType
            && Prefix("  ", 0) == "" && Prefix("  ", 1) == "  "
            && Header(BaseText(w, 0, "  "), Builder.InterfacesOf(w)) == "interface Node! implements Node {"
            && TableOf(w) == [("id", IdField)]
  {
    var w := NonNullT(NodeType);
    assert Prefix("  ", 0) == "" && Prefix("  ", 1) == "  ";
    NonNullNodeFirst();
    NonNullNodeInterfaces();
    NonNullNodeHeader();
    assert TableOf(w) == NodeType.fields;
  }

  /** The header line of `non_null(Node)` once its pieces are known. */
  lemma NonNullNodeHeader()
    ensures Header("interface Node!", [NodeType]) == "interface Node! implements Node {"
  {
    HeaderOfOne("interface Node!", NodeType);
    assert "interface Node!" + " implements " + "Node" + " {" == "interface Node! implements Node {";
  }

  /** `non_null(Node)` opens as an interface named `Node!`. */
  lemma NonNullNodeFirst()
    ensures BaseText(NonNullT(NodeType), 0, "  ") == "interface Node!"
  {
    var w := NonNullT(NodeType);
    assert Prefix("  ", 0) == "";
    assert Name(w) == "Node" + "!" == "Node!";
    assert KindOf(NodeType) == InterfaceKind;
    assert KindOf(w) == InterfaceKind;
    assert BaseText(w, 0, "  ") == "" + "interface" + " " + "Node!" == "interface Node!";
  }

  /** The one interface of `non_null(Node)` is Node itself. */
  lemma NonNullNodeInterfaces()
    ensures Builder.InterfacesOf(NonNullT(NodeType)) == [NodeType]
  {
    assert KindOf(NodeType) == InterfaceKind;
    assert Admits(NodeType, true);
    assert Builder.InterfacesOf(NodeType) == [];
    assert AddMissing([NodeType], []) == [NodeType];
  }

  /** A converter that leaves strings as they are, as `str` does. */
  ghost predicate KeepsStrings(conv: Converter)
  {
    forall x :: conv("str", JStr(x)) == Ok(JStr(x))
  }

  /** The JSON of one person. */
  const Ada: Json := JObj([("id", JStr("42")), ("name", JStr("Ada"))])

  lemma PersonWellFormed()
    ensures WellFormed(PersonType)
  {
    var fs := PersonType.fields;
    assert fs[0] != fs[1];
    assert UniqueKeys(fs);
  }

  lemma PersonCanon(conv: Converter)
    requires KeepsStrings(conv)
    ensures Canon(conv, PersonType, Ada) == Some(Ada)
  {
    var m := Ada.members;
    assert Get(m, "id") == Some(JStr("42"));
    assert Get(m, "name") == Some(JStr("Ada"));
    assert Canon(conv, IdType, JStr("42")) == Some(JStr("42"));
    assert Canon(conv, StrType, JStr("Ada")) == Some(JStr("Ada"));
    assert Put([], "id", JStr("42")) == [("id", JStr("42"))];
    assert Put([("id", JStr("42"))], "name", JStr("Ada")) == m;
    assert CanonFields(conv, PersonType, m, 2, m) == Some(m);
    assert CanonFields(conv, PersonType, m, 1, [("id", JStr("42"))]) == Some(m);
    assert CanonFields(conv, PersonType, m, 0, []) == Some(m);
  }

  /** The two planned assignments of Person, both present in Ada. */
  lemma AdaPlanned(m: OMap<Json>)
    requires m == Ada.members
    ensures PlanSize(PersonType, None) == 2
    ensures Planned(PersonType, None, 0) == ("id", IdField) && Planned(PersonType, None, 1) == ("name", NameField)
    ensures Present(PersonType, None, m, 0) && Present(PersonType, None, m, 1)
    ensures Raw(PersonType, None, m, 0) == JStr("42") && Raw(PersonType, None, m, 1) == JStr("Ada")
    ensures LastFor(PersonType, None, m, 0) && LastFor(PersonType, None, m, 1)
  {
    assert WireOf(PersonType, None, 0) == "id" && WireOf(PersonType, None, 1) == "name";
    assert Get(m, "id") == Some(JStr("42")) && Get(m, "name") == Some(JStr("Ada"));
  }

  /** Decoding Ada sets `id` and `name` to the two strings. */
  lemma AdaAttributes(conv: Converter)
    requires KeepsStrings(conv)
    ensures Decode(conv, PersonType, Ada, None).Ok?
    ensures var inst := Decode(conv, PersonType, Ada, None).value.inst;
            && GetAttr(inst, "id") == Ok(VJson(JStr("42")))
            && GetAttr(inst, "name") == Ok(VJson(JStr("Ada")))
  {
    var m := Ada.members;
    AdaPlanned(m);
    DecodeObject(conv, PersonType, m, None);
    assert Decode(conv, IdType, JStr("42"), None) == Ok(VJson(JStr("42")));
    assert Decode(conv, StrType, JStr("Ada"), None) == Ok(VJson(JStr("Ada")));
    assert PlanOk(conv, PersonType, None, m, 0) && PlanOk(conv, PersonType, None, m, 1);
    assert forall k :: 0 <= k < PlanSize(PersonType, None) ==> PlanOk(conv, PersonType, None, m, k);
  }

  /** Decoding one person gives an instance whose `id` and `name` are the
      two strings, and its snapshot is the JSON it was decoded from. */
  lemma PersonRoundTrip(conv: Converter)
    requires KeepsStrings(conv)
    ensures Decode(conv, PersonType, Ada, None).Ok?
    ensures var inst := Decode(conv, PersonType, Ada, None).value.inst;
            && GetAttr(inst, "id") == Ok(VJson(JStr("42")))
            && GetAttr(inst, "name") == Ok(VJson(JStr("Ada")))
    ensures ToJson(PersonType, Decode(conv, PersonType, Ada, None).value) == Ok(Ada)
  {
    AdaAttributes(conv);
    PersonWellFormed();
    PersonCanon(conv);
    RoundTripLaw(conv, PersonType, Ada);
  }

  /** `class Both(Interface, Type)`: declared as an interface, promoted to
      a type by its second base. */
  function BothDecl(): ContainerDecl
  {
    ContainerDecl(13, "Both", InterfaceKind, [RootT(InterfaceKind), RootT(TypeKind)], [], true)
  }

  lemma BothFresh()
    ensures !Registry.Contains(Default(), "Both")
    ensures AnyTypeBase(BothDecl().bases)
    ensures ContainerBases(BothDecl().bases) && !AnyEnumBase(BothDecl().bases)
    ensures StopAsWritten(BothDecl()) == DirFailed("Both")
  {
    assert KindOf(BothDecl().bases[1]) == TypeKind;
    assert MetaOf(RootT(InterfaceKind)) == ContainerMeta && MetaOf(RootT(TypeKind)) == ContainerMeta;
    var s := Default();
    assert Keys(s.all) == ["Int", "Float", "String", "Boolean", "ID"];
    assert !HasKey(s.all, "Both");
  }

  /** As the source runs it, the statement raises with `Both` registered;
      `schema -= Both` on that class then raises `KeyError` and leaves
      `Both` out of the name table but still in the `interface` table. */
  lemma BothNotRemovable()
    ensures DeclareContainerAsWritten(Default(), BothDecl()).raised == Some(DirFailed("Both"))
    ensures var s := DeclareContainerAsWritten(Default(), BothDecl()).state;
            var t := Interrupted(0, BothDecl());
            && Remove(s, t).raised.Some?
            && !Registry.Contains(Remove(s, t).state, "Both")
            && Get(KindTable(Remove(s, t).state, InterfaceKind), "Both") == Some(t)
  {
    BothFresh();
    PromotedNotRemovable(Default(), BothDecl());
  }

  /** With the class filed under the kind it ends up with, `schema -= Both`
      succeeds and gives back the default name table. */
  lemma BothRemovable()
    ensures var s := DeclareContainer(Default(), BothDecl()).state;
            var t := BuildContainer(0, BothDecl());
            && KindOf(t) == TypeKind
            && Remove(s, t).raised.None?
            && Remove(s, t).state.all == Default().all
  {
    BothFresh();
    DeclaredRemovable(Default(), BothDecl());
  }
}

=== FILE: snapshot.dfy ===
/** Turning values back into JSON (`__to_json_value__`) and keeping an
    instance's backing JSON store in step with assignments
    (`ContainerType.__setattr__`), together with the instance protocol:
    attribute lookup, `in`, iteration and length. */
module Snapshot {
  import opened Prelude
  import opened OrderedMaps
  import opened JsonValues
  import opened Types
  import opened Codec
  import opened FieldLoop

  /** `t.__to_json_value__(x)` for a value that is plain JSON. Scalars and
      enums return it unchanged; a union has no such method, nor has the
      root `Union`; a container
      class maps null to null and has nothing to read from other JSON; the
      non-null wrapper inherits its base's; the list wrapper maps null to
      null and converts what iterating the value yields. */
  function JsonOf(t: GType, x: Json): (r: Result<Json, Error>)
    ensures PassThrough(t) ==> r == Ok(x)
    ensures (IsContainer(t) || t.ListOfT?) && x == JNull ==> r == Ok(JNull)
    ensures t.UnionT? || t == RootT(UnionKind) ==> r == Err(NoConversion(Name(t)))
    decreases t, 0
  {
    match t
    case ScalarT(_, _, _, _) => Ok(x)
    case EnumT(_, _, _, _) => Ok(x)
    case UnionT(_, _, name, _) => Err(NoConversion(name))
    case RootT(ScalarKind) => Ok(x)
    case RootT(EnumKind) => Ok(x)
    case RootT(UnionKind) => Err(NoConversion(Name(t)))
    case NonNullT(b) => JsonOf(b, x)
    case ListOfT(b) =>
      if x == JNull then Ok(JNull)
      else
        (match Iterate(x)
         case None => Err(NotIterable(x))
         case Some(xs) =>
           var ys :- JsonItems(b, xs);
           Ok(JArr(ys)))
    case _ => if x == JNull then Ok(JNull) else Err(NoConversion(Name(t)))
  }

  /** `[t.__to_json_value__(v) for v in xs]` for JSON items. */
  function JsonItems(b: GType, xs: seq<Json>): (r: Result<seq<Json>, Error>)
    ensures r.Ok? ==> |r.value| == |xs|
    decreases b, 1, |xs|
  {
    if |xs| == 0 then Ok([])
    else
      var y :- JsonOf(b, xs[0]);
      var ys :- JsonItems(b, xs[1..]);
      Ok([y] + ys)
  }

  /** A value as it is, read as JSON: plain JSON unchanged, a Python list
      as an array of its items; an instance is not JSON. */
  function AsIs(v: Value): (r: Option<Json>)
    ensures v.VJson? ==> r == Some(v.j)
    ensures v.VObj? ==> r.None?
    ensures v.VList? ==> (r.Some? <==> forall i :: 0 <= i < |v.items| ==> AsIs(v.items[i]).Some?)
    ensures v.VList? && r.Some? ==>
              && r.value.JArr? && |r.value.items| == |v.items|
              && forall i :: 0 <= i < |v.items| ==> r.value.items[i] == AsIs(v.items[i]).value
    decreases v, 0
  {
    match v
    case VJson(x) => Some(x)
    case VObj(_) => None
    case VList(items) =>
      if forall i :: 0 <= i < |items| ==> AsIs(items[i]).Some? then
        Some(JArr(seq(|items|, i requires 0 <= i < |items| => AsIs(items[i]).value)))
      else None
  }

  /** What a scalar or an enum returns from `__to_json_value__`: the value
      itself. */
  function AsJson(v: Value): (r: Result<Json, Error>)
    ensures r.Ok? <==> AsIs(v).Some?
    ensures r.Ok? ==> r.value == AsIs(v).value
    ensures r.Err? ==> r.error == NotJson
    decreases v, 0
  {
    match AsIs(v)
    case Some(x) => Ok(x)
    case None => Err(NotJson)
  }

  /** `t.__to_json_value__(v)`. A container instance is converted by its
      own class (`ContainerType.__to_json_value__` reads `self.__class__`);
      a Python list under a list wrapper is converted item by item; an
      instance under a list wrapper is iterated, which yields its attribute
      names. */
  function ToJson(t: GType, v: Value): (r: Result<Json, Error>)
    ensures v.VJson? ==> r == JsonOf(t, v.j)
    ensures PassThrough(t) ==> (r.Ok? <==> AsIs(v).Some?) && (r.Ok? ==> r.value == AsIs(v).value)
    decreases v, 1, t
  {
    match v
    case VJson(x) => JsonOf(t, x)
    case VList(items) =>
      (match t
       case NonNullT(b) => ToJson(b, v)
       case ListOfT(b) =>
         var ys :- ToJsonItems(b, v, 0);
         Ok(JArr(ys))
       case UnionT(_, _, name, _) => Err(NoConversion(name))
       case ScalarT(_, _, _, _) => AsJson(v)
       case EnumT(_, _, _, _) => AsJson(v)
       case RootT(ScalarKind) => AsJson(v)
       case RootT(EnumKind) => AsJson(v)
       case _ => Err(NoConversion(Name(t))))
    case VObj(inst) =>
      (match t
       case NonNullT(b) => ToJson(b, v)
       case ListOfT(b) =>
         var ys :- JsonItems(b, seq(|inst.cache|, k requires 0 <= k < |inst.cache| => JStr(inst.cache[k].0)));
         Ok(JArr(ys))
       case UnionT(_, _, name, _) => Err(NoConversion(name))
       case ScalarT(_, _, _, _) => AsJson(v)
       case EnumT(_, _, _, _) => AsJson(v)
       case RootT(ScalarKind) => AsJson(v)
       case RootT(EnumKind) => AsJson(v)
       case RootT(UnionKind) => Err(NoConversion(Name(t)))
       case _ =>
         var d :- Fields(inst, v, 0, []);
         Ok(JObj(d)))
  }

  /** The items of a Python list from the i-th on, converted in order. */
  function ToJsonItems(b: GType, v: Value, i: nat): (r: Result<seq<Json>, Error>)
    requires v.VList? && i <= |v.items|
    ensures r.Ok? ==> |r.value| == |v.items| - i
    decreases v, 0, |v.items| - i
  {
    if i == |v.items| then Ok([])
    else
      assert v.items[i] in v.items;
      var y :- ToJson(b, v.items[i]);
      var ys :- ToJsonItems(b, v, i + 1);
      Ok([y] + ys)
  }

  /** One step of converting a Python list. */
  lemma ItemsStep(b: GType, v: Value, i: nat)
    requires v.VList? && i < |v.items|
    requires ToJson(b, v.items[i]).Ok? && ToJsonItems(b, v, i + 1).Ok?
    ensures ToJsonItems(b, v, i) == Ok([ToJson(b, v.items[i]).value] + ToJsonItems(b, v, i + 1).value)
  {
  }

  /** `ContainerTypeMeta.__to_json_value__` on an instance, from the k-th
      field of its class on: every declared field the instance has an
      attribute for is converted by the field's type and stored under the
      field's wire name. Attributes that are not declared fields (aliases
      among them) are not looked at. */
  function Fields(inst: Instance, whole: Value, k: nat, d: OMap<Json>): (r: Result<OMap<Json>, Error>)
    requires whole == VObj(inst) && k <= |FieldsOf(inst.typ)|
    decreases whole, 0, |FieldsOf(inst.typ)| - k
  {
    var fs := FieldsOf(inst.typ);
    if k == |fs| then Ok(d)
    else
      var (name, f) := fs[k];
      match Get(inst.attrs, name)
      case None => Fields(inst, whole, k + 1, d)
      case Some(a) =>
        assert inst.attrs[Find(inst.attrs, name).value] in inst.attrs;
        var y :- ToJson(f.typ, a);
        Fields(inst, whole, k + 1, Put(d, f.graphqlName, y))
  }

  /** `getattr(inst, name)`; `AttributeError` for a name never set. */
  function GetAttr(inst: Instance, name: string): (r: Result<Value, Error>)
    ensures r.Ok? <==> HasKey(inst.attrs, name)
    ensures r.Ok? ==> Get(inst.attrs, name) == Some(r.value)
    ensures r.Err? ==> r.error == NoSuchAttribute(Name(inst.typ), name)
  {
    match Get(inst.attrs, name)
    case Some(v) => Ok(v)
    case None => Err(NoSuchAttribute(Name(inst.typ), name))
  }

  /** `name in inst`, which asks `hasattr`. */
  function HasAttr(inst: Instance, name: string): (r: bool)
    ensures r <==> GetAttr(inst, name).Ok?
  {
    HasKey(inst.attrs, name)
  }

  /** `iter(inst)`: the names of the materialized fields, each once, in the
      order they were first set. */
  function Names(inst: Instance): (ns: seq<string>)
    ensures |ns| == |inst.cache|
    ensures forall n :: n in ns <==> HasKey(inst.cache, n)
  {
    forall n ensures n in Keys(inst.cache) <==> HasKey(inst.cache, n) {
      KeysInKeys(inst.cache, n);
    }
    Keys(inst.cache)
  }

  /** `len(inst)`, which counts what iteration yields. */
  function Length(inst: Instance): (n: nat)
    ensures n == |Names(inst)|
  {
    CountAll(Names(inst))
  }

  function CountAll(ns: seq<string>): (n: nat)
    ensures n == |ns|
  {
    if |ns| == 0 then 0 else 1 + CountAll(ns[1..])
  }

  /** `setattr(inst, name, v)` on a constructed instance: the attribute is
      always set; when the name is a materialized field, the value is
      converted by the field's type and written into the backing store under
      the field's wire name. The conversion or the write may raise, in which
      case the attribute is already set and the store is left as it was.
      Other names never touch the store. */
  function SetAttr(inst: Instance, name: string, v: Value): (r: Outcome<Instance, Error>)
    ensures GetAttr(r.state, name) == Ok(v)
    ensures forall n :: n != name ==> Get(r.state.attrs, n) == Get(inst.attrs, n)
    ensures r.state.typ == inst.typ && r.state.selection == inst.selection && r.state.cache == inst.cache
    ensures Get(inst.cache, name).None? ==> r.raised.None? && r.state.store == inst.store
    ensures r.raised.Some? ==> r.state.store == inst.store
    ensures Get(inst.cache, name).Some? ==>
              (r.raised.None? <==> ToJson(Get(inst.cache, name).value.typ, v).Ok? && inst.store.JObj?)
    ensures Get(inst.cache, name).Some? && r.raised.None? ==>
              var f := Get(inst.cache, name).value;
              && r.state.store.JObj?
              && Get(r.state.store.members, f.graphqlName) == Some(ToJson(f.typ, v).value)
              && (forall w :: w != f.graphqlName ==> Get(r.state.store.members, w) == Get(inst.store.members, w))
  {
    var withAttr := inst.(attrs := Put(inst.attrs, name, v));
    match Get(inst.cache, name)
    case None => Outcome(withAttr, None)
    case Some(f) =>
      match ToJson(f.typ, v)
      case Err(e) => Outcome(withAttr, Some(e))
      case Ok(x) =>
        if inst.store.JObj? then Outcome(withAttr.(store := JObj(Put(inst.store.members, f.graphqlName, x))), None)
        else Outcome(withAttr, Some(NotSubscriptable(inst.store)))
  }

  /** The backing store is an object holding, under the wire name of every
      materialized field, the JSON form of that field's attribute. */
  ghost predicate InSync(inst: Instance)
  {
    && inst.store.JObj?
    && forall n :: Get(inst.cache, n).Some? ==>
         && Get(inst.attrs, n).Some?
         && ToJson(Get(inst.cache, n).value.typ, Get(inst.attrs, n).value).Ok?
         && Get(inst.store.members, Get(inst.cache, n).value.graphqlName)
            == Some(ToJson(Get(inst.cache, n).value.typ, Get(inst.attrs, n).value).value)
  }

  /** No two materialized names share a wire name (two aliases of one field
      do). */
  ghost predicate WiresDistinct(cache: OMap<Field>)
  {
    forall n1, n2 :: Get(cache, n1).Some? && Get(cache, n2).Some? && n1 != n2
                     ==> Get(cache, n1).value.graphqlName != Get(cache, n2).value.graphqlName
  }

  /** An assignment that raises nothing keeps the store in step with the
      attributes, provided no two materialized names share a wire name. */
  lemma SetAttrInSync(inst: Instance, name: string, v: Value)
    requires InSync(inst) && WiresDistinct(inst.cache)
    requires SetAttr(inst, name, v).raised.None?
    ensures InSync(SetAttr(inst, name, v).state)
  {
    var r := SetAttr(inst, name, v).state;
    forall n | Get(r.cache, n).Some?
      ensures && Get(r.attrs, n).Some?
              && ToJson(Get(r.cache, n).value.typ, Get(r.attrs, n).value).Ok?
              && Get(r.store.members, Get(r.cache, n).value.graphqlName)
                 == Some(ToJson(Get(r.cache, n).value.typ, Get(r.attrs, n).value).value)
    {
      if n != name && Get(inst.cache, name).Some? {
        assert Get(inst.cache, n).value.graphqlName != Get(inst.cache, name).value.graphqlName;
      }
    }
  }

  /** The k-th field of the instance's class has an attribute. */
  predicate Declared(inst: Instance, k: nat)
    requires k < |FieldsOf(inst.typ)|
  {
    HasKey(inst.attrs, FieldsOf(inst.typ)[k].0)
  }

  /** The k-th declared field's attribute converted by the field's type. */
  function Converted(inst: Instance, k: nat): Result<Json, Error>
    requires k < |FieldsOf(inst.typ)| && Declared(inst, k)
  {
    ToJson(FieldsOf(inst.typ)[k].1.typ, Get(inst.attrs, FieldsOf(inst.typ)[k].0).value)
  }

  /** One step of the snapshot loop. */
  lemma FieldsStep(inst: Instance, k: nat, d: OMap<Json>)
    requires k < |FieldsOf(inst.typ)|
    ensures !Declared(inst, k) ==> Fields(inst, VObj(inst), k, d) == Fields(inst, VObj(inst), k + 1, d)
    ensures Declared(inst, k) && Converted(inst, k).Err? ==>
              Fields(inst, VObj(inst), k, d) == Err(Converted(inst, k).error)
    ensures Declared(inst, k) && Converted(inst, k).Ok? ==>
              Fields(inst, VObj(inst), k, d)
              == Fields(inst, VObj(inst), k + 1, Put(d, FieldsOf(inst.typ)[k].1.graphqlName, Converted(inst, k).value))
  {
  }

  /** What the snapshot loop does at the k-th field: skip a field without
      an attribute, store the converted attribute under the field's wire
      name (remembering the field), or fail with the conversion's error. */
  function SnapStep(inst: Instance, k: nat): (r: Step<Json, Field, Error>)
    requires k < |FieldsOf(inst.typ)|
    ensures r.Skip? <==> !Declared(inst, k)
    ensures r.Fail? <==> Declared(inst, k) && Converted(inst, k).Err?
    ensures r.Store? ==> r.name == FieldsOf(inst.typ)[k].1.graphqlName && Converted(inst, k) == Ok(r.v)
                         && r.f == FieldsOf(inst.typ)[k].1
    ensures r.Fail? ==> Converted(inst, k) == Err(r.e)
  {
    if !Declared(inst, k) then Skip
    else
      match Converted(inst, k)
      case Ok(y) => Store(FieldsOf(inst.typ)[k].1.graphqlName, y, FieldsOf(inst.typ)[k].1)
      case Err(e) => Fail(e)
  }

  function SnapSteps(inst: Instance): (r: seq<Step<Json, Field, Error>>)
    ensures |r| == |FieldsOf(inst.typ)|
    ensures forall k :: 0 <= k < |r| ==> r[k] == SnapStep(inst, k)
  {
    seq(|FieldsOf(inst.typ)|, k requires 0 <= k < |FieldsOf(inst.typ)| => SnapStep(inst, k))
  }

  /** The snapshot loop runs its steps; the fields behind the wire names
      are kept on the side. */
  lemma {:induction false} SnapshotRun(inst: Instance, k: nat, d: OMap<Json>, c: OMap<Field>)
    requires k <= |FieldsOf(inst.typ)|
    ensures Fields(inst, VObj(inst), k, d) == Left(Run(SnapSteps(inst), k, d, c))
    decreases |FieldsOf(inst.typ)| - k
  {
    if k < |FieldsOf(inst.typ)| {
      FieldsStep(inst, k, d);
      var steps := SnapSteps(inst);
      assert steps[k] == SnapStep(inst, k);
      match steps[k]
      case Skip =>
        SnapshotRun(inst, k + 1, d, c);
        assert Run(steps, k, d, c) == Run(steps, k + 1, d, c);
      case Store(x, v, f) =>
        SnapshotRun(inst, k + 1, Put(d, x, v), Put(c, x, f));
        assert Run(steps, k, d, c) == Run(steps, k + 1, Put(d, x, v), Put(c, x, f));
      case Fail(e) =>
        assert Run(steps, k, d, c) == Err(e);
    }
  }

  /** The snapshot from the k-th field on succeeds exactly when every
      declared field with an attribute converts. */
  lemma SnapshotOk(inst: Instance, k: nat, d: OMap<Json>)
    requires k <= |FieldsOf(inst.typ)|
    ensures Fields(inst, VObj(inst), k, d).Ok? <==>
              forall k' :: k <= k' < |FieldsOf(inst.typ)| && Declared(inst, k') ==> Converted(inst, k').Ok?
  {
    var steps := SnapSteps(inst);
    SnapshotRun(inst, k, d, []);
    RunOk(steps, k, d, []);
    forall k' | k <= k' < |steps| ensures steps[k'].Fail? <==> Declared(inst, k') && Converted(inst, k').Err? {
      assert steps[k'] == SnapStep(inst, k');
    }
  }

  /** The snapshot's keys are the wire names of the declared fields that
      have an attribute, added to those it started with. */
  lemma SnapshotKeys(inst: Instance, k: nat, d: OMap<Json>)
    requires k <= |FieldsOf(inst.typ)|
    requires Fields(inst, VObj(inst), k, d).Ok?
    ensures forall w :: HasKey(Fields(inst, VObj(inst), k, d).value, w) <==>
              HasKey(d, w)
              || exists k' :: k <= k' < |FieldsOf(inst.typ)| && Declared(inst, k')
                              && FieldsOf(inst.typ)[k'].1.graphqlName == w
  {
    var steps := SnapSteps(inst);
    var fs := FieldsOf(inst.typ);
    SnapshotRun(inst, k, d, []);
    forall w ensures HasKey(Fields(inst, VObj(inst), k, d).value, w) <==>
                     (HasKey(d, w) || exists k' :: k <= k' < |fs| && Declared(inst, k') && fs[k'].1.graphqlName == w) {
      RunHas(steps, k, d, [], w);
      if exists k' :: k <= k' < |fs| && Declared(inst, k') && fs[k'].1.graphqlName == w {
        var k' :| k <= k' < |fs| && Declared(inst, k') && fs[k'].1.graphqlName == w;
        RunOkAt(steps, k, d, [], k');
        assert steps[k'].Store? && steps[k'].name == w;
      }
    }
  }

  /** Under each wire name the snapshot holds the converted attribute of
      the last declared field with that wire name. */
  lemma SnapshotValues(inst: Instance, k: nat, d: OMap<Json>)
    requires k <= |FieldsOf(inst.typ)|
    requires Fields(inst, VObj(inst), k, d).Ok?
    ensures forall k' :: k <= k' < |FieldsOf(inst.typ)| && Declared(inst, k')
                         && (forall k'' :: k' < k'' < |FieldsOf(inst.typ)| && Declared(inst, k'')
                                           ==> FieldsOf(inst.typ)[k''].1.graphqlName
                                               != FieldsOf(inst.typ)[k'].1.graphqlName)
                         ==> Converted(inst, k').Ok?
                             && Get(Fields(inst, VObj(inst), k, d).value, FieldsOf(inst.typ)[k'].1.graphqlName)
                                == Some(Converted(inst, k').value)
  {
    var fs := FieldsOf(inst.typ);
    forall k' | k <= k' < |fs| && Declared(inst, k')
                && (forall k'' :: k' < k'' < |fs| && Declared(inst, k'') ==> fs[k''].1.graphqlName != fs[k'].1.graphqlName)
      ensures Converted(inst, k').Ok?
              && Get(Fields(inst, VObj(inst), k, d).value, fs[k'].1.graphqlName) == Some(Converted(inst, k').value)
    {
      SnapshotLast(inst, k, d, k');
    }
  }

  /** The last declared field with a given wire name decides its value. */
  lemma SnapshotLast(inst: Instance, k: nat, d: OMap<Json>, k': nat)
    requires k <= k' < |FieldsOf(inst.typ)| && Declared(inst, k')
    requires forall k'' :: k' < k'' < |FieldsOf(inst.typ)| && Declared(inst, k'')
                           ==> FieldsOf(inst.typ)[k''].1.graphqlName != FieldsOf(inst.typ)[k'].1.graphqlName
    requires Fields(inst, VObj(inst), k, d).Ok?
    ensures Converted(inst, k').Ok?
    ensures Get(Fields(inst, VObj(inst), k, d).value, FieldsOf(inst.typ)[k'].1.graphqlName)
            == Some(Converted(inst, k').value)
  {
    var steps := SnapSteps(inst);
    SnapshotRun(inst, k, d, []);
    RunOkAt(steps, k, d, [], k');
    assert steps[k'] == SnapStep(inst, k');
    RunLast(steps, k, d, [], k');
  }

  /** The JSON snapshot of an instance (for any container type it is asked
      through) holds exactly the declared fields of the instance's class
      that have an attribute, keyed by wire name, each the attribute
      converted by the field's type; it fails exactly when one of those
      conversions fails. Attributes of other names, aliases among them,
      leave no trace. */
  lemma SnapshotLaw(t: GType, inst: Instance)
    requires IsContainer(t)
    ensures ToJson(t, VObj(inst)).Ok? <==>
              forall k :: 0 <= k < |FieldsOf(inst.typ)| && Declared(inst, k) ==> Converted(inst, k).Ok?
    ensures ToJson(t, VObj(inst)).Ok? ==>
              var out := ToJson(t, VObj(inst)).value;
              && out.JObj?
              && (forall w :: HasKey(out.members, w) <==>
                    exists k :: 0 <= k < |FieldsOf(inst.typ)| && Declared(inst, k)
                                && FieldsOf(inst.typ)[k].1.graphqlName == w)
              && (forall k :: 0 <= k < |FieldsOf(inst.typ)| && Declared(inst, k)
                              && (forall k' :: k < k' < |FieldsOf(inst.typ)| && Declared(inst, k')
                                               ==> FieldsOf(inst.typ)[k'].1.graphqlName
                                                   != FieldsOf(inst.typ)[k].1.graphqlName)
                              ==> Converted(inst, k).Ok?
                                  && Get(out.members, FieldsOf(inst.typ)[k].1.graphqlName)
                                     == Some(Converted(inst, k).value))
  {
    ToJsonContainer(t, inst);
    SnapshotOk(inst, 0, []);
    if Fields(inst, VObj(inst), 0, []).Ok? {
      var out := JObj(Fields(inst, VObj(inst), 0, []).value);
      assert ToJson(t, VObj(inst)).value == out;
      SnapshotKeys(inst, 0, []);
      SnapshotValues(inst, 0, []);
    }
  }

  /** A container class converts an instance through the snapshot loop. */
  lemma ToJsonContainer(t: GType, inst: Instance)
    requires IsContainer(t)
    ensures ToJson(t, VObj(inst)).Ok? <==> Fields(inst, VObj(inst), 0, []).Ok?
    ensures ToJson(t, VObj(inst)).Ok? ==> ToJson(t, VObj(inst)).value == JObj(Fields(inst, VObj(inst), 0, []).value)
  {
  }

  /** The non-null wrapper converts exactly as its base type does. */
  lemma ToJsonNonNull(b: GType, v: Value)
    ensures ToJson(NonNullT(b), v) == ToJson(b, v)
  {
  }
}

=== FILE: sorting.dfy ===
/** `sorted()` on a list of names, the order in which `dir()` reports a
    class's attributes: insertion sort under code-point order. */
module Sorting {
  import opened Text

  /** No later name is smaller than an earlier one. */
  predicate Sorted(s: seq<string>)
  {
    forall i, j :: 0 <= i < j < |s| ==> !Less(s[j], s[i])
  }

  function Insert(x: string, s: seq<string>): (r: seq<string>)
    requires Sorted(s)
    ensures Sorted(r)
    ensures multiset(r) == multiset(s) + multiset{x}
  {
    if |s| == 0 then [x]
    else if !Less(s[0], x) then
      InsertFront(x, s);
      [x] + s
    else
      var rest := Insert(x, s[1..]);
      assert s == [s[0]] + s[1..];
      InsertBehind(x, s, rest);
      [s[0]] + rest
  }

  lemma InsertFront(x: string, s: seq<string>)
    requires Sorted(s) && |s| > 0 && !Less(s[0], x)
    ensures Sorted([x] + s)
  {
    var r := [x] + s;
    forall i, j | 0 <= i < j < |r| ensures !Less(r[j], r[i]) {
      if i == 0 {
        assert r[j] == s[j - 1];
        LessTotal(x, s[0]);
        if Less(r[j], x) && x != s[0] {
          LessTransitive(r[j], x, s[0]);
        }
      }
    }
  }

  lemma InsertBehind(x: string, s: seq<string>, rest: seq<string>)
    requires Sorted(s) && |s| > 0 && Less(s[0], x)
    requires Sorted(rest) && multiset(rest) == multiset(s[1..]) + multiset{x}
    ensures Sorted([s[0]] + rest)
  {
    var r := [s[0]] + rest;
    forall i, j | 0 <= i < j < |r| ensures !Less(r[j], r[i]) {
      if i == 0 {
        var e := r[j];
        assert e == rest[j - 1];
        assert e in multiset(rest);
        if e == x {
          LessAsymmetric(s[0], x);
        } else {
          assert e in multiset(s[1..]);
          var k :| 0 <= k < |s[1..]| && s[1..][k] == e;
          assert s[k + 1] == e;
        }
      }
    }
  }

  /** `sorted(xs)`: a sorted permutation of the names. */
  function SortNames(xs: seq<string>): (r: seq<string>)
    ensures Sorted(r)
    ensures multiset(r) == multiset(xs)
  {
    if |xs| == 0 then []
    else
      assert xs == [xs[0]] + xs[1..];
      Insert(xs[0], SortNames(xs[1..]))
  }
}

=== FILE: text.dfy ===
/** String operations the source borrows from Python's `str`: `sep.join`,
    `s.split(c)`, `s.split()`, `s.title()`, `indent_string * n`, and the
    code-point order `sorted` uses. Each comes with the round-trip or
    characterisation that the rest of the model relies on. */
module Text {

  /** Python's `str.isspace()`: the characters `str.split()` with no argument
      treats as separators. */
  predicate IsSpace(c: char) {
    var n := c as int;
    || (0x09 <= n <= 0x0D) || (0x1C <= n <= 0x20)
    || n == 0x85 || n == 0xA0 || n == 0x1680
    || (0x2000 <= n <= 0x200A)
    || n == 0x2028 || n == 0x2029 || n == 0x202F || n == 0x205F || n == 0x3000
  }

  predicate NoSpace(s: string) {
    forall i :: 0 <= i < |s| ==> !IsSpace(s[i])
  }

  /** `s * n` in Python: n copies of s. */
  function Repeat(s: string, n: nat): (r: string)
    ensures |r| == |s| * n
  {
    if n == 0 then "" else s + Repeat(s, n - 1)
  }

  /** `sep.join(xs)`. */
  function Join(xs: seq<string>, sep: string): string
  {
    if |xs| == 0 then ""
    else if |xs| == 1 then xs[0]
    else xs[0] + sep + Join(xs[1..], sep)
  }

  /** `''.join(xs)`. */
  function Concat(xs: seq<string>): string
  {
    if |xs| == 0 then "" else xs[0] + Concat(xs[1..])
  }

  lemma ConcatAppend(xs: seq<string>, ys: seq<string>)
    ensures Concat(xs + ys) == Concat(xs) + Concat(ys)
  {
    if |xs| == 0 {
      assert xs + ys == ys;
    } else {
      assert (xs + ys)[1..] == xs[1..] + ys;
      ConcatAppend(xs[1..], ys);
    }
  }

  /** `s.split(c)` for a one-character separator: always at least one part,
      and no part contains the separator. */
  function Split(s: string, c: char): (parts: seq<string>)
    ensures |parts| >= 1
    ensures forall i :: 0 <= i < |parts| ==> c !in parts[i]
  {
    if |s| == 0 then [""]
    else
      var rest := Split(s[1..], c);
      if s[0] == c then [""] + rest
      else [[s[0]] + rest[0]] + rest[1..]
  }

  /** Gluing the parts back with the separator gives the original string. */
  lemma {:induction false} JoinSplit(s: string, c: char)
    ensures Join(Split(s, c), [c]) == s
  {
    if |s| == 0 {
    } else {
      var rest := Split(s[1..], c);
      JoinSplit(s[1..], c);
      if s[0] == c {
        assert Split(s, c) == [""] + rest;
        assert ([""] + rest)[1..] == rest;
      } else {
        var parts := Split(s, c);
        assert parts == [[s[0]] + rest[0]] + rest[1..];
        if |rest| == 1 {
          assert Join(rest, [c]) == rest[0];
        } else {
          assert Join(rest, [c]) == rest[0] + [c] + Join(rest[1..], [c]);
          assert parts[1..] == rest[1..];
        }
      }
    }
  }

  /** Splitting a separator-free part followed by the separator peels it off. */
  lemma {:induction false} SplitPeel(a: string, c: char, t: string)
    requires c !in a
    ensures Split(a + [c] + t, c) == [a] + Split(t, c)
    decreases |a|
  {
    if |a| == 0 {
      assert a + [c] + t == [c] + t;
      assert ([c] + t)[1..] == t;
    } else {
      assert (a + [c] + t)[1..] == a[1..] + [c] + t;
      SplitPeel(a[1..], c, t);
      assert [a[0]] + a[1..] == a;
    }
  }

  lemma {:induction false} SplitNoSeparator(a: string, c: char)
    requires c !in a
    ensures Split(a, c) == [a]
    decreases |a|
  {
    if |a| > 0 {
      SplitNoSeparator(a[1..], c);
      assert [a[0]] + a[1..] == a;
    }
  }

  /** The other direction: splitting a join of separator-free parts gives the
      parts back. */
  lemma {:induction false} SplitJoin(xs: seq<string>, c: char)
    requires |xs| >= 1
    requires forall i :: 0 <= i < |xs| ==> c !in xs[i]
    ensures Split(Join(xs, [c]), c) == xs
  {
    if |xs| == 1 {
      SplitNoSeparator(xs[0], c);
    } else {
      SplitJoin(xs[1..], c);
      SplitPeel(xs[0], c, Join(xs[1..], [c]));
      assert [xs[0]] + xs[1..] == xs;
    }
  }

  /** `s.split()`: the maximal runs of non-space characters, in order. */
  function Words(s: string): (ws: seq<string>)
    ensures forall i :: 0 <= i < |ws| ==> ws[i] != "" && NoSpace(ws[i])
    ensures |s| > 0 && !IsSpace(s[0]) ==> |ws| > 0 && ws[0][0] == s[0]
  {
    if |s| == 0 then []
    else
      var rest := Words(s[1..]);
      if IsSpace(s[0]) then rest
      else if |s| > 1 && !IsSpace(s[1]) then [[s[0]] + rest[0]] + rest[1..]
      else [[s[0]]] + rest
  }

  lemma {:induction false} WordsPeel(w: string, t: string)
    requires w != "" && NoSpace(w)
    requires t == "" || IsSpace(t[0])
    ensures Words(w + t) == [w] + Words(t)
    decreases |w|
  {
    var s := w + t;
    assert s[1..] == w[1..] + t;
    if |w| == 1 {
      assert s[1..] == t;
      assert w == [w[0]];
    } else {
      WordsPeel(w[1..], t);
      assert [w[0]] + w[1..] == w;
    }
  }

  /** Words separated by single spaces split back into the same words: the
      inverse of `' '.join` on space-free, non-empty words. */
  lemma {:induction false} WordsJoin(ws: seq<string>)
    requires forall i :: 0 <= i < |ws| ==> ws[i] != "" && NoSpace(ws[i])
    ensures Words(Join(ws, " ")) == ws
  {
    if |ws| == 0 {
    } else if |ws| == 1 {
      WordsPeel(ws[0], "");
      assert ws[0] + "" == ws[0];
    } else {
      var tail := Join(ws[1..], " ");
      WordsJoin(ws[1..]);
      assert Join(ws, " ") == ws[0] + (" " + tail);
      WordsPeel(ws[0], " " + tail);
      assert (" " + tail)[1..] == tail;
      assert [ws[0]] + ws[1..] == ws;
    }
  }

  /** Every character is whitespace. */
  predicate Spaces(g: string)
  {
    forall i :: 0 <= i < |g| ==> IsSpace(g[i])
  }

  /** The runs g[0], ..., g[n] woven around the words w[0], ..., w[n-1]:
      `g[0] + w[0] + g[1] + ... + w[n-1] + g[n]`. */
  function Weave(gaps: seq<string>, ws: seq<string>): string
    requires |gaps| == |ws| + 1
    decreases |ws|
  {
    if |ws| == 0 then gaps[0] else gaps[0] + ws[0] + Weave(gaps[1..], ws[1..])
  }

  /** Words and the whitespace runs around them: the words are non-empty
      and free of whitespace, the runs are all whitespace, and the runs
      between two words are not empty. */
  predicate Layout(gaps: seq<string>, ws: seq<string>)
  {
    && |gaps| == |ws| + 1
    && (forall i :: 0 <= i < |gaps| ==> Spaces(gaps[i]))
    && (forall i :: 0 < i < |ws| ==> gaps[i] != "")
    && (forall i :: 0 <= i < |ws| ==> ws[i] != "" && NoSpace(ws[i]))
  }

  /** The whitespace runs `str.split()` drops, in order. */
  function Gaps(s: string): (gs: seq<string>)
    ensures |gs| == |Words(s)| + 1
    decreases |s|
  {
    if |s| == 0 then [""]
    else
      var gs := Gaps(s[1..]);
      if IsSpace(s[0]) then [[s[0]] + gs[0]] + gs[1..]
      else if |s| > 1 && !IsSpace(s[1]) then gs
      else [""] + gs
  }

  /** A woven string starts with its first run. */
  lemma WeaveHead(gaps: seq<string>, ws: seq<string>)
    requires |gaps| == |ws| + 1
    ensures |gaps[0]| <= |Weave(gaps, ws)| && Weave(gaps, ws)[..|gaps[0]|] == gaps[0]
    ensures |ws| > 0 ==> |gaps[0] + ws[0]| <= |Weave(gaps, ws)|
                         && Weave(gaps, ws)[..|gaps[0] + ws[0]|] == gaps[0] + ws[0]
    ensures |gaps[0]| > 0 ==> Weave(gaps, ws)[0] == gaps[0][0]
    ensures gaps[0] == "" && |ws| > 0 && ws[0] != "" ==> Weave(gaps, ws)[0] == ws[0][0]
  {
  }

  /** Lengthening the first run lengthens the woven string in front. */
  lemma WeaveFront(p: string, gaps: seq<string>, ws: seq<string>)
    requires |gaps| == |ws| + 1
    ensures Weave([p + gaps[0]] + gaps[1..], ws) == p + Weave(gaps, ws)
  {
    var gs := [p + gaps[0]] + gaps[1..];
    assert gs[1..] == gaps[1..];
  }

  /** Leading whitespace does not change the words. */
  lemma {:induction false} WordsSkip(g: string, t: string)
    requires Spaces(g)
    ensures Words(g + t) == Words(t)
    decreases |g|
  {
    if |g| > 0 {
      assert (g + t)[1..] == g[1..] + t;
      WordsSkip(g[1..], t);
    } else {
      assert g + t == t;
    }
  }

  /** `str.split()` takes s apart into its words and the whitespace runs
      around them: weaving the two back together gives s. */
  lemma {:induction false} WordsLayout(s: string)
    ensures Layout(Gaps(s), Words(s)) && Weave(Gaps(s), Words(s)) == s
    decreases |s|
  {
    if |s| > 0 {
      WordsLayout(s[1..]);
      if IsSpace(s[0]) {
        LayoutSpace(s);
      } else if |s| > 1 && !IsSpace(s[1]) {
        LayoutInside(s);
      } else {
        LayoutEnd(s);
      }
    }
  }

  /** Whitespace in front joins the first run. */
  lemma LayoutSpace(s: string)
    requires |s| > 0 && IsSpace(s[0])
    requires Layout(Gaps(s[1..]), Words(s[1..])) && Weave(Gaps(s[1..]), Words(s[1..])) == s[1..]
    ensures Layout(Gaps(s), Words(s)) && Weave(Gaps(s), Words(s)) == s
  {
    var gs, rest := Gaps(s[1..]), Words(s[1..]);
    var g0 := [s[0]] + gs[0];
    assert Gaps(s) == [g0] + gs[1..];
    assert Words(s) == rest;
    assert Spaces(g0) by {
      assert Spaces(gs[0]);
      forall i | 0 <= i < |g0| ensures IsSpace(g0[i]) {
        if i > 0 { assert g0[i] == gs[0][i - 1]; }
      }
    }
    LayoutCons(g0, gs, rest);
    WeaveSpace(s);
  }

  /** The woven form of whitespace in front. */
  lemma WeaveSpace(s: string)
    requires |s| > 0 && IsSpace(s[0])
    requires Weave(Gaps(s[1..]), Words(s[1..])) == s[1..]
    ensures Weave(Gaps(s), Words(s)) == s
  {
    var gs, rest := Gaps(s[1..]), Words(s[1..]);
    assert Gaps(s) == [[s[0]] + gs[0]] + gs[1..];
    assert Words(s) == rest;
    WeaveFront([s[0]], gs, rest);
    assert [s[0]] + s[1..] == s;
  }

  /** Replacing the first run by another whitespace run keeps a layout. */
  lemma LayoutCons(g0: string, gs: seq<string>, ws: seq<string>)
    requires Layout(gs, ws) && Spaces(g0)
    ensures Layout([g0] + gs[1..], ws)
  {
    var gs' := [g0] + gs[1..];
    assert forall i :: 0 < i < |gs'| ==> gs'[i] == gs[i];
  }

  /** A character in front of a word joins that word. */
  lemma LayoutInside(s: string)
    requires |s| > 1 && !IsSpace(s[0]) && !IsSpace(s[1])
    requires Layout(Gaps(s[1..]), Words(s[1..])) && Weave(Gaps(s[1..]), Words(s[1..])) == s[1..]
    ensures Layout(Gaps(s), Words(s)) && Weave(Gaps(s), Words(s)) == s
  {
    var t := s[1..];
    var gs, rest := Gaps(t), Words(t);
    WeaveHead(gs, rest);
    assert t[0] == s[1];
    assert gs[0] == "";
    var ws := Words(s);
    assert ws == [[s[0]] + rest[0]] + rest[1..];
    assert Gaps(s) == gs;
    assert forall i :: 1 <= i < |ws| ==> ws[i] == rest[i];
    WeaveInside(s);
  }

  /** The woven form of a character in front of a word. */
  lemma WeaveInside(s: string)
    requires |s| > 1 && !IsSpace(s[0]) && !IsSpace(s[1])
    requires |Gaps(s[1..])| > 0 && Gaps(s[1..])[0] == ""
    requires Weave(Gaps(s[1..]), Words(s[1..])) == s[1..]
    ensures Weave(Gaps(s), Words(s)) == s
  {
    var t := s[1..];
    var gs, rest := Gaps(t), Words(t);
    var ws := Words(s);
    assert ws == [[s[0]] + rest[0]] + rest[1..];
    assert Gaps(s) == gs;
    WeaveGrow(s[0], gs, rest);
    assert s == [s[0]] + t;
  }

  /** Lengthening the first word, with no run before it, lengthens the
      woven string in front. */
  lemma WeaveGrow(c: char, gs: seq<string>, ws: seq<string>)
    requires |ws| > 0 && |gs| == |ws| + 1 && gs[0] == ""
    ensures Weave(gs, [[c] + ws[0]] + ws[1..]) == [c] + Weave(gs, ws)
  {
    var ws' := [[c] + ws[0]] + ws[1..];
    assert ws'[1..] == ws[1..];
    var w0, tail := ws[0], Weave(gs[1..], ws[1..]);
    calc {
      Weave(gs, ws');
      gs[0] + ws'[0] + Weave(gs[1..], ws'[1..]);
      { assert gs[0] + ws'[0] == [c] + w0; }
      ([c] + w0) + tail;
      [c] + (w0 + tail);
      { assert gs[0] + w0 == w0; }
      [c] + Weave(gs, ws);
    }
  }

  /** A character in front of whitespace, or alone, is a word of its own. */
  lemma LayoutEnd(s: string)
    requires |s| > 0 && !IsSpace(s[0]) && !(|s| > 1 && !IsSpace(s[1]))
    requires Layout(Gaps(s[1..]), Words(s[1..])) && Weave(Gaps(s[1..]), Words(s[1..])) == s[1..]
    ensures Layout(Gaps(s), Words(s)) && Weave(Gaps(s), Words(s)) == s
  {
    var t := s[1..];
    var gs, rest := Gaps(t), Words(t);
    var ws := Words(s);
    assert ws == [[s[0]]] + rest;
    assert Gaps(s) == [""] + gs;
    assert ws[1..] == rest && Gaps(s)[1..] == gs;
    if |rest| > 0 {
      WeaveHead(gs, rest);
      assert t[0] == s[1];
      assert gs[0] != "";
    }
    WeaveEnd(s);
  }

  /** The woven form of a one-character word. */
  lemma WeaveEnd(s: string)
    requires |s| > 0 && !IsSpace(s[0]) && !(|s| > 1 && !IsSpace(s[1]))
    requires Weave(Gaps(s[1..]), Words(s[1..])) == s[1..]
    ensures Weave(Gaps(s), Words(s)) == s
  {
    var t := s[1..];
    var gs, rest := Gaps(t), Words(t);
    var ws := Words(s);
    assert ws == [[s[0]]] + rest;
    assert Gaps(s) == [""] + gs;
    assert ws[1..] == rest && Gaps(s)[1..] == gs;
    assert [s[0]] + t == s;
  }

  /** Conversely, any string woven from words and whitespace runs splits
      back into exactly those words, whatever the runs are. */
  lemma {:induction false} WordsWeave(gaps: seq<string>, ws: seq<string>)
    requires Layout(gaps, ws)
    ensures Words(Weave(gaps, ws)) == ws
    decreases |ws|
  {
    if |ws| == 0 {
      WordsSkip(gaps[0], "");
      assert gaps[0] + "" == gaps[0];
    } else {
      var tail := Weave(gaps[1..], ws[1..]);
      assert Layout(gaps[1..], ws[1..]) by {
        assert forall i :: 0 < i < |ws[1..]| ==> gaps[1..][i] == gaps[i + 1];
      }
      WordsWeave(gaps[1..], ws[1..]);
      WeaveHead(gaps[1..], ws[1..]);
      if gaps[1] != "" {
        assert tail[0] == gaps[1][0];
      }
      WordsPeel(ws[0], tail);
      WordsSkip(gaps[0], ws[0] + tail);
      assert Weave(gaps, ws) == gaps[0] + (ws[0] + tail);
      assert [ws[0]] + ws[1..] == ws;
    }
  }

  predicate IsAsciiUpper(c: char) { 'A' <= c <= 'Z' }
  predicate IsAsciiLower(c: char) { 'a' <= c <= 'z' }
  predicate IsAsciiLetter(c: char) { IsAsciiUpper(c) || IsAsciiLower(c) }

  function ToUpper(c: char): char {
    if IsAsciiLower(c) then (c as int - 32) as char else c
  }

  function ToLower(c: char): char {
    if IsAsciiUpper(c) then (c as int + 32) as char else c
  }

  /** `str.title()` restricted to ASCII letters: a letter that follows a
      letter is lower-cased, any other letter is upper-cased, and every other
      character is kept. `afterLetter` says whether the preceding character
      was a letter. */
  function TitleFrom(s: string, afterLetter: bool): (r: string)
    ensures |r| == |s|
    ensures forall i :: 0 <= i < |s| ==> (IsAsciiLetter(r[i]) <==> IsAsciiLetter(s[i]))
    ensures forall i :: 0 <= i < |s| && !IsAsciiLetter(s[i]) ==> r[i] == s[i]
  {
    if |s| == 0 then ""
    else if IsAsciiLetter(s[0]) then
      [if afterLetter then ToLower(s[0]) else ToUpper(s[0])] + TitleFrom(s[1..], true)
    else [s[0]] + TitleFrom(s[1..], false)
  }

  function Title(s: string): string
  {
    TitleFrom(s, false)
  }

  /** Number of occurrences of c in s. */
  function Count(s: string, c: char): nat
  {
    if |s| == 0 then 0 else (if s[0] == c then 1 else 0) + Count(s[1..], c)
  }

  /** Python's `<` on strings: code-point lexicographic order. */
  predicate Less(a: string, b: string)
  {
    if |a| == 0 then |b| > 0
    else if |b| == 0 then false
    else if a[0] != b[0] then a[0] < b[0]
    else Less(a[1..], b[1..])
  }

  lemma {:induction false} LessIrreflexive(a: string)
    ensures !Less(a, a)
  {
    if |a| > 0 {
      LessIrreflexive(a[1..]);
    }
  }

  lemma {:induction false} LessTransitive(a: string, b: string, c: string)
    requires Less(a, b) && Less(b, c)
    ensures Less(a, c)
  {
    if |a| > 0 && |b| > 0 && |c| > 0 && a[0] == b[0] && b[0] == c[0] {
      LessTransitive(a[1..], b[1..], c[1..]);
    }
  }

  lemma {:induction false} LessTotal(a: string, b: string)
    ensures a == b || Less(a, b) || Less(b, a)
  {
    if |a| > 0 && |b| > 0 && a[0] == b[0] {
      LessTotal(a[1..], b[1..]);
      if a[1..] == b[1..] {
        assert a == [a[0]] + a[1..] && b == [b[0]] + b[1..];
      }
    }
  }

  lemma {:induction false} LessAsymmetric(a: string, b: string)
    requires Less(a, b)
    ensures !Less(b, a)
  {
    if |a| > 0 && |b| > 0 && a[0] == b[0] {
      LessAsymmetric(a[1..], b[1..]);
    }
  }
}

=== FILE: types.dfy ===
/** The type descriptors of the schema: scalars, enums, unions, containers
    (`type`, `interface`, `input`) and the two wrappers, together with fields,
    arguments, the members a declaration may hold, and the exceptions the
    source raises.

    A Python class is an object with identity; here each declared descriptor
    carries a `uid` standing for that identity and a `home` naming the schema
    it was declared in (`cls.__schema__`). Wrappers carry neither: they are
    identified by their base and mode, as the per-schema cache keys them. */
module Types {
  import opened Prelude
  import opened OrderedMaps
  import opened JsonValues
  import Text

  /** `__kind__`. */
  datatype Kind = ScalarKind | EnumKind | UnionKind | TypeKind | InterfaceKind | InputKind

  function KindText(k: Kind): string
  {
    match k
    case ScalarKind => "scalar"
    case EnumKind => "enum"
    case UnionKind => "union"
    case TypeKind => "type"
    case InterfaceKind => "interface"
    case InputKind => "input"
  }

  /** The kinds whose classes `ContainerTypeMeta` builds. */
  predicate ContainerKind(k: Kind)
  {
    k == TypeKind || k == InterfaceKind || k == InputKind
  }

  /** Python built-ins accepted where a type is expected:
      `int`, `float`, `str`, `bool` and the function `id`. */
  datatype Primitive = PyInt | PyFloat | PyStr | PyBool | PyId

  datatype GType =
    | ScalarT(uid: nat, home: nat, name: string, converter: string)
    | EnumT(uid: nat, home: nat, name: string, choices: seq<string>)
    | UnionT(uid: nat, home: nat, name: string, members: seq<GType>)
    | ContainerT(uid: nat, home: nat, name: string, kind: Kind,
                 interfaces: seq<GType>, fields: OMap<Field>)
      /** One of the abstract classes `Scalar`, `Enum`, `Union`, `Type`,
          `Interface`, `Input`, never registered. The scalar root converts
          with the identity, the enum root has no choices, the union root
          has no members, and the three container roots have no fields. */
    | RootT(kind: Kind)
    | NonNullT(base: GType)
    | ListOfT(base: GType)

  /** A field of a container. `name` and `graphqlName` are empty until the
      field is attached to a container (`None` in the source). */
  datatype Field = Field(name: string, graphqlName: string, typ: GType, args: OMap<Arg>)

  /** A field argument; a `default` of `JNull` means no default. */
  datatype Arg = Arg(name: string, graphqlName: string, typ: GType, default: Json)

  /** What a class body may bind to a public name. */
  datatype Member =
    | TypeMember(t: GType)
    | PrimitiveMember(p: Primitive)
    | FieldMember(f: Field)
    | OtherMember

  datatype Error =
      /** `ValueError` from `Schema.__iadd__`: the name is bound to another type. */
    | AlreadyRegistered(name: string)
      /** `TypeError` from `ContainerTypeMeta.__dir__`, which hands the class
          to the already bound `type.__dir__` a second time. */
    | DirFailed(name: string)
      /** `KeyError` from `Schema.__getitem__` / `__isub__`. */
    | NotRegistered(name: string)
      /** `KeyError` from `Schema.__isub__` for a kind table never created. */
    | NoSuchKind(kind: Kind)
      /** `TypeError` from `BaseMeta.__ensure__`. */
    | NotAType
      /** `ValueError` from `EnumMeta.__init__`: empty `__choices__`. */
    | MissingChoices(name: string)
      /** `AttributeError` from `ContainerTypeMeta.__inherit_fields`: the
          named base was not built by `ContainerTypeMeta`, so it has no
          field table to copy. */
    | NoFieldTable(base: string)
      /** `TypeError` from the class statement itself: the bases' metaclasses
          (`EnumMeta` and `ContainerTypeMeta`) do not derive from one
          another. */
    | MetaclassConflict(name: string)
      /** `ValueError` from a non-null wrapper given `null`. */
    | NullValue(name: string)
      /** `ValueError` from `Enum.__new__`. */
    | BadEnumValue(name: string, value: Json)
      /** `TypeError`: a union class takes no constructor arguments. */
    | NotConstructible(name: string)
      /** Whatever a scalar converter raised. */
    | ConverterFailed(name: string, message: string)
      /** `TypeError`: `in` or iteration on `None`, a bool or a number. */
    | NotIterable(value: Json)
      /** `TypeError`: item assignment on a non-dict backing store. */
    | NotSubscriptable(value: Json)
      /** `UnboundLocalError` from the handler in `set_field` when reading the
          raw value itself failed. */
    | UnboundValue(attr: string)
      /** `ValueError` from `set_field`: the container, the attribute, the raw
          JSON value and the cause. */
    | FieldFailed(container: string, attr: string, raw: Json, cause: Error)
      /** `KeyError` from `ContainerTypeMeta.__getitem__`. */
    | NoSuchField(container: string, key: string)
      /** `KeyError` / `AttributeError` reading an attribute never set. */
    | NoSuchAttribute(container: string, attr: string)
      /** `AttributeError`: the type has no `__to_json_value__` or
          `__to_graphql_input__` for this value. */
    | NoConversion(name: string)
      /** An instance reached a JSON position unchanged: the source stores
          the object itself, which no JSON value can hold. */
    | NotJson
      /** `TypeError`: a non-string joined or concatenated into text. */
    | NotText
      /** `KeyError` from `ArgDict.__getitem__`. */
    | NoSuchArgument(key: string)
      /** `AttributeError`: an input object literal given a value without
          `.items()`. */
    | NotMapping(value: Json)

  /** Name of an abstract root class. */
  function RootName(k: Kind): string
  {
    match k
    case ScalarKind => "Scalar"
    case EnumKind => "Enum"
    case UnionKind => "Union"
    case TypeKind => "Type"
    case InterfaceKind => "Interface"
    case InputKind => "Input"
  }

  /** `str(cls)`, i.e. `cls.__name__`; wrappers are `T!` and `[T]`. */
  function Name(t: GType): string
  {
    match t
    case ScalarT(_, _, n, _) => n
    case EnumT(_, _, n, _) => n
    case UnionT(_, _, n, _) => n
    case ContainerT(_, _, n, _, _, _) => n
    case RootT(k) => RootName(k)
    case NonNullT(b) => Name(b) + "!"
    case ListOfT(b) => "[" + Name(b) + "]"
  }

  /** `cls.__kind__`; a wrapper inherits its base's. */
  function KindOf(t: GType): Kind
  {
    match t
    case ScalarT(_, _, _, _) => ScalarKind
    case EnumT(_, _, _, _) => EnumKind
    case UnionT(_, _, _, _) => UnionKind
    case ContainerT(_, _, _, k, _, _) => k
    case RootT(k) => k
    case NonNullT(b) => KindOf(b)
    case ListOfT(b) => KindOf(b)
  }

  /** The metaclass that builds a class: `BaseMeta` alone, `EnumMeta` or
      `ContainerTypeMeta`. */
  datatype Metaclass = PlainMeta | EnumMeta | ContainerMeta

  /** `type(cls)`; a wrapper, made with `type(name, (t,), ...)`, has its
      base's. */
  function MetaOf(t: GType): (m: Metaclass)
    ensures m == EnumMeta ==> KindOf(t) == EnumKind
    ensures t.ContainerT? ==> m == ContainerMeta
  {
    match t
    case ScalarT(_, _, _, _) => PlainMeta
    case EnumT(_, _, _, _) => EnumMeta
    case UnionT(_, _, _, _) => PlainMeta
    case ContainerT(_, _, _, _, _, _) => ContainerMeta
    case RootT(k) => if k == EnumKind then EnumMeta else if ContainerKind(k) then ContainerMeta else PlainMeta
    case NonNullT(b) => MetaOf(b)
    case ListOfT(b) => MetaOf(b)
  }

  /** An enum class, or a wrapper of one, whose inherited `__choices__` is
      empty: the root `Enum` or an enum declared with no choices. */
  predicate NoChoices(t: GType)
  {
    match t
    case EnumT(_, _, _, choices) => |choices| == 0
    case RootT(k) => k == EnumKind
    case NonNullT(b) => NoChoices(b)
    case ListOfT(b) => NoChoices(b)
    case _ => false
  }

  /** A type without choices is built by `EnumMeta`. */
  lemma {:induction false} NoChoicesEnum(t: GType)
    ensures NoChoices(t) ==> MetaOf(t) == EnumMeta
  {
    match t
    case NonNullT(b) => NoChoicesEnum(b);
    case ListOfT(b) => NoChoicesEnum(b);
    case _ =>
  }

  /** Id of `cls.__schema__`; the built-ins and abstract roots live in the
      default schema (id 0); a wrapper inherits its base's. */
  function HomeOf(t: GType): nat
  {
    match t
    case ScalarT(_, h, _, _) => h
    case EnumT(_, h, _, _) => h
    case UnionT(_, h, _, _) => h
    case ContainerT(_, h, _, _, _, _) => h
    case RootT(_) => 0
    case NonNullT(b) => HomeOf(b)
    case ListOfT(b) => HomeOf(b)
  }

  /** The field table a declared container carries. */
  function FieldsOf(t: GType): OMap<Field>
  {
    match t
    case ContainerT(_, _, _, _, _, fs) => fs
    case _ => []
  }

  /** `cls.__fields` of any class. A wrapper is a class derived from its
      base alone, so a wrapper of a container copies its base's table into
      a fresh `OrderedDict`, whose keys are unique, giving the same table;
      its own namespace binds only underscore names, which contribute no
      field. Anything else has the table it carries, if any. */
  function TableOf(t: GType): (r: OMap<Field>)
    ensures !t.NonNullT? && !t.ListOfT? ==> r == FieldsOf(t)
  {
    match t
    case NonNullT(b) => TableOf(b)
    case ListOfT(b) => TableOf(b)
    case _ => FieldsOf(t)
  }

  /** Only a class built by `ContainerTypeMeta` has fields. */
  lemma {:induction false} TableMeta(t: GType)
    ensures TableOf(t) != [] ==> MetaOf(t) == ContainerMeta
  {
    match t
    case NonNullT(b) => TableMeta(b);
    case ListOfT(b) => TableMeta(b);
    case _ =>
  }

  /** The built-in scalars `Int`, `Float`, `String`, `Boolean` and `ID`. */
  function Builtin(p: Primitive): (t: GType)
    ensures t.ScalarT? && HomeOf(t) == 0
  {
    match p
    case PyInt => ScalarT(1, 0, "Int", "int")
    case PyFloat => ScalarT(2, 0, "Float", "float")
    case PyStr => ScalarT(3, 0, "String", "str")
    case PyBool => ScalarT(4, 0, "Boolean", "bool")
    case PyId => ScalarT(5, 0, "ID", "str")
  }

  /** `BaseMeta.__ensure__`: a type is taken as it is, a built-in is mapped
      through `map_python_to_graphql`, anything else is a `TypeError`. */
  function Ensure(m: Member): (r: Result<GType, Error>)
    ensures r.Err? <==> (m.FieldMember? || m.OtherMember?)
    ensures m.TypeMember? ==> r == Ok(m.t)
    ensures m.PrimitiveMember? ==> r.Ok? && r.value.ScalarT? && HomeOf(r.value) == 0
  {
    match m
    case TypeMember(t) => Ok(t)
    case PrimitiveMember(p) => Ok(Builtin(p))
    case _ => Err(NotAType)
  }

  /** `Field(typ, graphql_name, args)`: the type is resolved at once. */
  function MakeField(typ: Member, graphqlName: string, args: OMap<Arg>): (r: Result<Field, Error>)
    ensures r.Err? <==> Ensure(typ).Err?
    ensures r.Ok? ==> (r.value.typ == Ensure(typ).value && r.value.graphqlName == graphqlName
                       && r.value.args == args && r.value.name == "")
  {
    var t :- Ensure(typ);
    Ok(Field("", graphqlName, t, args))
  }

  /** `Arg(typ, graphql_name, default)`. */
  function MakeArg(typ: Member, graphqlName: string, default: Json): (r: Result<Arg, Error>)
    ensures r.Err? <==> Ensure(typ).Err?
    ensures r.Ok? ==> (r.value.typ == Ensure(typ).value && r.value.graphqlName == graphqlName
                       && r.value.default == default && r.value.name == "")
  {
    var t :- Ensure(typ);
    Ok(Arg("", graphqlName, t, default))
  }
}

=== FILE: wrappers.dfy ===
/** `non_null(t)` and `list_of(t)`: wrapper types named `T!` and `[T]`,
    cached by name in the wrapped type's own schema so that asking twice
    gives the same wrapper. The caller passes that schema (`t.__schema__`). */
module Wrappers {
  import opened Prelude
  import opened Types
  import opened Registry

  datatype Mode = NonNullMode | ListMode

  /** The cache key: `T!` or `[T]`. */
  function WrapperName(t: GType, mode: Mode): string
  {
    match mode
    case NonNullMode => Name(t) + "!"
    case ListMode => "[" + Name(t) + "]"
  }

  function Fresh(t: GType, mode: Mode): (w: GType)
    ensures Name(w) == WrapperName(t, mode)
    ensures KindOf(w) == KindOf(t) && HomeOf(w) == HomeOf(t)
  {
    match mode
    case NonNullMode => NonNullT(t)
    case ListMode => ListOfT(t)
  }

  /** Resolves the member, then returns the cached wrapper of that name or
      creates and caches a new one. Creating it runs the metaclass of t: for
      an enum whose inherited `__choices__` is empty (the root `Enum`, or an
      enum declared without choices, or a wrapper of one) `EnumMeta.__init__`
      raises `ValueError` before anything is cached. Nothing is registered:
      the name and kind tables are left alone. */
  function Wrap(home: Schema, m: Member, mode: Mode): (r: Result<(Schema, GType), Error>)
    requires Ensure(m).Ok? ==> HomeOf(Ensure(m).value) == home.id
    ensures r.Err? <==> Ensure(m).Err? || (WrapperName(Ensure(m).value, mode) !in home.cache
                                           && NoChoices(Ensure(m).value))
    ensures Ensure(m).Err? ==> r == Err(NotAType)
    ensures r.Err? && Ensure(m).Ok? ==> r.error == MissingChoices(WrapperName(Ensure(m).value, mode))
    ensures r.Ok? ==> r.value.0.all == home.all && r.value.0.kinds == home.kinds && r.value.0.id == home.id
    ensures r.Ok? ==> WrapperName(Ensure(m).value, mode) in r.value.0.cache
                      && r.value.0.cache[WrapperName(Ensure(m).value, mode)] == r.value.1
    ensures r.Ok? ==> forall n :: n in home.cache ==> n in r.value.0.cache
    ensures r.Ok? ==> forall n :: n != WrapperName(Ensure(m).value, mode) && n in r.value.0.cache
                        ==> n in home.cache && r.value.0.cache[n] == home.cache[n]
    ensures r.Ok? && WrapperName(Ensure(m).value, mode) in home.cache
            ==> r.value == (home, home.cache[WrapperName(Ensure(m).value, mode)])
    ensures r.Ok? && WrapperName(Ensure(m).value, mode) !in home.cache
            ==> r.value.1 == Fresh(Ensure(m).value, mode)
  {
    var t :- Ensure(m);
    var name := WrapperName(t, mode);
    if name in home.cache then Ok((home, home.cache[name]))
    else if NoChoices(t) then Err(MissingChoices(name))
    else
      var w := Fresh(t, mode);
      Ok((home.(cache := home.cache[name := w]), w))
  }

  /** `non_null(t)` and `list_of(t)` as the source runs them. The wrapper
      class is created with `type(name, (t,), ...)`, which runs the
      metaclass of t; for a container that is `ContainerTypeMeta.__init__`,
      whose `dir(cls)` raises `TypeError` before the wrapper is cached.
      Other wrappers, enums without choices included, come out as the
      corrected `Wrap` makes them. */
  function WrapAsWritten(home: Schema, m: Member, mode: Mode): (r: Result<(Schema, GType), Error>)
    requires Ensure(m).Ok? ==> HomeOf(Ensure(m).value) == home.id
    ensures r.Err? <==> Ensure(m).Err? || (WrapperName(Ensure(m).value, mode) !in home.cache
                                           && (MetaOf(Ensure(m).value) == ContainerMeta
                                               || NoChoices(Ensure(m).value)))
    ensures Ensure(m).Ok? && WrapperName(Ensure(m).value, mode) !in home.cache
            && MetaOf(Ensure(m).value) == ContainerMeta
            ==> r == Err(DirFailed(WrapperName(Ensure(m).value, mode)))
    ensures Ensure(m).Err? || WrapperName(Ensure(m).value, mode) in home.cache
            || MetaOf(Ensure(m).value) != ContainerMeta
            ==> r == Wrap(home, m, mode)
  {
    var t :- Ensure(m);
    var name := WrapperName(t, mode);
    if name !in home.cache && MetaOf(t) == ContainerMeta then Err(DirFailed(name))
    else Wrap(home, m, mode)
  }

  /** As written, wrapping a container raises and caches nothing, where the
      corrected `Wrap` creates and caches the wrapper. */
  lemma ContainerWrapRaises(home: Schema, t: GType, mode: Mode)
    requires HomeOf(t) == home.id && MetaOf(t) == ContainerMeta && WrapperName(t, mode) !in home.cache
    ensures WrapAsWritten(home, TypeMember(t), mode) == Err(DirFailed(WrapperName(t, mode)))
    ensures Wrap(home, TypeMember(t), mode).Ok?
    ensures var (s, w) := Wrap(home, TypeMember(t), mode).value;
            w == Fresh(t, mode) && s.cache == home.cache[WrapperName(t, mode) := w]
  {
    NoChoicesEnum(t);
  }

  /** Wrapping an enum without choices raises `ValueError` naming the
      wrapper, as written and corrected alike, and caches nothing, so a
      second request raises again. */
  lemma EnumWrapRaises(home: Schema, t: GType, mode: Mode)
    requires HomeOf(t) == home.id && NoChoices(t) && WrapperName(t, mode) !in home.cache
    ensures Wrap(home, TypeMember(t), mode) == Err(MissingChoices(WrapperName(t, mode)))
    ensures WrapAsWritten(home, TypeMember(t), mode) == Wrap(home, TypeMember(t), mode)
  {
    NoChoicesEnum(t);
  }

  /** `non_null(t)`. */
  function NonNull(home: Schema, m: Member): (r: Result<(Schema, GType), Error>)
    requires Ensure(m).Ok? ==> HomeOf(Ensure(m).value) == home.id
    ensures r.Err? <==> Ensure(m).Err? || (Name(Ensure(m).value) + "!" !in home.cache
                                           && NoChoices(Ensure(m).value))
    ensures r.Err? && Ensure(m).Ok? ==> r.error == MissingChoices(Name(Ensure(m).value) + "!")
    ensures r.Ok? && Name(Ensure(m).value) + "!" !in home.cache
            ==> r.value.1 == NonNullT(Ensure(m).value)
                && Name(r.value.1) == Name(Ensure(m).value) + "!"
  {
    Wrap(home, m, NonNullMode)
  }

  /** `list_of(t)`. */
  function ListOf(home: Schema, m: Member): (r: Result<(Schema, GType), Error>)
    requires Ensure(m).Ok? ==> HomeOf(Ensure(m).value) == home.id
    ensures r.Err? <==> Ensure(m).Err? || ("[" + Name(Ensure(m).value) + "]" !in home.cache
                                           && NoChoices(Ensure(m).value))
    ensures r.Err? && Ensure(m).Ok? ==> r.error == MissingChoices("[" + Name(Ensure(m).value) + "]")
    ensures r.Ok? && "[" + Name(Ensure(m).value) + "]" !in home.cache
            ==> r.value.1 == ListOfT(Ensure(m).value)
                && Name(r.value.1) == "[" + Name(Ensure(m).value) + "]"
  {
    Wrap(home, m, ListMode)
  }

  /** Asking for the same wrapper twice gives the same type and the second
      request leaves the schema as the first one left it; the request fails
      only for an enum without choices, which caches nothing. */
  lemma WrapCached(home: Schema, m: Member, mode: Mode)
    requires Ensure(m).Ok? && HomeOf(Ensure(m).value) == home.id
    ensures Wrap(home, m, mode).Ok? <==> WrapperName(Ensure(m).value, mode) in home.cache
                                         || !NoChoices(Ensure(m).value)
    ensures Wrap(home, m, mode).Ok? ==> Wrap(Wrap(home, m, mode).value.0, m, mode) == Wrap(home, m, mode)
  {
  }

  /** The cache is keyed by name only: once `T!` is cached, a different type
      that happens to be called `T` too gets the cached wrapper of the first,
      even one whose own wrapper could not be created. */
  lemma CacheKeyedByName(home: Schema, a: GType, b: GType, mode: Mode)
    requires HomeOf(a) == home.id && HomeOf(b) == home.id
    requires Name(a) == Name(b)
    ensures Wrap(home, TypeMember(a), mode).Ok? <==> WrapperName(a, mode) in home.cache || !NoChoices(a)
    ensures Wrap(home, TypeMember(a), mode).Ok? ==>
              var (s, w) := Wrap(home, TypeMember(a), mode).value;
              Wrap(s, TypeMember(b), mode) == Ok((s, w))
  {
  }
}
